=== FILE: README.md ===
# react-use-token, modelled in Dafny

This project models the core of `react-use-token`, a library of composable
"tokens". A token is a proxy over a partial object built in layers by
features. Reading a property the token lacks creates a child token for that
key, once, and caches it. Each feature says which fields it adds to the token
and how every child gets its own fields.

The features modelled are:

- state: a root store reached through getter, setter and subscriber closures;
- path: the dotted path of every token;
- error, error messages and touched: entries of flat maps keyed by a token's full path;
- validation: debounced and versioned, with a status token;
- form: `validateForm` folds schema violations into a path-to-message map; `addForm` wires schema and validation.

Layout, one module per source file:

| file | module | source |
|---|---|---|
| `keys.dfy` | `Keys` | key normalisation of the proxy (`token.ts`) |
| `values.dfy` | `JsValues` | JavaScript values with object identity, reads and copy-on-write along a path |
| `paths.dfy` | `Paths` | the child-path rule (`path.ts`) |
| `state.dfy` | `State` | the closures of `addState` (`state.ts`) |
| `tokens.dfy` | `Tokens` | tokens, builders, the proxy `get`, the child rule, dispose (`token.ts`) |
| `statetoken.dfy` | `StateFeature` | `addState` on a builder and the token-level state API |
| `pathfeature.dfy` | `PathFeature` | `addPath`, `getTokenPath`, and the path-keyed lookup shared by the form features |
| `errorfeature.dfy` | `ErrorFeature` | `error.ts` |
| `errormessage.dfy` | `ErrorMessageFeature` | `error-message.ts` |
| `touched.dfy` | `Touched` | `touched.ts` |
| `validation.dfy` | `Validation` | `validation.ts` |
| `form.dfy` | `Form` | `form.ts` |

Main modelling choices:

- A token is a sequence of layers, one per feature, looked up newest first.
  This plays the part of the prototype chain.
- The `_childrenExtension` closure chain is a rule: a sequence of links applied
  in order. A link either copies fixed fields (`extendChildren: true`) or
  derives them from the child built so far, the parent and the key.
- The closures of the state feature are chains of capabilities that end at
  one `Store` object. `Store` holds the closure variables `value`,
  `initialized` and `subscriptions`.
- Objects and arrays carry an identity tag, so `===` and `!==` compare tags.
  Every `Object.assign` copy takes a fresh tag from an `Ids` counter.
- Calls to listeners and dispose callbacks outside the model are recorded in
  a log, in order.
- `errorsToken[path]` is a field naming its owner and key. It is looked up on
  the owner when read. The owner's cache makes that the same child as an
  eager lookup, so only the moment it enters the cache differs.
- Timers and promises of the validation feature become events: a change of
  the value, the debounce timer firing, and a validator promise resolving.
- `createToken` and `extendToken` live in token/index.ts, which is not
  modelled; they are read as follows. `createToken(ext)` is read as a root builder with `ext` applied, then built.
  `extendToken(token, ext)` is read as `ext` applied to the same builder.
- The `token` that `addError` and friends receive is read as the builder's
  partial token as it stands.
- The validation tests read the error through `getTokenErrorMessage`. But
  `addValidation` installs the error feature of `error.ts`, whose private
  symbol differs from that of `error-message.ts`. The model follows the code:
  `ErrorMessageFeature.AddErrorMessages` leaves the error feature's field
  untouched, and the two fields are independent.
- The touched test builds its token with `useStateToken`, which adds no path
  feature, although `addTouched`'s type asks for one. By the code, every token
  of that test then reads the one entry `touchedFieldsToken["undefined"]`, and
  marking `name` touched makes all five report touched, not only `name`.
  `Touched.MarkNameTouched` states the test's expectations for a token that
  carries `addPath()`; `Touched.MarkNameTouchedPathless` states what the code
  does with the token as the test builds it.

## Model

| member | source | states |
|---|---|---|
| Keys.Normalize | src/token/token.ts:50-53 | a string key becomes an index exactly when it is all decimal digits; symbols stay symbols; the result is always a normalised key |
| Keys.Decimal | src/token/token.ts:50-53 | the text of an index is all digits, with no leading zero unless it is 0 |
| Keys.KeyText | src/path/path.ts:29-31 | `String(property)`: the text of an index is digits, a name is its own text |
| Keys.DecimalRoundTrip | src/token/token.ts:50-53 | `parseInt` of the decimal text of `n` is `n` |
| Keys.LeadingZeroIgnored | src/token/token.ts:50-53 | a leading zero does not change the number `parseInt` reads |
| Keys.NormalizeDecimal | src/token/token.ts:49-53 | `t[3]` reaches the proxy as "3" and is normalised to index 3 |
| Keys.LeadingZerosShareChild | src/token/token.ts:50-55 | "03" and "3" normalise to the same index, so they share one cached child |
| Keys.NormalizeKeepsOthers | src/token/token.ts:50-53 | non-digit strings and symbols pass through unchanged |
| Keys.NormalizeAsPropertyKey | src/token/token.ts:50-55 | normalised keys and property names correspond one to one (round trip) |
| Keys.AsPropertyKeyInjective | src/token/token.ts:55-63 | distinct normalised keys address distinct cache slots |
| Keys.NormalizeIdempotent | src/token/token.ts:50-53 | normalising twice is normalising once |
| JsValues.CopyWith | src/state/state.ts:105-107 | the copy is a new object with the given tag, an array exactly for an index key; it has `x` at the key and the parent's value at every other key |
| JsValues.WritePath | src/state/state.ts:104-109 | a write through `ks` hands out exactly one fresh identity tag per key of `ks` |
| JsValues.WriteThenRead | src/state/state.ts:100-109 | reading back the path just written yields the written value |
| JsValues.ReadPathStep | src/state/state.ts:100-103 | reading depth `i+1` is `?.[key]` of the value at depth `i` |
| JsValues.ReadPathSnoc | src/state/state.ts:100-103 | a child reads its key from the parent's value |
| JsValues.WritePathSnoc | src/state/state.ts:104-109 | a child's setter hands its parent's setter a copy of the parent's value with one key replaced |
| JsValues.WriteKeepsSibling | src/state/state.ts:104-109 | a write below one key leaves a sibling key's value as it was |
| JsValues.WriteAncestors | src/state/state.ts:105-107 | every ancestor on the written path is a new object or array with a handed-out tag, other keys unchanged |
| JsValues.WriteRenewsAncestors | src/state/state.ts:104-109 | no ancestor of the written value is `===` to the one it replaces |
| JsValues.FlatObject | src/form/error.ts:13-15 | a flat object keyed by strings: reading a string key gives the entry, or undefined |
| JsValues.FlatObjectKeys | src/form/validation.ts:79 | `Object.keys` of a flat object are its entries' keys |
| Paths.ChildPath | src/path/path.ts:29-31 | under an empty parent path the key text alone, otherwise parent, `.`, key text |
| Paths.ChildExtendsParent | src/path/path.ts:29-31 | a non-empty parent path followed by `.` is a prefix of the child's path |
| Paths.RootPathIsJoin | src/path/path.ts:28-36 | from the empty path, keys with non-empty texts give their `.`-join |
| Paths.ChildrenZeroName | src/path/path.spec.ts:7-10 | `children`, `children.0`, `children.0.name` |
| State.IndexOf | src/state/state.ts:94 | `indexOf`: -1 exactly when absent, else the first occurrence |
| State.RemoveFirstCount | src/state/state.ts:93-96 | the disposer removes exactly one registration of the listener, if any |
| State.RemoveFirstOrder | src/state/state.ts:93-96 | the remaining listeners keep their order |
| State.Store.constructor | src/state/state.ts:65-74 | a plain initializer is stored and marked initialised; a function one waits; no subscriptions |
| State.Store.Get | src/state/state.ts:78-84 | returns the current value; the first read of a lazy store calls the initializer once, later reads never |
| State.Store.Set | src/state/state.ts:85-90 | the corrected setter: stores `x`, marks the store initialised, calls every listener registered at the start once, in order, with `x`; snapshots that tracked the old value track `x` when `x` keeps the identities along each listener's keys |
| State.Store.SetAsWritten | src/state/state.ts:85-90 | the setter as written: stores `x` and notifies, but leaves `initialized` as it was |
| State.Store.Notify | src/state/state.ts:87-89 | iterates a snapshot of the subscriptions, delivering `x` to each in order; snapshots that tracked `u` track `x` afterwards when `x` keeps the identities along each listener's keys |
| State.Store.Subscribe | src/state/state.ts:91-92 | appends the listener and changes nothing else; the store still tracks its value when the new listener tracks it |
| State.Store.Unsubscribe | src/state/state.ts:93-96 | removes the first occurrence of the listener and changes nothing else; the remaining listeners still track the value |
| State.Deliver | src/state/state.ts:112-118 | an outside listener is called with `v`; a child wrapper forwards its projection only when it is not `===` its snapshot, then keeps it as snapshot, so every wrapper level that tracked `u` tracks `v` when `v` keeps the identities along its keys |
| State.GetValue | src/state/state.ts:100-103 | a getter chain returns the root value projected along its keys |
| State.NotifyAll | src/state/state.ts:87-89 | calling every listener of the copied list in order makes exactly the outside calls each delivery makes, concatenated, and leaves every listener that tracked `u` tracking `x` when `x` keeps the identities along its keys |
| State.NotifyNext | src/state/state.ts:87-89 | one iteration: the listener just called owns its cells, so what the remaining listeners will emit is unchanged, the ones before it still track `x` and the ones after it still track `u` |
| State.DeliverAmong | src/state/state.ts:88 | a delivery to one listener leaves the snapshots of the listeners before and after it as they were |
| State.SetValue | src/state/state.ts:104-109 | with the corrected root setter (Findings row 1), a setter chain replaces the root by a copy-on-write along its keys and notifies the root's listeners with the new root; listeners that tracked the old root track the new one when the write keeps the identities along their keys |
| State.SetThroughParent | src/state/state.ts:104-109 | a child setter's write through its parent is the write of `x` at the child's full path: its copy is the first object created, and the listeners keep tracking as for `SetValue` |
| State.CopyFromParent | src/state/state.ts:105-108 | the copy handed to the parent is the parent's current value with the child's key set to `x`, under the next tag, and the store keeps its value |
| State.SubscribeVia | src/state/state.ts:110-119 | the root registers one wrapper chain spelling the token's keys around the callback, with snapshots of the current value |
| State.SubscribeThroughParent | src/state/state.ts:110-119 | a child's subscription registers at the root a chain whose keys are the child's path followed by the callback's own keys, tracking the current value |
| State.Wrap | src/state/state.ts:111-118 | the wrapper's snapshot is the child's current value, so it tracks the parent's value one key up, and its cell is new |
| State.AllChangedCons | src/state/state.ts:112-118 | a chain's levels all changed exactly when its outermost key changed and every level below it changed |
| State.ReadPathCons | src/state/state.ts:100-103 | reading a path is reading its first key, then the rest below it |
| State.EmittedTracked | src/state/state.ts:112-118 | a subscription fires once, with its projection of the new root, exactly when every level of the projection changed |
| State.OwnWriteFires | src/state/state.ts:110-119 | writing a new value at the subscribed path calls the callback exactly once, with that value |
| State.SiblingWriteSilent | src/state/state.ts:110-119 | a write at or anywhere below a sibling of any level of the subscribed path does not call the callback |
| State.SameWhenIdenticalCons | src/state/state.ts:112-118 | identities are kept along a chain's keys exactly when they are kept at the top and along the keys below its outermost one |
| State.WriteKeepsIdentities | src/state/state.ts:104-109 | a copy-on-write with fresh tags keeps the identities along any path: its renewed ancestors are not `===` the old ones, and a path that leaves the written path meets the old values unchanged |
| State.WriteKeepsAllIdentities | src/state/state.ts:104-109 | such a write keeps the identities along every registered listener's keys |
| State.PrimitiveKeepsIdentities | src/state/state.ts:112-118 | writing a primitive keeps every identity: below it everything reads undefined, and primitives are `===` only when equal |
| State.RegisteredEmits | src/state/state.ts:110-119 | while the store's snapshots track its value, any registered subscription fires on the next value exactly as `EmittedTracked` says, whatever writes came before |
| State.TracksAllAt | src/state/state.ts:87-89 | the store tracks a value exactly when each of its listeners does |
| State.SetBeforeFirstReadAsWritten | src/state/state.ts:79-90 | as written, a lazy state written before its first read returns the initializer's result, losing the write |
| State.SetBeforeFirstRead | src/state/state.ts:79-90 | with the corrected setter the first read returns the value written |
| Tokens.Present | src/token/token.ts:46-47 | a property the target has: its field from the newest layer, an internal slot, or an inherited `Object.prototype` member |
| Tokens.PathKey | src/form/error.ts:39 | the key `errorsToken[getTokenPath(token)]` uses: the path text |
| Tokens.DeriveFields | src/token/token.ts:228-239 | what each feature's `extendChildren` function gives a child: state closures over the parent's, the child path, `owner[child path]`, the reached schema |
| Tokens.StepFeature | src/token/token.ts:232-250 | a link adds its fields and passes the same `extendChildren` on to the child |
| Tokens.DeriveLayers | src/token/token.ts:221-251 | a rule gives a child one layer per link |
| Tokens.LastWriter | src/token/token.ts:214-218 | the last link writing a key, with no later link writing it |
| Tokens.Token.Get | src/token/token.ts:40-66 | the proxy `get`: the target for `_target`; the property when the target has it; else the cached child for the normalised key, or a new one derived by the rule and cached |
| Tokens.TokenBuilder.Root | src/token/token.ts:158-176 | a new builder: no fields, identity child rule, empty cache, no-op dispose |
| Tokens.TokenBuilder.FromBase | src/token/token.ts:158-176 | a builder over a base token: its fields and rule, a new cache and a no-op dispose |
| Tokens.TokenBuilder.AddFeature | src/token/token.ts:199-266 | a new layer with the feature's fields, its link after the rule, its dispose after the others |
| Tokens.TokenBuilder.ReplaceFeature | src/token/token.ts:178-197 | identical to `addFeature` at run time |
| Tokens.TokenBuilder.Peek | src/token/token.ts:281-283 | the partial token as it stands |
| Tokens.TokenBuilder.Build | src/token/token.ts:75-88 | one proxy per partial token, reused until a feature is added; it carries the builder's fields, rule and dispose chain |
| Tokens.ApplyRule | src/token/token.ts:58-61 | making a child runs the links in order, each seeing the layers of the earlier ones |
| Tokens.DisposeToken | src/token/token.ts:114-116 | calls every feature's dispose callback, earliest feature first |
| Tokens.RunDisposers | src/token/token.ts:255-263 | each link of the dispose chain runs the previous one first |
| Tokens.LookupShadows | src/token/token.ts:214-218 | a new layer shadows the properties it defines and leaves the others as they were |
| Tokens.DeriveLayersPrefix | src/token/token.ts:221-251 | the first `j` links give the first `j` layers of the whole rule's |
| Tokens.LinkSeesEarlierLinks | src/token/token.ts:228-239 | each derived link computes its fields from the child carrying exactly the earlier links' layers |
| Tokens.CopyLinkInstalled | src/token/token.ts:241-251 | an `extendChildren: true` link gives every child the feature's own fields |
| Tokens.CopyAtEveryDepth | src/token/token.spec.ts:25-28 | and so does every descendant, at any depth |
| Tokens.DigitsNotPrototypeNames | src/token/token.ts:46-53 | digit keys are never inherited names, so they reach children unless a layer defines them |
| Tokens.GetTwice | src/token/token.ts:55-65 | reading a property twice gives the same result; a child is made once |
| Tokens.SpellingsShareChild | src/token/token.ts:50-65 | `t["3"]`, `t[3]` and `t["03"]` return the same cached child |
| Tokens.StepFieldsKeys | src/token/token.ts:220-253 | a link's layer has exactly the keys the link writes |
| Tokens.LookupDerived | src/token/token.ts:214-218 | on a derived child a property is in the layer of the last link writing it, absent when none does |
| Tokens.DescendantSnoc | src/token/token.ts:58-63 | a grandchild is derived from the child as the child is derived from the token |
| Tokens.LastWriterPrefix | src/token/token.ts:220-253 | a key's last writer is unchanged by cutting off links after it |
| Tokens.LastWriterSnoc | src/token/token.ts:220-253 | an appended link is the last writer of its keys and leaves the others' last writer alone |
| Tokens.CopiedFieldEverywhere | src/token/token.ts:241-251 | a field copied unchanged by its last writer is the same on every descendant |
| StateFeature.AddState | src/state/state.ts:62-122 | a new store with the initializer, lazy exactly when it is a function, the root closures as a layer, and the state link appended |
| StateFeature.StateChildFields | src/state/state.ts:99-120 | a child's getter, setter and subscriber wrap its parent's at its key |
| StateFeature.DescendantClosures | src/state/state.ts:99-120 | a descendant's closures are the chains of its keys over the token's own |
| StateFeature.GettersReachRoot | src/state/state.ts:100-103 | a descendant's getter chain reads the root store along exactly its keys |
| StateFeature.SettersReachRoot | src/state/state.ts:104-109 | its setter chain writes the root store along exactly its keys, each link reading its parent at the same path |
| StateFeature.SubscribersReachRoot | src/state/state.ts:110-119 | its subscriber chain subscribes to the root store along exactly its keys |
| StateFeature.DescendantState | src/state/state.ts:99-120 | every descendant reads, writes and subscribes through the one root store at its own path |
| StateFeature.GetTokenValue | src/state/state.ts:124-126 | the token's projection of the root value; the value and subscriptions are unchanged |
| StateFeature.SetTokenValue | src/state/state.ts:128-133 | with the corrected root setter (Findings row 1), the root becomes the copy-on-write of `x` at the token's path, and its listeners are notified with it; with fresh tags and `x` keeping what listeners below it see as `===`, every listener that tracked the old root tracks the new one |
| StateFeature.SubscribeToTokenValue | src/state/state.ts:135-140 | the root registers one wrapper chain at the token's path around the callback |
| StateFeature.SetThenGet | src/state/state.spec.ts:57-63 | with the corrected root setter (Findings row 1), a token's write followed by its read returns the value written; as written, a write before the first read is lost (`State.SetBeforeFirstReadAsWritten`) |
| StateFeature.ChildAccess | src/token/token.ts:40-66 | `owner[key]` for a name the target lacks is an inherited member exactly for `Object.prototype` names, and otherwise the child whose getter and setter read and write the root at the normalised key |
| StateFeature.GetChildValue | src/state/state.ts:100-103 | `getTokenValue(owner[key])` is the root's property at the normalised key; an inherited name is a TypeError |
| StateFeature.SetChildValue | src/state/state.ts:104-109 | `setTokenValue(owner[key], x)` replaces the root by a copy with only that key set, and notifies; an inherited name throws |
| PathFeature.AddPath | src/path/path.ts:21-38 | the token gets the initial path and the path link is appended |
| PathFeature.GetTokenPath | src/path/path.ts:40-42 | returns the token's path field |
| PathFeature.ChildPathField | src/path/path.ts:28-36 | a child's path follows the child-path rule from the parent's |
| PathFeature.DescendantPaths | src/path/path.ts:28-36 | the descendant reached by `ks` has path `DescendantPath(root, ks)` |
| PathFeature.ChildrenZeroNamePath | src/path/path.spec.ts:5-10 | from `addPath()`, `children`, `0`, `name` has path `children.0.name` |
| PathFeature.ChildLookupField | src/form/error.ts:41-43 | a child's lookup field names `owner[the child's own path]` |
| PathFeature.DescendantLookup | src/form/error.ts:41-43 | and so does every descendant's |
| PathFeature.AddPathKeyed | src/form/error.ts:36-44 | the token gets `owner[its path]` under the feature's symbol, its path untouched, and the lookup link after the path link |
| PathFeature.ReadPathKeyed | src/token/token.ts:44-47 | reading the path-keyed field returns the field stored on the token and creates no child |
| PathFeature.PathKeyedDescendants | src/form/error.ts:36-44 | the token and every descendant hold `owner[full path]`, one flat key |
| ErrorFeature.AddError | src/form/error.ts:32-45 | the token and every descendant read `errorsToken[their full path]` |
| ErrorFeature.GetTokenError | src/form/error.ts:47-49 | the errors map's entry at the whole path, read now; an inherited name is a TypeError |
| ErrorMessageFeature.AddErrorMessages | src/form/error-message.ts:35-48 | the same path-keyed lookup under its own symbol, leaving the error feature's field alone |
| ErrorMessageFeature.GetTokenErrorMessage | src/form/error-message.ts:50-54 | the errors map's entry at the whole path, read now |
| Touched.AddTouched | src/form/touched.ts:24-39 | the root entry is keyed by the path before this feature, each descendant's by its own path |
| Touched.GetTokenTouched | src/form/touched.ts:41-45 | the touched map's entry at the token's path, undefined when absent |
| Touched.SetTokenTouched | src/form/touched.ts:47-52 | the map becomes a copy with the token's entry set to `touched` and every other entry unchanged, and listeners are notified |
| Touched.ReportedTouched | src/form/touched.ts:57-61 | `Boolean(entry)`: undefined and null report false, a boolean reports itself |
| Touched.MarkNameTouched | src/form/touched.spec.ts:56-62 | for a token whose paths start at "" (one carrying `addPath()`), marking `name` touched makes only `name` report true |
| PathFeature.PathlessKeyedDescendants | src/form/touched.ts:29-35 | on a token with no path feature, the token and every descendant hold the one entry `owner["undefined"]` |
| Touched.MarkNameTouchedPathless | src/form/touched.spec.ts:24-62 | with the test's token as built (no path feature), all five tokens read the entry "undefined", which marking `name` sets to true, so all report touched |
| Validation.Verdict | src/form/validation.ts:76-80 | `valid` exactly when the errors have no keys, `invalid` exactly when they have some |
| Validation.NextConsistent | src/form/validation.ts:63-91 | every event keeps the status one of the four strings, the pending run current, and no run newer than the version |
| Validation.ReplayConsistent | src/form/validation.ts:63-91 | so does every sequence of events |
| Validation.VersionCountsChanges | src/form/validation.ts:89 | the version grows by exactly one per change |
| Validation.BurstKeepsLast | src/utils/debounce.ts:3-6 | after a burst of changes only the last value waits, with the last version |
| Validation.OnlyLastRunFires | src/form/validation.ts:85-90 | after a burst and the timer, exactly one run starts: the last value's |
| Validation.StaleResultIgnored | src/form/validation.ts:70 | a stale run's result changes neither errors nor status |
| Validation.ChangedRunStaysStale | src/form/validation.ts:70 | a run in flight during a change never becomes current again |
| Validation.CurrentResultCommits | src/form/validation.ts:76-80 | with the corrected root setter, a current result replaces the errors; the status is `valid` exactly when there are none |
| Validation.ErrorsLostAsWritten | src/form/validation.ts:55-57 | with the root setter as written, the commit at validation.ts:76 leaves the lazy errors store uninitialised, so the next read gives `{}`, not the result |
| Validation.AttachFireResolve | src/form/validation.spec.ts:25-55 | with the corrected root setter: status `pending` at first; after the timer and the validator, `invalid` with the `name` error, or `valid` with `{}` |
| Validation.Validator.constructor | src/form/validation.ts:63 | version 0, nothing pending or in flight |
| Validation.Validator.Schedule | src/utils/debounce.ts:3-6 | the new call replaces the one waiting for the timer |
| Validation.Validator.OnChange | src/form/validation.ts:87-91 | the step `Change(v)`: status `pending` (listeners notified), version plus one, a run scheduled; the status listeners keep tracking |
| Validation.Validator.OnFire | src/form/validation.ts:66-67 | with the corrected root setter (Findings row 1), the step `Fire`: status `validating` and the run in flight, or nothing when none waits; the status listeners keep tracking |
| Validation.Validator.OnResolve | src/form/validation.ts:68-80 | the step `Resolve`, with the corrected root setter: a stale run does nothing; a current one sets errors, then status; the status listeners keep tracking, the errors listeners too when the result keeps their identities |
| Validation.Validator.Commit | src/form/validation.ts:77-81 | the errors become the result and the status its verdict, the errors listeners notified before the status listeners |
| Validation.StatusKeepsIdentities | src/form/validation.ts:22 | a status is a string, so writing one keeps the identities along every listener's keys |
| Validation.CreateStateToken | src/form/validation.ts:55-61 | a token whose own closures are a new store's, lazy exactly when the initializer is a function |
| Validation.NewValidator | src/form/validation.ts:55-63 | errors `{}` and status `pending`, both lazy and not yet initialised, version 0 |
| Validation.ExtendValidated | src/form/validation.ts:93-106 | path from "", the error feature, and the status token on the token and every descendant |
| Validation.StartValidation | src/form/validation.ts:85-91 | the run scheduled holds the token's current value and the current version; the hook is registered at the root under the token's own keys, and the value is unchanged |
| Validation.AddValidation | src/form/validation.ts:49-110 | a run scheduled with the current value at version 0, the hook subscribed to the value, and the three extensions |
| Validation.GetTokenValidationStatus | src/form/validation.ts:112-116 | the status token's value now |
| Form.ValidateForm | src/form/form.ts:68-89 | the loop yields exactly the paths violations name, each with its messages combined in order; `{}` when the schema passes or fails otherwise |
| Form.AggregateKeys | src/form/form.ts:77-85 | the result's keys are the named paths |
| Form.AggregateEntry | src/form/form.ts:77-85 | each path's entry is built from that path's messages alone |
| Form.CombinedJoins | src/form/form.ts:80-84 | non-empty messages are joined by single spaces |
| Form.EmptyEntryOverwritten | src/form/form.ts:80-84 | an empty message is falsy, so the next message replaces it |
| Form.PathlessSkipped | src/form/form.ts:78 | a violation without a path leaves the map as it was |
| Form.NoViolationsNoErrors | src/form/form.ts:69-88 | a passing schema, a non-validation error or only pathless violations give `{}` |
| Form.FormVerdict | src/form/form.ts:68-89 | validation settles on `valid` exactly when no violation names a path |
| Form.AddSchema | src/form/schema.ts:16-34 | the schema is stored on the token, and the getter and subscriber it reads the value through are unchanged |
| Form.AddForm | src/form/form.ts:52-66 | the schema feature first, then validation; the delay is 200 ms unless given |

## Left out

- React hooks (`useToken`, `useTokenExtension`, `useStateToken`, `useTokenValue`, `useTokenSetter`, `useTokenState`, `useTokenError`, `useTokenErrorMessage`, `useTokenTouched`, `useTokenValidationStatus`, `useFormToken`): rendering and effects are outside the model. Only `Boolean(entry)` of `useTokenTouched` is kept, as `Touched.ReportedTouched`.
- The JavaScript `Proxy` itself, `getProxyTarget` and `restoreToken` beyond `Build`: a token is a value with a `Get` method.
- Property access other than `get` (has, set, ownKeys) on a token: the source defines only the `get` trap.
- Timers: `debounceMs` is recorded, but when the timer fires is an event (`Fire`), not a time.
- Promises: the validator's answer is an event (`Resolve`). The validator is a parameter, not run.
- `console.info` of the validation errors: output.
- The yup library: `schema.validate` is given as its outcome (`SchemaOutcome`). `reach` and `tryReach` are kept symbolic (`SchemaRef`), so a child's schema is named but not computed. A `reach` that throws, which yields null, is not separated from a schema found.
- `getTokenSchema` and `useTokenSchemaInfo` (schema.ts): schema.ts is a helper of the form feature and is not part of this model beyond `addSchema`'s fields.
- `createToken` and `extendToken`: token/index.ts is not part of this model. They are read as described above.
- `StateFeature.GetChildValue`, `StateFeature.SetChildValue` and the `GetToken*` and `SetTokenTouched` methods require that the owner is a root state token (its own getter, setter and subscriber are the store's root closures), that it has no own field of that name and that its only cached children are derived ones. Reading a key a feature defines on the owner is `Tokens.Token.Get`'s other branch.
- Validation.AddValidation: states that the validator is a new object but not that its errors and status stores are; `Validation.NewValidator` states that.
- `Validation.AddValidation`: the hook is an outside listener. A driver turns its call into `Validator.OnChange`; that link is not a proof obligation.
- `Form.AddForm`: which validator answers the runs (`validateForm` over the schema) is not tied to `OnResolve`. `Form.FormVerdict` states what that validator's answer means for the status.
- `Form.ValidateForm`: paths naming `Object.prototype` members are treated as absent entries. In the source such an entry is the inherited function, which is truthy, so the message would be appended to its text.
- `JsValues.CopyWith`: `Object.assign` from a string parent copies its characters as indexed properties; here a string parent copies nothing. Arrays are objects whose keys are their indices, so an array parent's elements are copied.
- `JsValues.StringKeys` of a value that is not an object is empty. `Object.keys` of a string lists its indices, but the errors are always objects.
- Numbers are unbounded integers: floating point, NaN and `parseInt` beyond 2^53 are outside the model.
- JsValues.Get: `?.[key]` is modelled on objects only. A property of a primitive (a string's characters, its `length`), an array's `length` and inherited members all read as undefined.
- JsValues.ReadPathStep: each step reads through `JsValues.Get`, so it shares that gap for string parents and `length`.
- State.GetValue: a child's projection reads through `JsValues.Get`, so with state `{items: [10, 20]}` the model reads `items.length` as undefined, and with state `"ab"` it reads `[0]` as undefined.
- Validation.Validator.OnResolve: the errors and status stores are written with the corrected root setter (see Findings). With the setter as written, the commit at validation.ts:76 leaves the lazy errors store uninitialised, and the next read gives `{}`; `Validation.ErrorsLostAsWritten` states that.
- State.SetValue, StateFeature.SetTokenValue, StateFeature.SetThenGet: the root is written with the corrected root setter (Findings row 1). As written, a write before the first read leaves the store uninitialised, so `addState(() => a)`, a set of `b` and a get return `a`; `State.SetBeforeFirstReadAsWritten` states that case.
- Validation.Validator.OnFire: the status store is written with the corrected root setter (Findings row 1). As written, the `validating` written at validation.ts:67 into the lazy status store, before anything reads it, is lost and the next read gives `pending`.
- StateFeature.SetTokenValue: that the tags a write hands out are newer than every tag in the store (`PathTagsBelow` at `ids.next`) is an antecedent of its tracking clause, not an invariant the model keeps between `Ids` and the stores.
- State.Store.Set, State.SetValue and Validation.Validator.OnResolve: snapshots keep tracking only when the written value keeps identities (`SameWhenIdentical`): a tag stands for one object, which JavaScript's `===` on references gives for free but the model's tags must be told.
- State.Store.Notify: a listener that subscribes or unsubscribes while it is being called is not modelled. Outside listeners only record their call, and the library's own wrappers do neither.

## Findings

| source | as written | input that shows it | evidently intended | confidence | as-written member | corrected member |
|---|---|---|---|---|---|---|
| src/state/state.ts:85-90 | the root setter stores the value but never sets `initialized` | `addState(() => a)`, then `setTokenValue(token, b)` before any read, then `getTokenValue(token)`: the first read runs the initializer and returns `a`, losing `b` | a write marks the state initialised, so the read returns `b` | not executed | State.SetBeforeFirstReadAsWritten | State.SetBeforeFirstRead |
| src/form/validation.ts:55-76 | the errors token is lazy and nothing reads it before the commit of a current result, which uses the root setter above | a form token over a schema requiring `firstName`, with a 0 ms delay; the timer fires and the validator resolves with the errors (form.spec.ts:24-37). `getTokenError(formToken.firstName)` is then the first read of the errors token: it runs the initializer and reads undefined from `{}`, so the expected message is lost | the committed errors are what the next read returns | not executed | Validation.ErrorsLostAsWritten | Validation.Validator.OnResolve |

=== FILE: errorfeature.dfy ===
/**
 * The error feature (src/form/error.ts): a token's error is the entry of a
 * flat errors map keyed by the token's full path, read through the errors
 * token when it is asked for.
 */
module ErrorFeature {
  import opened Keys
  import opened JsValues
  import opened Paths
  import opened State
  import opened Tokens
  import opened StateFeature
  import opened PathFeature

  /**
   * `addError({ errorsToken })` applied to a builder (error.ts:32-45): the
   * token gets `errorsToken[its path]` and every descendant
   * `errorsToken[its own path]`, read from the path feature installed before.
   */
  method AddError(b: TokenBuilder, errorsToken: Token)
    requires b.Valid()
    modifies b
    ensures b.Valid() && b.disposers == old(b.disposers)
    ensures b.layers == old(b.layers) + [PathKeyedLayer(ErrorTokenSym, errorsToken, old(b.layers))]
    ensures b.rule == old(b.rule) + [Derive(LookupChild(ErrorTokenSym, errorsToken))]
    ensures Lookup(b.layers, Sym(ErrorTokenSym)) == Some(LookupField(errorsToken, PathKey(old(b.layers))))
    ensures PathValue(b.layers) == PathValue(old(b.layers))
    ensures PathLinked(old(b.rule)) ==> LookupLinked(b.rule, ErrorTokenSym, errorsToken)
    ensures PathLinked(old(b.rule)) && PathValue(old(b.layers)).Some? ==>
      forall ks :: Lookup(DescendantLayers(b.layers, b.rule, ks), Sym(ErrorTokenSym))
        == Some(LookupField(errorsToken, Name(DescendantPath(PathValue(old(b.layers)).value, ks))))
  {
    ghost var layers, rule := b.layers, b.rule;
    AddPathKeyed(b, ErrorTokenSym, errorsToken);
    if PathLinked(rule) && PathValue(layers).Some? {
      forall ks
        ensures Lookup(DescendantLayers(b.layers, b.rule, ks), Sym(ErrorTokenSym))
          == Some(LookupField(errorsToken, Name(DescendantPath(PathValue(layers).value, ks))))
      {
        PathKeyedDescendants(layers, rule, ErrorTokenSym, errorsToken, PathValue(layers).value, ks);
      }
    }
  }

  /**
   * `getTokenError(token)` (error.ts:47-49) on a token whose error field is
   * `errorsToken[path]`: the entry of the errors map as it is now, under the
   * whole path as one key. A path naming an `Object.prototype` member reaches
   * an inherited function instead of a child token: a TypeError.
   */
  method GetTokenError(t: Token, errorsToken: Token, st: Store, path: string) returns (r: Outcome)
    requires Lookup(t.layers, Sym(ErrorTokenSym)) == Some(LookupField(errorsToken, Name(path)))
    requires Lookup(errorsToken.layers, Name(path)).None? && StateOwner(errorsToken, st)
    modifies t.cache, errorsToken.cache, st
    ensures StateOwner(errorsToken, st)
    ensures st.Current() == old(st.Current()) && st.subscriptions == old(st.subscriptions)
    ensures path in ObjectPrototypeNames ==> r == TypeError
    ensures path !in ObjectPrototypeNames ==> r == Returned(Get(old(st.Current()), AsPropertyKey(Normalize(Name(path)))))
    ensures path !in ObjectPrototypeNames && !AllDigits(path) ==> r == Returned(Get(old(st.Current()), Name(path)))
  {
    var f := ReadPathKeyed(t, ErrorTokenSym);
    if !AllDigits(path) {
      NormalizeKeepsOthers(Name(path));
    }
    r := GetChildValue(f.owner, st, f.key);
  }
}

=== FILE: errormessage.dfy ===
/**
 * The older error-message feature (src/form/error-message.ts): the same
 * path-keyed lookup as the error feature, under a private key of its own, so
 * the two never see each other's field.
 */
module ErrorMessageFeature {
  import opened Keys
  import opened JsValues
  import opened Paths
  import opened State
  import opened Tokens
  import opened StateFeature
  import opened PathFeature

  /** `addErrorMessages({ errorsToken })` applied to a builder (error-message.ts:35-48). */
  method AddErrorMessages(b: TokenBuilder, errorsToken: Token)
    requires b.Valid()
    modifies b
    ensures b.Valid() && b.disposers == old(b.disposers)
    ensures b.layers == old(b.layers) + [PathKeyedLayer(ErrorMessageTokenSym, errorsToken, old(b.layers))]
    ensures b.rule == old(b.rule) + [Derive(LookupChild(ErrorMessageTokenSym, errorsToken))]
    ensures Lookup(b.layers, Sym(ErrorMessageTokenSym)) == Some(LookupField(errorsToken, PathKey(old(b.layers))))
    ensures Lookup(b.layers, Sym(ErrorTokenSym)) == Lookup(old(b.layers), Sym(ErrorTokenSym))
    ensures PathLinked(old(b.rule)) && PathValue(old(b.layers)).Some? ==>
      forall ks :: Lookup(DescendantLayers(b.layers, b.rule, ks), Sym(ErrorMessageTokenSym))
        == Some(LookupField(errorsToken, Name(DescendantPath(PathValue(old(b.layers)).value, ks))))
  {
    ghost var layers, rule := b.layers, b.rule;
    AddPathKeyed(b, ErrorMessageTokenSym, errorsToken);
    LookupShadows(layers, PathKeyedLayer(ErrorMessageTokenSym, errorsToken, layers), Sym(ErrorTokenSym));
    if PathLinked(rule) && PathValue(layers).Some? {
      forall ks
        ensures Lookup(DescendantLayers(b.layers, b.rule, ks), Sym(ErrorMessageTokenSym))
          == Some(LookupField(errorsToken, Name(DescendantPath(PathValue(layers).value, ks))))
      {
        PathKeyedDescendants(layers, rule, ErrorMessageTokenSym, errorsToken, PathValue(layers).value, ks);
      }
    }
  }

  /** `getTokenErrorMessage(token)` (error-message.ts:50-54): a live read of `errors[path]`. */
  method GetTokenErrorMessage(t: Token, errorsToken: Token, st: Store, path: string) returns (r: Outcome)
    requires Lookup(t.layers, Sym(ErrorMessageTokenSym)) == Some(LookupField(errorsToken, Name(path)))
    requires Lookup(errorsToken.layers, Name(path)).None? && StateOwner(errorsToken, st)
    modifies t.cache, errorsToken.cache, st
    ensures StateOwner(errorsToken, st)
    ensures st.Current() == old(st.Current()) && st.subscriptions == old(st.subscriptions)
    ensures path in ObjectPrototypeNames ==> r == TypeError
    ensures path !in ObjectPrototypeNames ==> r == Returned(Get(old(st.Current()), AsPropertyKey(Normalize(Name(path)))))
    ensures path !in ObjectPrototypeNames && !AllDigits(path) ==> r == Returned(Get(old(st.Current()), Name(path)))
  {
    var f := ReadPathKeyed(t, ErrorMessageTokenSym);
    if !AllDigits(path) {
      NormalizeKeepsOthers(Name(path));
    }
    r := GetChildValue(f.owner, st, f.key);
  }
}

=== FILE: form.dfy ===
/**
 * The form feature (src/form/form.ts): `validateForm` folds the violations a
 * schema reports into a flat map from path to message, and `addForm` layers
 * the schema feature and then validation.
 */
module Form {
  import opened Keys
  import opened JsValues
  import opened Paths
  import opened State
  import opened Tokens
  import opened StateFeature
  import opened PathFeature
  import opened ErrorFeature
  import opened Validation

  /** One inner error of a yup `ValidationError`: its path, if any, and its message. */
  datatype Violation = Violation(path: Option<string>, message: string)

  /** How `schema.validate(value, ...)` settles: it passes, throws a `ValidationError`, or throws anything else. */
  datatype SchemaOutcome = Passed | Rejected(inner: seq<Violation>) | Failed

  /** `if (!error.path) continue;`: no path and the empty path are both skipped. */
  predicate HasPath(v: Violation) {
    v.path.Some? && v.path.value != ""
  }

  /** One iteration of the loop (form.ts:78-84): a truthy entry gets `' ' + message` appended, else the message is stored. */
  function Record(errors: map<string, string>, v: Violation): map<string, string> {
    if !HasPath(v) then errors
    else if v.path.value in errors && errors[v.path.value] != "" then errors[v.path.value := errors[v.path.value] + " " + v.message]
    else errors[v.path.value := v.message]
  }

  /** The map the loop builds from `{}` over the violations in order. */
  function Aggregate(vs: seq<Violation>): map<string, string>
    decreases |vs|
  {
    if vs == [] then map[] else Record(Aggregate(vs[..|vs| - 1]), vs[|vs| - 1])
  }

  /** What `validateForm` resolves with: the aggregate for a `ValidationError`, `{}` otherwise. */
  function FormErrors(o: SchemaOutcome): map<string, string> {
    if o.Rejected? then Aggregate(o.inner) else map[]
  }

  /** `validateForm(schema, value)` (form.ts:68-89), given how the schema settled on `value`. */
  method ValidateForm(o: SchemaOutcome) returns (errors: map<string, string>)
    ensures errors == FormErrors(o)
    ensures errors.Keys == (if o.Rejected? then PathsOf(o.inner) else {})
    ensures forall p :: p in errors ==> errors[p] == Combined(MessagesFor(o.inner, p))
  {
    errors := map[];
    if o.Rejected? {
      var vs := o.inner;
      var i := 0;
      while i < |vs|
        invariant 0 <= i <= |vs|
        invariant errors == Aggregate(vs[..i])
      {
        var e := vs[i];
        assert vs[..i + 1] == vs[..i] + [e];
        if e.path.None? || e.path.value == "" {
          i := i + 1;
          continue;
        }
        var p := e.path.value;
        if p in errors && errors[p] != "" {
          errors := errors[p := errors[p] + " " + e.message];
        } else {
          errors := errors[p := e.message];
        }
        i := i + 1;
      }
      assert vs[..|vs|] == vs;
      AggregateKeys(vs);
      forall p | p in errors
        ensures errors[p] == Combined(MessagesFor(o.inner, p))
      {
        AggregateEntry(vs, p);
      }
    }
  }

  /** The paths the violations name, the empty one aside. */
  function PathsOf(vs: seq<Violation>): set<string> {
    set i | 0 <= i < |vs| && HasPath(vs[i]) :: vs[i].path.value
  }

  /** The messages of the violations at path `p`, in order. */
  function MessagesFor(vs: seq<Violation>, p: string): seq<string>
    decreases |vs|
  {
    if vs == [] then []
    else MessagesFor(vs[..|vs| - 1], p) + (if vs[|vs| - 1].path == Some(p) then [vs[|vs| - 1].message] else [])
  }

  /** The entry one path's messages build: each is appended after a space to a truthy entry, and replaces a falsy one. */
  function Combined(ms: seq<string>): string
    decreases |ms|
  {
    if ms == [] then ""
    else
      var acc := Combined(ms[..|ms| - 1]);
      if acc != "" then acc + " " + ms[|ms| - 1] else ms[|ms| - 1]
  }

  /** The messages joined by single spaces. */
  function JoinSpaces(ms: seq<string>): string
    decreases |ms|
  {
    if ms == [] then ""
    else if |ms| == 1 then ms[0]
    else JoinSpaces(ms[..|ms| - 1]) + " " + ms[|ms| - 1]
  }

  /** The result's keys are exactly the paths the violations name (form.ts:77-85). */
  lemma {:induction false} AggregateKeys(vs: seq<Violation>)
    ensures Aggregate(vs).Keys == PathsOf(vs)
    decreases |vs|
  {
    if vs != [] {
      var init := vs[..|vs| - 1];
      AggregateKeys(init);
      var last := vs[|vs| - 1];
      forall p | p in PathsOf(vs)
        ensures p in PathsOf(init) || (HasPath(last) && p == last.path.value)
      {
        var i :| 0 <= i < |vs| && HasPath(vs[i]) && vs[i].path.value == p;
        if i < |vs| - 1 {
          assert init[i] == vs[i];
        }
      }
      forall p | p in PathsOf(init)
        ensures p in PathsOf(vs)
      {
        var i :| 0 <= i < |init| && HasPath(init[i]) && init[i].path.value == p;
        assert vs[i] == init[i];
      }
      if HasPath(last) {
        assert last.path.value in PathsOf(vs) by {
          assert vs[|vs| - 1] == last;
        }
      }
    }
  }

  /** Each path's entry is built from that path's messages alone, in order. */
  lemma {:induction false} AggregateEntry(vs: seq<Violation>, p: string)
    requires p in Aggregate(vs)
    ensures Aggregate(vs)[p] == Combined(MessagesFor(vs, p))
    decreases |vs|
  {
    AggregateKeys(vs);
    var init := vs[..|vs| - 1];
    var last := vs[|vs| - 1];
    var ms := MessagesFor(init, p);
    if last.path == Some(p) {
      assert MessagesFor(vs, p) == ms + [last.message];
      assert (ms + [last.message])[..|ms|] == ms;
      if p in Aggregate(init) {
        AggregateEntry(init, p);
      } else {
        AggregateKeys(init);
        MessagesForAbsent(init, p);
      }
    } else {
      assert MessagesFor(vs, p) == ms;
      AggregateEntry(init, p);
    }
  }

  /** A path no violation names has no messages. */
  lemma {:induction false} MessagesForAbsent(vs: seq<Violation>, p: string)
    requires p != "" && p !in PathsOf(vs)
    ensures MessagesFor(vs, p) == []
    decreases |vs|
  {
    if vs != [] {
      var init := vs[..|vs| - 1];
      forall i | 0 <= i < |init| && HasPath(init[i])
        ensures init[i].path.value != p
      {
        assert vs[i] == init[i];
      }
      assert vs[|vs| - 1].path != Some(p);
      MessagesForAbsent(init, p);
    }
  }

  /** With non-empty messages, the first is stored as it is and each later one follows a single space (form.ts:80-84). */
  lemma {:induction false} CombinedJoins(ms: seq<string>)
    requires forall i :: 0 <= i < |ms| ==> ms[i] != ""
    ensures Combined(ms) == JoinSpaces(ms)
    ensures ms != [] ==> Combined(ms) != ""
    decreases |ms|
  {
    if ms != [] {
      var init := ms[..|ms| - 1];
      CombinedJoins(init);
      if init == [] {
        assert |ms| == 1;
      }
    }
  }

  /** An entry holding the empty string is falsy, so the next message replaces it instead of following it (form.ts:80). */
  lemma EmptyEntryOverwritten(p: string, m: string)
    requires p != ""
    ensures Aggregate([Violation(Some(p), ""), Violation(Some(p), m)])[p] == m
  {
    var vs := [Violation(Some(p), ""), Violation(Some(p), m)];
    assert vs[..1] == [Violation(Some(p), "")];
    assert vs[..1][..0] == [];
    assert Aggregate(vs[..1]) == map[p := ""];
  }

  /** Violations without a path leave the map as it was (form.ts:78). */
  lemma PathlessSkipped(vs: seq<Violation>, v: Violation)
    requires !HasPath(v)
    ensures Aggregate(vs + [v]) == Aggregate(vs)
  {
    assert (vs + [v])[..|vs|] == vs;
  }

  /** A schema that passes, and an error that is not a `ValidationError`, both give `{}` (form.ts:69-76, 88). */
  lemma NoViolationsNoErrors(o: SchemaOutcome)
    requires o.Passed? || o.Failed? || (o.Rejected? && forall i :: 0 <= i < |o.inner| ==> !HasPath(o.inner[i]))
    ensures FormErrors(o) == map[]
  {
    if o.Rejected? {
      AggregateKeys(o.inner);
    }
  }

  /** The errors object the validator resolves with. */
  function ErrorsObject(errors: map<string, string>, id: nat): Value {
    FlatObject(map p | p in errors :: Text(errors[p]), id)
  }

  /** Validation settles on `valid` exactly when no violation names a path. */
  lemma FormVerdict(o: SchemaOutcome, id: nat)
    ensures Verdict(ErrorsObject(FormErrors(o), id)) == ValidStatus <==> (!o.Rejected? || PathsOf(o.inner) == {})
  {
    var m := FormErrors(o);
    FlatObjectKeys(map p | p in m :: Text(m[p]), id);
    assert (map p | p in m :: Text(m[p])).Keys == m.Keys;
    if o.Rejected? {
      AggregateKeys(o.inner);
    }
  }

  /** The schema layer `addSchema(schema)` adds (schema.ts:16-34). */
  function SchemaLayer(schema: nat): Layer {
    map[Sym(SchemaSym) := SchemaField(GivenSchema(schema))]
  }

  /**
   * `addSchema(schema)` applied to a builder (schema.ts:16-34): the token gets
   * the schema, and the token's state capabilities are left as they were.
   */
  method AddSchema(b: TokenBuilder, schema: nat)
    requires b.Valid()
    modifies b
    ensures b.Valid() && b.disposers == old(b.disposers)
    ensures b.layers == old(b.layers) + [SchemaLayer(schema)]
    ensures b.rule == old(b.rule) + [Derive(SchemaChild)]
    ensures Lookup(b.layers, Sym(SchemaSym)) == Some(SchemaField(GivenSchema(schema)))
    ensures GetterOf(b.layers) == old(GetterOf(b.layers)) && SubscriberOf(b.layers) == old(SubscriberOf(b.layers))
  {
    b.AddFeature(Feature(SchemaLayer(schema), DeriveWith(SchemaChild), None));
    LookupShadows(old(b.layers), SchemaLayer(schema), Sym(SchemaSym));
    LookupShadows(old(b.layers), SchemaLayer(schema), Sym(GetValueSym));
    LookupShadows(old(b.layers), SchemaLayer(schema), Sym(SubscribeSym));
  }

  /**
   * `addForm({ schema, debounceValidationMs })` applied to a builder
   * (form.ts:52-66): the schema feature first, then validation with
   * `validateForm` as validator and a delay of 200 ms unless one is given.
   */
  method AddForm(b: TokenBuilder, ghost src: Store, schema: nat, debounceValidationMs: Option<nat>, hook: nat, ids: Ids)
    returns (v: Validator, errorsToken: Token, statusToken: Token, h: Listener)
    requires b.Valid() && src.Valid()
    requires Wired(GetterOf(b.layers)) && GetterStore(GetterOf(b.layers)) == src
    requires SubscriberWired(SubscriberOf(b.layers)) && SubscriberLinked(SubscriberOf(b.layers))
    requires SubscriberStore(SubscriberOf(b.layers)) == src
    modifies b, src, ids
    ensures fresh(v) && v.Valid() && Consistent(v.Observed())
    ensures v.debounceMs == if debounceValidationMs.Some? then debounceValidationMs.value else DefaultDebounceMs
    ensures v.Observed() == ValidationState(0, PendingStatus, v.errors.Current(),
      Some(Run(ReadPath(old(src.Current()), GetterPath(old(GetterOf(b.layers)))), 0)), [])
    ensures src.subscriptions == old(src.subscriptions) + [h] && Innermost(h) == External(hook)
    ensures b.Valid() && b.disposers == old(b.disposers)
    ensures b.layers == old(b.layers) + [SchemaLayer(schema)] + [map[Sym(PathSym) := PathField("")],
      PathKeyedLayer(ErrorTokenSym, errorsToken, old(b.layers) + [SchemaLayer(schema)] + [map[Sym(PathSym) := PathField("")]]),
      StatusLayer(statusToken)]
    ensures b.rule == old(b.rule) + [Derive(SchemaChild)] + [Derive(PathChild),
      Derive(LookupChild(ErrorTokenSym, errorsToken)), Copy(StatusLayer(statusToken))]
  {
    AddSchema(b, schema);
    var ms := if debounceValidationMs.Some? then debounceValidationMs.value else DefaultDebounceMs;
    v, errorsToken, statusToken, h := AddValidation(b, src, ms, hook, ids);
  }
}

=== FILE: keys.dfy ===
/**
 * Property keys as the token proxy receives them, and the normalisation the
 * proxy applies before it looks a child up or derives one: a string made only
 * of decimal digits becomes a number, every other key is left as it is.
 */
module Keys {

  /** The symbols the core uses as private field names, and any symbol of user code. */
  datatype Symbol =
    | ChildrenSym | ChildrenExtensionSym | DisposeSym | ProxySym | TargetSym
    | GetValueSym | SetValueSym | SubscribeSym
    | PathSym | ErrorTokenSym | ErrorMessageTokenSym | TouchedTokenSym
    | ValidationStatusTokenSym | SchemaSym
    | UserSym(id: nat, description: string)

  /** A JavaScript property key: a string or a symbol. */
  datatype PropertyKey = Name(text: string) | Sym(sym: Symbol)

  /** A key after normalisation: digit-only strings have become numbers. */
  datatype ChildKey = Named(text: string) | Index(n: nat) | Symbolic(sym: Symbol)

  predicate IsDigit(c: char) { '0' <= c <= '9' }

  /** The test `/^\d+$/`: at least one character, all of them decimal digits. */
  predicate AllDigits(s: string) {
    |s| > 0 && forall i :: 0 <= i < |s| ==> IsDigit(s[i])
  }

  function DigitChar(d: nat): (c: char)
    requires d < 10
    ensures IsDigit(c) && c as int - '0' as int == d
  {
    ('0' as int + d) as char
  }

  /** `parseInt` of a digit-only string, read as an unbounded natural number. */
  function DigitsValue(s: string): nat
    requires forall i :: 0 <= i < |s| ==> IsDigit(s[i])
  {
    if s == [] then 0
    else
      assert IsDigit(s[|s| - 1]);
      DigitsValue(s[..|s| - 1]) * 10 + (s[|s| - 1] as int - '0' as int)
  }

  /** `String(n)` for a natural number: its decimal digits without leading zeros. */
  function Decimal(n: nat): (s: string)
    ensures AllDigits(s)
    ensures n > 0 ==> s[0] != '0'
  {
    if n < 10 then [DigitChar(n)] else Decimal(n / 10) + [DigitChar(n % 10)]
  }

  /** A key that normalisation can produce: a named key is never digit-only. */
  predicate Normalized(k: ChildKey) {
    k.Named? ==> !AllDigits(k.text)
  }

  /** The proxy's key conversion (token.ts:50-53). */
  function Normalize(p: PropertyKey): (k: ChildKey)
    ensures Normalized(k)
    ensures p.Sym? <==> k.Symbolic?
    ensures p.Name? && AllDigits(p.text) <==> k.Index?
  {
    match p
    case Name(s) => if AllDigits(s) then Index(DigitsValue(s)) else Named(s)
    case Sym(x) => Symbolic(x)
  }

  /** The property a normalised key names on an ordinary object: numbers become their decimal text. */
  function AsPropertyKey(k: ChildKey): PropertyKey {
    match k
    case Named(s) => Name(s)
    case Index(n) => Name(Decimal(n))
    case Symbolic(x) => Sym(x)
  }

  function SymbolText(x: Symbol): string {
    match x
    case UserSym(_, d) => d
    case ChildrenSym => "children"
    case ChildrenExtensionSym => "childrenExtension"
    case DisposeSym => "dispose"
    case ProxySym => "proxy"
    case TargetSym => "target"
    case GetValueSym => "getValue"
    case SetValueSym => "setValue"
    case SubscribeSym => "subscribe"
    case PathSym => "path"
    case ErrorTokenSym => "errorToken"
    case ErrorMessageTokenSym => "errorToken"
    case TouchedTokenSym => "touchedToken"
    case ValidationStatusTokenSym => "validationStatusToken"
    case SchemaSym => "schema"
  }

  /** `String(property)` for a normalised key. */
  function KeyText(k: ChildKey): (s: string)
    ensures k.Index? ==> AllDigits(s)
    ensures k.Named? ==> s == k.text
  {
    match k
    case Named(s) => s
    case Index(n) => Decimal(n)
    case Symbolic(x) => "Symbol(" + SymbolText(x) + ")"
  }

  lemma {:induction false} DecimalRoundTrip(n: nat)
    ensures DigitsValue(Decimal(n)) == n
  {
    if n >= 10 {
      var s := Decimal(n / 10);
      var t := s + [DigitChar(n % 10)];
      assert t[..|t| - 1] == s;
      DecimalRoundTrip(n / 10);
    }
  }

  lemma {:induction false} LeadingZeroIgnored(s: string)
    requires AllDigits(s)
    ensures AllDigits("0" + s) && DigitsValue("0" + s) == DigitsValue(s)
  {
    var t := "0" + s;
    assert forall i :: 0 <= i < |t| ==> IsDigit(t[i]);
    if |s| > 1 {
      var p := s[..|s| - 1];
      assert t[..|t| - 1] == "0" + p;
      LeadingZeroIgnored(p);
    } else {
      assert t[..|t| - 1] == "0";
    }
  }

  /** The decimal text of an index normalises back to that index (so `t[3]`, reaching the proxy as "3", is child 3). */
  lemma NormalizeDecimal(n: nat)
    ensures Normalize(Name(Decimal(n))) == Index(n)
  {
    DecimalRoundTrip(n);
  }

  /** `t["3"]`, `t[3]` and `t["03"]` all reach the same cached child. */
  lemma LeadingZerosShareChild(n: nat)
    ensures Normalize(Name("0" + Decimal(n))) == Normalize(Name(Decimal(n))) == Index(n)
  {
    LeadingZeroIgnored(Decimal(n));
    DecimalRoundTrip(n);
  }

  /** Strings that are not digit-only and symbols pass through unchanged. */
  lemma NormalizeKeepsOthers(p: PropertyKey)
    requires p.Name? ==> !AllDigits(p.text)
    ensures AsPropertyKey(Normalize(p)) == p
  {
  }

  /** Normalised keys and object property names are in one-to-one correspondence. */
  lemma {:induction false} NormalizeAsPropertyKey(k: ChildKey)
    requires Normalized(k)
    ensures Normalize(AsPropertyKey(k)) == k
  {
    if k.Index? {
      NormalizeDecimal(k.n);
    }
  }

  /** Distinct normalised keys address distinct properties, so a cache keyed by them is a cache keyed by property names. */
  lemma AsPropertyKeyInjective(k1: ChildKey, k2: ChildKey)
    requires Normalized(k1) && Normalized(k2)
    requires AsPropertyKey(k1) == AsPropertyKey(k2)
    ensures k1 == k2
  {
    NormalizeAsPropertyKey(k1);
    NormalizeAsPropertyKey(k2);
  }

  /** Normalising twice is normalising once. */
  lemma NormalizeIdempotent(p: PropertyKey)
    ensures Normalize(AsPropertyKey(Normalize(p))) == Normalize(p)
  {
    NormalizeAsPropertyKey(Normalize(p));
  }
}

=== FILE: pathfeature.dfy ===
/**
 * The path feature on tokens (src/path/path.ts): `addPath` gives the token its
 * initial path and installs the child-path link; `getTokenPath` reads it.
 */
module PathFeature {
  import opened Keys
  import opened Paths
  import opened Tokens

  /** The path link is the last link of the rule that writes the path. */
  predicate PathLinked(rule: seq<Step>) {
    LastWriter(rule, Sym(PathSym)) >= 0 && rule[LastWriter(rule, Sym(PathSym))] == Derive(PathChild)
  }

  /** `parent[_path]` as the child-path rule tests it: an absent path is falsy like the empty one. */
  function PathOrEmpty(layers: seq<Layer>): string {
    if PathValue(layers).Some? then PathValue(layers).value else ""
  }

  /** `addPath(initialPath)` applied to a builder (path.ts:21-38); `initialPath` defaults to "". */
  method AddPath(b: TokenBuilder, initialPath: string)
    requires b.Valid()
    modifies b
    ensures b.Valid()
    ensures b.layers == old(b.layers) + [map[Sym(PathSym) := PathField(initialPath)]]
    ensures PathValue(b.layers) == Some(initialPath)
    ensures b.rule == old(b.rule) + [Derive(PathChild)] && PathLinked(b.rule)
    ensures b.disposers == old(b.disposers)
  {
    b.AddFeature(Feature(map[Sym(PathSym) := PathField(initialPath)], DeriveWith(PathChild), None));
    LookupShadows(old(b.layers), map[Sym(PathSym) := PathField(initialPath)], Sym(PathSym));
  }

  /** `getTokenPath` (path.ts:40-42): the path field, read through the proxy. */
  method GetTokenPath(t: Token) returns (path: string)
    requires PathValue(t.layers).Some?
    modifies t.cache
    ensures Lookup(t.layers, Sym(PathSym)) == Some(PathField(path))
    ensures t.cache.children == old(t.cache.children)
  {
    var a := t.Get(Sym(PathSym));
    path := a.field.path;
  }

  /** A child's path is its parent's followed by `.` and the key, or the key alone under an empty path (path.ts:29-31). */
  lemma ChildPathField(rule: seq<Step>, pl: seq<Layer>, k: ChildKey)
    requires PathLinked(rule)
    ensures PathValue(DeriveLayers(rule, pl, k)) == Some(ChildPath(PathOrEmpty(pl), k))
  {
    var i := LastWriter(rule, Sym(PathSym));
    LookupDerived(rule, pl, k, Sym(PathSym));
    LinkSeesEarlierLinks(rule, pl, k, i);
  }

  /** The descendant reached by `ks` from a token with path `root` has the path `DescendantPath(root, ks)`. */
  lemma {:induction false} DescendantPaths(layers: seq<Layer>, rule: seq<Step>, root: string, ks: seq<ChildKey>)
    requires PathLinked(rule) && PathValue(layers) == Some(root)
    ensures PathValue(DescendantLayers(layers, rule, ks)) == Some(DescendantPath(root, ks))
    decreases |ks|
  {
    if ks != [] {
      var init := ks[..|ks| - 1];
      var k := ks[|ks| - 1];
      assert ks == init + [k];
      DescendantPaths(layers, rule, root, init);
      DescendantSnoc(layers, rule, init, k);
      ChildPathField(rule, DescendantLayers(layers, rule, init), k);
    }
  }

  /** From `addPath()`, the token at `children`, `0`, `name` has path `children.0.name` (path.spec.ts:7-10). */
  lemma ChildrenZeroNamePath(layers: seq<Layer>, rule: seq<Step>)
    requires PathLinked(rule) && PathValue(layers) == Some("")
    ensures PathValue(DescendantLayers(layers, rule, [Named("children"), Index(0), Named("name")])) == Some("children.0.name")
  {
    DescendantPaths(layers, rule, "", [Named("children"), Index(0), Named("name")]);
    ChildrenZeroName();
  }

  /**
   * The link storing `owner[path of the child]` under `sym` is the last to write
   * `sym`, and the path link runs before it, so it sees the child's path.
   */
  predicate LookupLinked(rule: seq<Step>, sym: Symbol, owner: Token) {
    && PathLinked(rule)
    && LastWriter(rule, Sym(sym)) >= 0
    && rule[LastWriter(rule, Sym(sym))] == Derive(LookupChild(sym, owner))
    && LastWriter(rule, Sym(PathSym)) < LastWriter(rule, Sym(sym))
  }

  /** The child's lookup field names `owner[child path]` (error.ts:41-43, error-message.ts:44-46, touched.ts:34-36). */
  lemma ChildLookupField(rule: seq<Step>, pl: seq<Layer>, k: ChildKey, sym: Symbol, owner: Token)
    requires LookupLinked(rule, sym, owner)
    ensures Lookup(DeriveLayers(rule, pl, k), Sym(sym)) == Some(LookupField(owner, Name(ChildPath(PathOrEmpty(pl), k))))
  {
    var i := LastWriter(rule, Sym(sym));
    LookupDerived(rule, pl, k, Sym(sym));
    LinkSeesEarlierLinks(rule, pl, k, i);
    DeriveLayersPrefix(rule, pl, k, i);
    LastWriterPrefix(rule, Sym(PathSym), i);
    assert rule[..i][LastWriter(rule, Sym(PathSym))] == Derive(PathChild);
    ChildPathField(rule[..i], pl, k);
  }

  /** Every descendant's lookup field names `owner[its own path]`. */
  lemma DescendantLookup(layers: seq<Layer>, rule: seq<Step>, root: string, ks: seq<ChildKey>, sym: Symbol, owner: Token)
    requires LookupLinked(rule, sym, owner) && PathValue(layers) == Some(root) && ks != []
    ensures Lookup(DescendantLayers(layers, rule, ks), Sym(sym)) == Some(LookupField(owner, Name(DescendantPath(root, ks))))
  {
    var init := ks[..|ks| - 1];
    var k := ks[|ks| - 1];
    assert ks == init + [k];
    DescendantSnoc(layers, rule, init, k);
    DescendantPaths(layers, rule, root, init);
    ChildLookupField(rule, DescendantLayers(layers, rule, init), k, sym, owner);
  }

  /** The field a path-keyed feature gives the token it extends: `owner[getTokenPath(token)]` under `sym`. */
  function PathKeyedLayer(sym: Symbol, owner: Token, layers: seq<Layer>): Layer {
    map[Sym(sym) := LookupField(owner, PathKey(layers))]
  }

  /**
   * The shape shared by `addError` (error.ts:36-44), `addErrorMessages`
   * (error-message.ts:39-47) and `addTouched` (touched.ts:28-38): the token
   * gets `owner[its path]` under `sym`, and every child `owner[the child's
   * path]`, read from the child as the earlier features left it.
   */
  method AddPathKeyed(b: TokenBuilder, sym: Symbol, owner: Token)
    requires b.Valid() && sym != PathSym
    modifies b
    ensures b.Valid() && b.disposers == old(b.disposers)
    ensures b.layers == old(b.layers) + [PathKeyedLayer(sym, owner, old(b.layers))]
    ensures b.rule == old(b.rule) + [Derive(LookupChild(sym, owner))]
    ensures Lookup(b.layers, Sym(sym)) == Some(LookupField(owner, PathKey(old(b.layers))))
    ensures PathValue(b.layers) == PathValue(old(b.layers))
    ensures PathLinked(old(b.rule)) ==> LookupLinked(b.rule, sym, owner)
  {
    var before := b.Peek();
    b.AddFeature(Feature(PathKeyedLayer(sym, owner, before), DeriveWith(LookupChild(sym, owner)), None));
    LookupShadows(old(b.layers), PathKeyedLayer(sym, owner, before), Sym(sym));
    LookupShadows(old(b.layers), PathKeyedLayer(sym, owner, before), Sym(PathSym));
    LastWriterSnoc(old(b.rule), Derive(LookupChild(sym, owner)), Sym(PathSym));
    LastWriterSnoc(old(b.rule), Derive(LookupChild(sym, owner)), Sym(sym));
  }

  /**
   * `token[sym]` for a path-keyed field (error.ts:47-49, error-message.ts:50-54,
   * touched.ts:41-52): the target has the property, so the proxy returns the
   * stored field and makes no child.
   */
  method ReadPathKeyed(t: Token, sym: Symbol) returns (f: Field)
    requires sym != TargetSym && Lookup(t.layers, Sym(sym)).Some?
    modifies t.cache
    ensures Lookup(t.layers, Sym(sym)) == Some(f)
    ensures t.cache.children == old(t.cache.children)
  {
    var a := t.Get(Sym(sym));
    f := a.field;
  }

  /**
   * After a path-keyed feature on a token with path `root`, the token reached
   * by `ks` (the token itself when `ks` is empty) holds `owner[p]` with `p`
   * its own full path: one flat key, never a walk by segments.
   */
  lemma PathKeyedDescendants(layers: seq<Layer>, rule: seq<Step>, sym: Symbol, owner: Token, root: string, ks: seq<ChildKey>)
    requires sym != PathSym && PathLinked(rule) && PathValue(layers) == Some(root)
    ensures Lookup(DescendantLayers(layers + [PathKeyedLayer(sym, owner, layers)], rule + [Derive(LookupChild(sym, owner))], ks), Sym(sym))
      == Some(LookupField(owner, Name(DescendantPath(root, ks))))
  {
    var l := PathKeyedLayer(sym, owner, layers);
    var r := rule + [Derive(LookupChild(sym, owner))];
    LookupShadows(layers, l, Sym(sym));
    LookupShadows(layers, l, Sym(PathSym));
    LastWriterSnoc(rule, Derive(LookupChild(sym, owner)), Sym(PathSym));
    LastWriterSnoc(rule, Derive(LookupChild(sym, owner)), Sym(sym));
    if ks != [] {
      DescendantLookup(layers + [l], r, root, ks, sym, owner);
    }
  }

  /**
   * A path-keyed feature over a token with no path feature: `getTokenPath`
   * is undefined on the token and on every descendant, so all of them hold
   * the same entry, `owner["undefined"]`.
   */
  lemma {:induction false} PathlessKeyedDescendants(layers: seq<Layer>, rule: seq<Step>, sym: Symbol, owner: Token, ks: seq<ChildKey>)
    requires sym != PathSym && PathValue(layers).None? && LastWriter(rule, Sym(PathSym)) < 0
    ensures Lookup(DescendantLayers(layers + [PathKeyedLayer(sym, owner, layers)], rule + [Derive(LookupChild(sym, owner))], ks), Sym(sym))
      == Some(LookupField(owner, Name("undefined")))
  {
    var l := PathKeyedLayer(sym, owner, layers);
    var r := rule + [Derive(LookupChild(sym, owner))];
    if ks == [] {
      LookupShadows(layers, l, Sym(sym));
    } else {
      var init := ks[..|ks| - 1];
      var k := ks[|ks| - 1];
      assert ks == init + [k];
      DescendantSnoc(layers + [l], r, init, k);
      var pl := DescendantLayers(layers + [l], r, init);
      var cl := DeriveLayers(r, pl, k);
      LastWriterSnoc(rule, Derive(LookupChild(sym, owner)), Sym(sym));
      LookupDerived(r, pl, k, Sym(sym));
      LinkSeesEarlierLinks(r, pl, k, |rule|);
      DeriveLayersPrefix(r, pl, k, |rule|);
      assert r[..|rule|] == rule;
      LookupDerived(rule, pl, k, Sym(PathSym));
      assert PathValue(cl[..|rule|]).None?;
    }
  }
}

=== FILE: paths.dfy ===
/**
 * The textual path the path feature gives every token: the root carries the
 * initial path, and a child appends `.` and the text of its key unless its
 * parent's path is empty (src/path/path.ts).
 */
module Paths {
  import opened Keys

  /** The child path rule (path.ts:29-31); an absent parent path is falsy like the empty one. */
  function ChildPath(parentPath: string, k: ChildKey): (r: string)
    ensures parentPath == "" ==> r == KeyText(k)
    ensures parentPath != "" ==> r == parentPath + "." + KeyText(k)
  {
    if parentPath != "" then parentPath + "." + KeyText(k) else KeyText(k)
  }

  /** The path of the descendant reached from a token with path `root` by the keys `ks`. */
  function DescendantPath(root: string, ks: seq<ChildKey>): string
    decreases |ks|
  {
    if ks == [] then root else ChildPath(DescendantPath(root, ks[..|ks| - 1]), ks[|ks| - 1])
  }

  /** The texts joined by `.`: `["children", "0", "name"]` gives `children.0.name`. */
  function JoinDots(parts: seq<string>): string
    decreases |parts|
  {
    if parts == [] then ""
    else if |parts| == 1 then parts[0]
    else JoinDots(parts[..|parts| - 1]) + "." + parts[|parts| - 1]
  }

  function KeyTexts(ks: seq<ChildKey>): (r: seq<string>)
    ensures |r| == |ks| && forall i :: 0 <= i < |ks| ==> r[i] == KeyText(ks[i])
    decreases |ks|
  {
    if ks == [] then [] else KeyTexts(ks[..|ks| - 1]) + [KeyText(ks[|ks| - 1])]
  }

  /** A non-empty parent path followed by `.` is a prefix of the child's path. */
  lemma ChildExtendsParent(parentPath: string, k: ChildKey)
    requires parentPath != ""
    ensures parentPath + "." <= ChildPath(parentPath, k)
  {
    assert ChildPath(parentPath, k) == (parentPath + ".") + KeyText(k);
  }

  /**
   * From the empty root path, keys whose texts are all non-empty give the
   * `.`-join of their texts; a key with empty text would instead restart the
   * path, because an empty parent path is falsy.
   */
  lemma {:induction false} RootPathIsJoin(ks: seq<ChildKey>)
    requires forall i :: 0 <= i < |ks| ==> KeyText(ks[i]) != ""
    ensures DescendantPath("", ks) == JoinDots(KeyTexts(ks))
    decreases |ks|
  {
    if ks != [] {
      var init := ks[..|ks| - 1];
      RootPathIsJoin(init);
      assert KeyTexts(ks)[..|ks| - 1] == KeyTexts(init);
      if |ks| > 1 {
        JoinNonEmpty(KeyTexts(init));
      } else {
        assert init == [];
      }
    }
  }

  lemma {:induction false} JoinNonEmpty(parts: seq<string>)
    requires parts != [] && forall i :: 0 <= i < |parts| ==> parts[i] != ""
    ensures JoinDots(parts) != ""
    decreases |parts|
  {
    if |parts| > 1 {
      assert JoinDots(parts) == JoinDots(parts[..|parts| - 1]) + "." + parts[|parts| - 1];
    }
  }

  /** The example of the path tests: `children`, then index 0, then `name`. */
  lemma ChildrenZeroName()
    ensures DescendantPath("", [Named("children")]) == "children"
    ensures DescendantPath("", [Named("children"), Index(0)]) == "children.0"
    ensures DescendantPath("", [Named("children"), Index(0), Named("name")]) == "children.0.name"
  {
    var ks := [Named("children"), Index(0), Named("name")];
    assert ks[..2] == [Named("children"), Index(0)];
    assert ks[..2][..1] == [Named("children")];
    assert [Named("children")][..0] == [];
  }
}

=== FILE: state.dfy ===
/**
 * The closures of the state feature (src/state/state.ts). `addState` creates
 * one root store (the closure variables `value`, `initialized` and the
 * `subscriptions` array); every child token gets a getter, a setter and a
 * subscriber that reach that store through their parent's capabilities.
 * Those closures are modelled as chains: a child capability holds its
 * parent's capability and its own key.
 */
module State {
  import opened Keys
  import opened JsValues

  /** The argument of `addState`: a plain value, or a function that produces `result` when called. */
  datatype Initializer = Eager(result: Value) | Lazy(result: Value)

  /** The snapshot a child subscription keeps of its projected value. */
  class Cell {
    var snapshot: Value

    constructor (v: Value)
      ensures snapshot == v
    {
      snapshot := v;
    }
  }

  /**
   * A registered callback: a listener of code outside the model, identified by
   * `id`, or the wrapper a child subscription registers with its parent, which
   * projects the new value on `key` and forwards to `inner` when it changed.
   */
  datatype Listener = External(id: nat) | Forward(cell: Cell, key: ChildKey, inner: Listener)

  /** The calls made to listeners outside the model, in order, with the value passed. */
  class Log {
    var calls: seq<(nat, Value)>

    constructor ()
      ensures calls == []
    {
      calls := [];
    }
  }

  /** The source of fresh identity tags for the objects the setters create. */
  class Ids {
    var next: nat

    constructor (start: nat)
      ensures next == start
    {
      next := start;
    }
  }

  function CellSet(l: Listener): set<Cell> {
    match l
    case External(_) => {}
    case Forward(c, _, inner) => {c} + CellSet(inner)
  }

  /** No cell occurs twice in one wrapper chain. */
  predicate Chain(l: Listener) {
    match l
    case External(_) => true
    case Forward(c, _, inner) => c !in CellSet(inner) && Chain(inner)
  }

  function CellsOf(ls: seq<Listener>): set<Cell>
    decreases |ls|
  {
    if ls == [] then {} else CellSet(ls[0]) + CellsOf(ls[1..])
  }

  /** Every registered listener owns its cells: no cell is shared. */
  predicate Disjoint(ls: seq<Listener>)
    decreases |ls|
  {
    ls == [] || (Chain(ls[0]) && CellSet(ls[0]) !! CellsOf(ls[1..]) && Disjoint(ls[1..]))
  }

  /** The calls to outside listeners that delivering `v` to `l` makes, given the current snapshots. */
  function Emitted(l: Listener, v: Value): seq<(nat, Value)>
    reads CellSet(l)
  {
    match l
    case External(id) => [(id, v)]
    case Forward(c, k, inner) =>
      var nv := Get(v, AsPropertyKey(k));
      if StrictEq(nv, c.snapshot) then [] else Emitted(inner, nv)
  }

  /** Every wrapper's snapshot is the projection of `v` along the keys down to it. */
  predicate Tracks(l: Listener, v: Value)
    reads CellSet(l)
  {
    match l
    case External(_) => true
    case Forward(c, k, inner) =>
      c.snapshot == Get(v, AsPropertyKey(k)) && Tracks(inner, Get(v, AsPropertyKey(k)))
  }

  /** Every listener of `ls` tracks `v`. */
  predicate TracksAll(ls: seq<Listener>, v: Value)
    reads CellsOf(ls)
    decreases |ls|
  {
    ls == [] || (Tracks(ls[0], v) && TracksAll(ls[1..], v))
  }

  /**
   * Going from `v` to `w`, every level along `ks` (the root included) that is
   * `===` its old self is the very same value: tags stand for identities.
   */
  predicate SameWhenIdentical(v: Value, w: Value, ks: seq<ChildKey>) {
    forall i :: 0 <= i <= |ks| ==>
      StrictEq(ReadPath(w, ks[..i]), ReadPath(v, ks[..i])) ==> ReadPath(w, ks[..i]) == ReadPath(v, ks[..i])
  }

  function EmittedAll(ls: seq<Listener>, v: Value): seq<(nat, Value)>
    reads CellsOf(ls)
    decreases |ls|
  {
    if ls == [] then [] else Emitted(ls[0], v) + EmittedAll(ls[1..], v)
  }

  /** The first index of `l` in `ls`, or -1: `Array.prototype.indexOf`. */
  function IndexOf(ls: seq<Listener>, l: Listener): (i: int)
    ensures -1 <= i < |ls|
    ensures i == -1 <==> l !in ls
    ensures i >= 0 ==> ls[i] == l && l !in ls[..i]
    decreases |ls|
  {
    if ls == [] then -1
    else if ls[0] == l then 0
    else
      var j := IndexOf(ls[1..], l);
      assert j >= 0 ==> ls[1..][..j] == ls[1..j + 1];
      if j == -1 then -1 else j + 1
  }

  /** The disposer's effect: the first occurrence of `l` is spliced out, if there is one. */
  function RemoveFirst(ls: seq<Listener>, l: Listener): seq<Listener> {
    var i := IndexOf(ls, l);
    if i == -1 then ls else ls[..i] + ls[i + 1..]
  }

  /** The cells a listener sequence holds are objects of the current heap. */
  lemma {:induction false} CellsAllocated(ls: seq<Listener>)
    ensures forall c :: c in CellsOf(ls) ==> allocated(c)
    decreases |ls|
  {
    if ls != [] {
      CellSetAllocated(ls[0]);
      CellsAllocated(ls[1..]);
    }
  }

  lemma {:induction false} CellSetAllocated(l: Listener)
    ensures forall c :: c in CellSet(l) ==> allocated(c)
  {
    if l.Forward? {
      CellSetAllocated(l.inner);
    }
  }

  /** One removal takes away exactly one registration of `l` and nothing else. */
  lemma RemoveFirstCount(ls: seq<Listener>, l: Listener)
    ensures multiset(RemoveFirst(ls, l)) == multiset(ls) - multiset{l}
  {
    var i := IndexOf(ls, l);
    if i >= 0 {
      assert ls == ls[..i] + [ls[i]] + ls[i + 1..];
    }
  }

  /** The listeners other than the removed occurrence keep their relative order. */
  lemma RemoveFirstOrder(ls: seq<Listener>, l: Listener)
    requires l in ls
    ensures var i := IndexOf(ls, l);
      RemoveFirst(ls, l) == ls[..i] + ls[i + 1..] && l !in ls[..i]
  {
  }

  lemma {:induction false} CellsOfAppend(ls: seq<Listener>, l: Listener)
    ensures CellsOf(ls + [l]) == CellsOf(ls) + CellSet(l)
    decreases |ls|
  {
    if ls != [] {
      assert (ls + [l])[1..] == ls[1..] + [l];
      CellsOfAppend(ls[1..], l);
    } else {
      assert [l][1..] == [];
    }
  }

  lemma {:induction false} DisjointAppend(ls: seq<Listener>, l: Listener)
    requires Disjoint(ls) && Chain(l) && CellSet(l) !! CellsOf(ls)
    ensures Disjoint(ls + [l])
    decreases |ls|
  {
    if ls == [] {
      assert [l][1..] == [];
    } else {
      assert (ls + [l])[1..] == ls[1..] + [l];
      CellsOfAppend(ls[1..], l);
      DisjointAppend(ls[1..], l);
    }
  }

  lemma {:induction false} CellsOfConcat(a: seq<Listener>, b: seq<Listener>)
    ensures CellsOf(a + b) == CellsOf(a) + CellsOf(b)
    decreases |a|
  {
    if a != [] {
      assert (a + b)[1..] == a[1..] + b;
      CellsOfConcat(a[1..], b);
    } else {
      assert a + b == b;
    }
  }

  /** Removing the listener at `i` keeps the remaining listeners' cells apart. */
  lemma {:induction false} DisjointRemove(ls: seq<Listener>, i: nat)
    requires Disjoint(ls) && i < |ls|
    ensures Disjoint(ls[..i] + ls[i + 1..])
    ensures CellsOf(ls[..i] + ls[i + 1..]) <= CellsOf(ls)
    decreases |ls|
  {
    if i == 0 {
      assert ls[..0] + ls[1..] == ls[1..];
    } else {
      var rest := ls[1..][..i - 1] + ls[1..][i..];
      assert ls[..i] + ls[i + 1..] == [ls[0]] + rest;
      assert ([ls[0]] + rest)[1..] == rest;
      DisjointRemove(ls[1..], i - 1);
    }
  }

  /** The listeners before `i` own none of the cells of the listeners from `i` on. */
  lemma {:induction false} DisjointSplit(ls: seq<Listener>, i: nat)
    requires Disjoint(ls) && i <= |ls|
    ensures CellsOf(ls[..i]) !! CellsOf(ls[i..])
    decreases i
  {
    if i > 0 {
      var tail := ls[1..];
      assert ls[..i] == [ls[0]] + tail[..i - 1];
      assert ([ls[0]] + tail[..i - 1])[1..] == tail[..i - 1];
      assert ls[i..] == tail[i - 1..];
      assert tail == tail[..i - 1] + tail[i - 1..];
      CellsOfConcat(tail[..i - 1], tail[i - 1..]);
      DisjointSplit(tail, i - 1);
    }
  }

  lemma {:induction false} TracksAllSnoc(ls: seq<Listener>, l: Listener, v: Value)
    requires TracksAll(ls, v) && Tracks(l, v)
    ensures TracksAll(ls + [l], v)
    decreases |ls|
  {
    if ls == [] {
      assert [l][1..] == [];
    } else {
      assert (ls + [l])[1..] == ls[1..] + [l];
      TracksAllSnoc(ls[1..], l, v);
    }
  }

  /** `TracksAll` is `Tracks` at every index. */
  lemma {:induction false} TracksAllAt(ls: seq<Listener>, v: Value)
    ensures TracksAll(ls, v) <==> forall j :: 0 <= j < |ls| ==> Tracks(ls[j], v)
    decreases |ls|
  {
    if ls != [] {
      TracksAllAt(ls[1..], v);
      assert forall j :: 1 <= j < |ls| ==> ls[j] == ls[1..][j - 1];
    }
  }

  /** The root closure `addState` creates: the value, whether it is initialised, and the subscriptions. */
  class Store {
    const initializer: Initializer
    var initialized: bool
    var value: Value
    var subscriptions: seq<Listener>
    /** How many times the function initializer has been called. */
    ghost var initializerCalls: nat

    ghost predicate Valid()
      reads this
    {
      && Disjoint(subscriptions)
      && initializerCalls <= 1
      && (initializer.Eager? ==> initialized && initializerCalls == 0)
      && (!initialized ==> initializerCalls == 0)
    }

    /** The value a read returns now: the stored one, or what the initializer will produce. */
    function Current(): Value
      reads this
    {
      if initialized then value else initializer.result
    }

    function Cells(): set<Cell>
      reads this
    {
      CellsOf(subscriptions)
    }

    /** state.ts:65-74: a plain value is stored at once; a function waits for the first read. */
    constructor (init: Initializer)
      ensures Valid() && initializer == init && subscriptions == []
      ensures initialized == init.Eager? && Current() == init.result
      ensures initializerCalls == 0
    {
      initializer := init;
      initialized := init.Eager?;
      value := if init.Eager? then init.result else Undefined;
      subscriptions := [];
      initializerCalls := 0;
    }

    /** The root getter (state.ts:78-84): the first read of a lazy store calls the initializer, once. */
    method Get() returns (v: Value)
      requires Valid()
      modifies this
      ensures Valid() && initialized
      ensures v == value == old(Current())
      ensures initializerCalls == old(initializerCalls) + (if old(initialized) then 0 else 1)
      ensures subscriptions == old(subscriptions)
    {
      if !initialized {
        initialized := true;
        value := initializer.result;
        initializerCalls := initializerCalls + 1;
      }
      v := value;
    }

    /**
     * The root setter (state.ts:85-90), with the store marked initialised (see
     * the findings in README): the value is replaced, and every listener
     * registered when the call began is called once, in order, with `x`.
     */
    method Set(x: Value, log: Log)
      requires Valid()
      modifies this, log, Cells()
      ensures Valid() && initialized && value == x && Current() == x
      ensures subscriptions == old(subscriptions)
      ensures initializerCalls == old(initializerCalls)
      ensures log.calls == old(log.calls) + old(EmittedAll(subscriptions, x))
      ensures old(TracksAll(subscriptions, Current())) ==>
        (forall l <- subscriptions :: SameWhenIdentical(old(Current()), x, ForwardKeys(l))) ==>
        TracksAll(subscriptions, Current())
    {
      ghost var u := Current();
      value := x;
      initialized := true;
      Notify(x, log, u);
    }

    /** The root setter exactly as state.ts:85-90 writes it: `initialized` is left as it was. */
    method SetAsWritten(x: Value, log: Log)
      requires Valid()
      modifies this, log, Cells()
      ensures Valid() && value == x && initialized == old(initialized)
      ensures subscriptions == old(subscriptions)
      ensures log.calls == old(log.calls) + old(EmittedAll(subscriptions, x))
    {
      ghost var u := Current();
      value := x;
      Notify(x, log, u);
    }

    /**
     * `for (var subscription of subscriptions.slice()) subscription(newValue)`:
     * snapshots that tracked `u` track `x` afterwards when `x` keeps the
     * identities each subscription's path relies on.
     */
    method Notify(x: Value, log: Log, ghost u: Value)
      requires Valid()
      modifies log, Cells()
      ensures log.calls == old(log.calls) + old(EmittedAll(subscriptions, x))
      ensures old(TracksAll(subscriptions, u)) && (forall l <- subscriptions :: SameWhenIdentical(u, x, ForwardKeys(l))) ==>
        TracksAll(subscriptions, x)
    {
      NotifyAll(subscriptions, x, log, u);
    }

    /** `subscriptions.push(callback)` (state.ts:91-92). */
    method Subscribe(l: Listener)
      requires Valid() && Chain(l) && CellSet(l) !! Cells()
      modifies this
      ensures Valid()
      ensures subscriptions == old(subscriptions) + [l]
      ensures initialized == old(initialized) && value == old(value)
      ensures initializerCalls == old(initializerCalls)
      ensures old(TracksAll(subscriptions, Current())) && Tracks(l, Current()) ==> TracksAll(subscriptions, Current())
    {
      ghost var before, cur := subscriptions, Current();
      DisjointAppend(subscriptions, l);
      subscriptions := subscriptions + [l];
      assert Current() == cur;
      if TracksAll(before, cur) && Tracks(l, cur) {
        TracksAllSnoc(before, l, cur);
      }
    }

    /** The disposer subscribe returns (state.ts:93-96): splice out the first occurrence, if any. */
    method Unsubscribe(l: Listener)
      requires Valid()
      modifies this
      ensures Valid()
      ensures subscriptions == RemoveFirst(old(subscriptions), l)
      ensures Cells() <= old(Cells())
      ensures initialized == old(initialized) && value == old(value)
      ensures initializerCalls == old(initializerCalls)
      ensures old(TracksAll(subscriptions, Current())) ==> TracksAll(subscriptions, Current())
    {
      var i := IndexOf(subscriptions, l);
      if i != -1 {
        ghost var before, cur := subscriptions, Current();
        DisjointRemove(subscriptions, i);
        subscriptions := subscriptions[..i] + subscriptions[i + 1..];
        assert Current() == cur;
        TracksAllAt(before, cur);
        TracksAllAt(subscriptions, cur);
        if TracksAll(before, cur) {
          forall j | 0 <= j < |subscriptions|
            ensures Tracks(subscriptions[j], cur)
          {
            if j < i {
              assert subscriptions[j] == before[j];
            } else {
              assert subscriptions[j] == before[j + 1];
            }
          }
        }
      }
    }
  }

  /**
   * Calls each listener of `ls`, a copy of the subscriptions, in order with `x`
   * (state.ts:87-89). Listeners whose snapshots tracked `u` track `x` after
   * the loop when `x` keeps the identities their paths rely on.
   */
  method NotifyAll(ls: seq<Listener>, x: Value, log: Log, ghost u: Value)
    requires Disjoint(ls)
    modifies log, CellsOf(ls)
    ensures log.calls == old(log.calls) + old(EmittedAll(ls, x))
    ensures old(TracksAll(ls, u)) && (forall l <- ls :: SameWhenIdentical(u, x, ForwardKeys(l))) ==> TracksAll(ls, x)
  {
    ghost var tracked := TracksAll(ls, u) && forall l <- ls :: SameWhenIdentical(u, x, ForwardKeys(l));
    ghost var owed := log.calls + EmittedAll(ls, x);
    var i := 0;
    assert ls[..0] == [] && ls[0..] == ls;
    while i < |ls|
      invariant 0 <= i <= |ls|
      invariant Disjoint(ls[i..]) && CellsOf(ls[i..]) <= CellsOf(ls)
      invariant log.calls + EmittedAll(ls[i..], x) == owed
      invariant tracked ==> TracksAll(ls[..i], x) && TracksAll(ls[i..], u)
      invariant tracked ==> forall l <- ls :: SameWhenIdentical(u, x, ForwardKeys(l))
    {
      DisjointSplit(ls, i);
      NotifyNext(ls, i, x, log, owed, u);
      i := i + 1;
    }
    assert ls[i..] == [] && ls[..i] == ls;
  }

  /**
   * One iteration: the listener at `i` is called, and what it emits moves
   * from what is still owed to the log; the other listeners' cells are not
   * touched.
   */
  method NotifyNext(ls: seq<Listener>, i: nat, x: Value, log: Log, ghost owed: seq<(nat, Value)>, ghost u: Value)
    requires i < |ls| && Disjoint(ls[i..])
    requires CellsOf(ls[..i]) !! CellsOf(ls[i..])
    requires log.calls + EmittedAll(ls[i..], x) == owed
    modifies log, CellSet(ls[i])
    ensures Disjoint(ls[i + 1..]) && CellsOf(ls[i + 1..]) <= CellsOf(ls[i..])
    ensures CellSet(ls[i]) <= CellsOf(ls[i..])
    ensures log.calls + EmittedAll(ls[i + 1..], x) == owed
    ensures old(TracksAll(ls[..i], x) && TracksAll(ls[i..], u)) && SameWhenIdentical(u, x, ForwardKeys(ls[i])) ==>
      TracksAll(ls[..i + 1], x) && TracksAll(ls[i + 1..], u)
  {
    var l := ls[i];
    var tail := ls[i + 1..];
    assert ls[i..][1..] == tail;
    ghost var head := ls[..i];
    ghost var rest := EmittedAll(tail, x);
    ghost var here := Emitted(l, x);
    ghost var before := log.calls;
    assert EmittedAll(ls[i..], x) == here + rest;
    DeliverAmong(l, x, log, u, head, tail);
    assert log.calls + rest == before + (here + rest);
    if TracksAll(head, x) && Tracks(l, x) {
      assert ls[..i + 1] == head + [l];
      TracksAllSnoc(head, l, x);
    }
  }

  /**
   * Delivering to `l` leaves the listeners before it (`head`) and after it
   * (`tail`), which own none of its cells, as they were.
   */
  method DeliverAmong(l: Listener, x: Value, log: Log, ghost u: Value, ghost head: seq<Listener>, ghost tail: seq<Listener>)
    requires Chain(l) && CellSet(l) !! CellsOf(head) && CellSet(l) !! CellsOf(tail)
    modifies log, CellSet(l)
    ensures log.calls == old(log.calls) + old(Emitted(l, x))
    ensures EmittedAll(tail, x) == old(EmittedAll(tail, x))
    ensures old(TracksAll(head, x)) ==> TracksAll(head, x)
    ensures old(TracksAll(tail, u)) ==> TracksAll(tail, u)
    ensures old(Tracks(l, u)) && SameWhenIdentical(u, x, ForwardKeys(l)) ==> Tracks(l, x)
  {
    CellsAllocated(head);
    CellsAllocated(tail);
    Deliver(l, x, log, u);
  }

  /**
   * Calling one listener with `v`: an outside listener is called; a child
   * wrapper projects `v` on its key and forwards only when the projection is
   * not `===` its snapshot, which it then replaces (state.ts:112-118). When
   * the snapshots tracked `u` and `v` keeps the identities along the
   * wrapper's keys, they track `v` afterwards.
   */
  method Deliver(l: Listener, v: Value, log: Log, ghost u: Value)
    requires Chain(l)
    modifies log, CellSet(l)
    ensures log.calls == old(log.calls) + old(Emitted(l, v))
    ensures l.Forward? ==> StrictEq(l.cell.snapshot, Get(v, AsPropertyKey(l.key)))
    ensures l.Forward? && StrictEq(Get(v, AsPropertyKey(l.key)), old(l.cell.snapshot)) ==>
      log.calls == old(log.calls) && l.cell.snapshot == old(l.cell.snapshot)
    ensures old(Tracks(l, u)) && SameWhenIdentical(u, v, ForwardKeys(l)) ==> Tracks(l, v)
  {
    match l
    case External(id) =>
      log.calls := log.calls + [(id, v)];
    case Forward(c, k, inner) =>
      var nv := Get(v, AsPropertyKey(k));
      ghost var pu := Get(u, AsPropertyKey(k));
      ghost var tracked := Tracks(l, u) && SameWhenIdentical(u, v, ForwardKeys(l));
      if tracked {
        SameWhenIdenticalCons(u, v, k, ForwardKeys(inner));
        assert ForwardKeys(inner)[..0] == [];
        assert StrictEq(nv, pu) ==> nv == pu;
      }
      if !StrictEq(nv, c.snapshot) {
        ghost var out := Emitted(inner, nv);
        c.snapshot := nv;
        assert Emitted(inner, nv) == out;
        assert tracked ==> Tracks(inner, pu);
        Deliver(inner, nv, log, pu);
      }
  }

  /** The `_getValue` closure of a token: the root's, or a child's reading its parent's. */
  datatype Getter = RootGetter(store: Store) | ChildGetter(parent: Getter, key: ChildKey) | NoGetter

  /** The `_setValue` closure: a child's uses its parent's setter and getter. */
  datatype Setter = RootSetter(store: Store) | ChildSetter(parent: Setter, parentGetter: Getter, key: ChildKey) | NoSetter

  /** The `_subscribe` closure: a child's registers a wrapper through its parent's. */
  datatype Subscriber =
    | RootSubscriber(store: Store)
    | ChildSubscriber(parent: Subscriber, parentGetter: Getter, key: ChildKey)
    | NoSubscriber

  /** The chain ends at a root store: no link is missing. */
  predicate Wired(g: Getter) {
    match g
    case RootGetter(_) => true
    case ChildGetter(p, _) => Wired(p)
    case NoGetter => false
  }

  function GetterStore(g: Getter): Store
    requires Wired(g)
  {
    match g
    case RootGetter(s) => s
    case ChildGetter(p, _) => GetterStore(p)
  }

  /** The keys from the root store to the token the getter belongs to. */
  function GetterPath(g: Getter): seq<ChildKey>
    requires Wired(g)
  {
    match g
    case RootGetter(_) => []
    case ChildGetter(p, k) => GetterPath(p) + [k]
  }

  /** The setter chain ends at a root store. */
  predicate SetterLinked(s: Setter) {
    match s
    case RootSetter(_) => true
    case ChildSetter(p, _, _) => SetterLinked(p)
    case NoSetter => false
  }

  function SetterStore(s: Setter): Store
    requires SetterLinked(s)
  {
    match s
    case RootSetter(st) => st
    case ChildSetter(p, _, _) => SetterStore(p)
  }

  function SetterPath(s: Setter): seq<ChildKey>
    requires SetterLinked(s)
  {
    match s
    case RootSetter(_) => []
    case ChildSetter(p, _, k) => SetterPath(p) + [k]
  }

  /** A setter whose every link reads and writes through the same store and path. */
  predicate SetterWired(s: Setter) {
    match s
    case RootSetter(_) => true
    case ChildSetter(p, g, _) =>
      SetterWired(p) && SetterLinked(p) && Wired(g) && GetterStore(g) == SetterStore(p) && GetterPath(g) == SetterPath(p)
    case NoSetter => false
  }

  /** The subscriber chain ends at a root store. */
  predicate SubscriberLinked(sub: Subscriber) {
    match sub
    case RootSubscriber(_) => true
    case ChildSubscriber(p, _, _) => SubscriberLinked(p)
    case NoSubscriber => false
  }

  function SubscriberStore(sub: Subscriber): Store
    requires SubscriberLinked(sub)
  {
    match sub
    case RootSubscriber(st) => st
    case ChildSubscriber(p, _, _) => SubscriberStore(p)
  }

  function SubscriberPath(sub: Subscriber): seq<ChildKey>
    requires SubscriberLinked(sub)
  {
    match sub
    case RootSubscriber(_) => []
    case ChildSubscriber(p, _, k) => SubscriberPath(p) + [k]
  }

  /** A subscriber whose every link subscribes through the parent and reads the parent's value at the same path. */
  predicate SubscriberWired(sub: Subscriber) {
    match sub
    case RootSubscriber(_) => true
    case ChildSubscriber(p, g, _) =>
      SubscriberWired(p) && SubscriberLinked(p) && Wired(g) && GetterStore(g) == SubscriberStore(p) && GetterPath(g) == SubscriberPath(p)
    case NoSubscriber => false
  }

  /**
   * A getter call (state.ts:78-84, 100-103): the root value, read lazily, then
   * projected key by key, each step giving undefined below null or undefined.
   */
  method GetValue(g: Getter) returns (v: Value)
    requires Wired(g) && GetterStore(g).Valid()
    modifies GetterStore(g)
    ensures v == ReadPath(old(GetterStore(g).Current()), GetterPath(g))
    ensures GetterStore(g).Valid() && GetterStore(g).initialized
    ensures GetterStore(g).value == old(GetterStore(g).Current())
    ensures GetterStore(g).subscriptions == old(GetterStore(g).subscriptions)
    ensures GetterStore(g).initializerCalls <= old(GetterStore(g).initializerCalls) + 1
    decreases g
  {
    match g
    case RootGetter(st) =>
      v := st.Get();
    case ChildGetter(p, k) =>
      var pv := GetValue(p);
      v := Get(pv, AsPropertyKey(k));
      ReadPathSnoc(old(GetterStore(g).Current()), GetterPath(p), k);
  }

  /**
   * A setter call (state.ts:85-90, 104-109): each child copies its parent's
   * value with its own key replaced (a new array for a number key, a new plain
   * object otherwise) and hands the copy to the parent's setter, down to the
   * root, which stores it and notifies its listeners.
   */
  method SetValue(s: Setter, x: Value, ids: Ids, log: Log)
    requires SetterWired(s) && SetterLinked(s) && SetterStore(s).Valid()
    modifies SetterStore(s), ids, log, SetterStore(s).Cells()
    ensures SetterStore(s).Valid() && SetterStore(s).initialized
    ensures SetterStore(s).value == WritePath(old(SetterStore(s).Current()), SetterPath(s), x, old(ids.next)).0
    ensures ids.next == old(ids.next) + |SetterPath(s)|
    ensures SetterStore(s).subscriptions == old(SetterStore(s).subscriptions)
    ensures log.calls == old(log.calls) + old(EmittedAll(SetterStore(s).subscriptions, WritePath(SetterStore(s).Current(), SetterPath(s), x, ids.next).0))
    ensures old(TracksAll(SetterStore(s).subscriptions, SetterStore(s).Current())) ==>
      (forall l <- SetterStore(s).subscriptions ::
        SameWhenIdentical(old(SetterStore(s).Current()), SetterStore(s).value, ForwardKeys(l))) ==>
      TracksAll(SetterStore(s).subscriptions, SetterStore(s).value)
    decreases s, 1
  {
    var st := SetterStore(s);
    CellsAllocated(st.subscriptions);
    match s
    case RootSetter(_) =>
      st.Set(x, log);
    case ChildSetter(_, _, _) =>
      SetThroughParent(s, x, ids, log);
  }

  /**
   * A child's setter (state.ts:104-109): read the parent's value, copy it
   * with the child's key set to `x` under a fresh tag, and hand the copy to
   * the parent's setter.
   */
  method SetThroughParent(s: Setter, x: Value, ids: Ids, log: Log)
    requires s.ChildSetter?
    requires SetterWired(s) && SetterLinked(s) && SetterStore(s).Valid()
    modifies SetterStore(s), ids, log, SetterStore(s).Cells()
    ensures SetterStore(s).Valid() && SetterStore(s).initialized
    ensures SetterStore(s).value == WritePath(old(SetterStore(s).Current()), SetterPath(s), x, old(ids.next)).0
    ensures ids.next == old(ids.next) + |SetterPath(s)|
    ensures SetterStore(s).subscriptions == old(SetterStore(s).subscriptions)
    ensures log.calls == old(log.calls) + old(EmittedAll(SetterStore(s).subscriptions, WritePath(SetterStore(s).Current(), SetterPath(s), x, ids.next).0))
    ensures old(TracksAll(SetterStore(s).subscriptions, SetterStore(s).Current())) ==>
      (forall l <- SetterStore(s).subscriptions ::
        SameWhenIdentical(old(SetterStore(s).Current()), SetterStore(s).value, ForwardKeys(l))) ==>
      TracksAll(SetterStore(s).subscriptions, SetterStore(s).value)
    decreases s, 0
  {
    var st := SetterStore(s);
    var p, g, k := s.parent, s.parentGetter, s.key;
    ghost var root := st.Current();
    ghost var target := WritePath(root, SetterPath(s), x, ids.next).0;
    ghost var owed := EmittedAll(st.subscriptions, target);
    assert SetterPath(s) == SetterPath(p) + [k];
    WritePathSnoc(root, SetterPath(p), k, x, ids.next);
    assert GetterStore(g) == st;
    ghost var subs := st.subscriptions;
    CellsAllocated(subs);
    var copy := CopyFromParent(g, k, x, ids);
    assert st.subscriptions == subs;
    assert EmittedAll(subs, target) == owed;
    SetValue(p, copy, ids, log);
  }

  /** The parent's value read through `g`, copied with `k` set to `x` under the next tag (state.ts:105-108). */
  method CopyFromParent(g: Getter, k: ChildKey, x: Value, ids: Ids) returns (copy: Value)
    requires Wired(g) && GetterStore(g).Valid()
    modifies GetterStore(g), ids
    ensures copy == CopyWith(ReadPath(old(GetterStore(g).Current()), GetterPath(g)), k, x, old(ids.next))
    ensures ids.next == old(ids.next) + 1
    ensures GetterStore(g).Valid() && GetterStore(g).initialized
    ensures GetterStore(g).Current() == old(GetterStore(g).Current())
    ensures GetterStore(g).subscriptions == old(GetterStore(g).subscriptions)
  {
    var id := ids.next;
    var pv := GetValue(g);
    ids.next := id + 1;
    copy := CopyWith(pv, k, x, id);
  }

  /** The keys of the wrappers around a registered listener, outermost first. */
  function ForwardKeys(l: Listener): seq<ChildKey> {
    match l
    case External(_) => []
    case Forward(_, k, inner) => [k] + ForwardKeys(inner)
  }

  /** The listener of outside code at the centre of the wrappers. */
  function Innermost(l: Listener): (r: Listener)
    ensures r.External?
  {
    match l
    case External(_) => l
    case Forward(_, _, inner) => Innermost(inner)
  }

  /**
   * A subscription call (state.ts:91-97, 110-119): a child takes a snapshot of
   * its own value, then subscribes, through its parent, a wrapper around the
   * callback; the root appends what reaches it. `h` is the listener the root
   * registered, which the returned disposer removes.
   */
  method SubscribeVia(sub: Subscriber, l: Listener) returns (h: Listener)
    requires SubscriberWired(sub) && SubscriberLinked(sub) && SubscriberStore(sub).Valid()
    requires Chain(l) && CellSet(l) !! SubscriberStore(sub).Cells()
    requires Tracks(l, ReadPath(SubscriberStore(sub).Current(), SubscriberPath(sub)))
    modifies SubscriberStore(sub)
    ensures SubscriberStore(sub).Valid()
    ensures SubscriberStore(sub).subscriptions == old(SubscriberStore(sub).subscriptions) + [h]
    ensures SubscriberStore(sub).Current() == old(SubscriberStore(sub).Current())
    ensures ForwardKeys(h) == SubscriberPath(sub) + ForwardKeys(l)
    ensures Innermost(h) == Innermost(l)
    ensures Tracks(h, SubscriberStore(sub).Current())
    decreases sub, 1
  {
    match sub
    case RootSubscriber(st) =>
      CellSetAllocated(l);
      st.Subscribe(l);
      h := l;
    case ChildSubscriber(_, _, _) =>
      h := SubscribeThroughParent(sub, l);
  }

  /** A child's subscription (state.ts:110-119): wrap the callback with a snapshot and subscribe the wrapper to the parent. */
  method SubscribeThroughParent(sub: Subscriber, l: Listener) returns (h: Listener)
    requires sub.ChildSubscriber?
    requires SubscriberWired(sub) && SubscriberLinked(sub) && SubscriberStore(sub).Valid()
    requires Chain(l) && CellSet(l) !! SubscriberStore(sub).Cells()
    requires Tracks(l, ReadPath(SubscriberStore(sub).Current(), SubscriberPath(sub)))
    modifies SubscriberStore(sub)
    ensures SubscriberStore(sub).Valid()
    ensures SubscriberStore(sub).subscriptions == old(SubscriberStore(sub).subscriptions) + [h]
    ensures SubscriberStore(sub).Current() == old(SubscriberStore(sub).Current())
    ensures ForwardKeys(h) == SubscriberPath(sub) + ForwardKeys(l)
    ensures Innermost(h) == Innermost(l)
    ensures Tracks(h, SubscriberStore(sub).Current())
    decreases sub, 0
  {
    var p, g, k := sub.parent, sub.parentGetter, sub.key;
    assert SubscriberPath(sub) == SubscriberPath(p) + [k];
    var wrapped := Wrap(g, k, l);
    h := SubscribeVia(p, wrapped);
  }

  /**
   * The wrapper a child subscribes to its parent (state.ts:111-118): its cell
   * holds the child's value, read through the parent's getter, and it
   * forwards to `l`.
   */
  method Wrap(g: Getter, k: ChildKey, l: Listener) returns (w: Listener)
    requires Wired(g) && GetterStore(g).Valid()
    requires Chain(l) && CellSet(l) !! GetterStore(g).Cells()
    requires Tracks(l, ReadPath(GetterStore(g).Current(), GetterPath(g) + [k]))
    modifies GetterStore(g)
    ensures GetterStore(g).Valid()
    ensures GetterStore(g).subscriptions == old(GetterStore(g).subscriptions)
    ensures GetterStore(g).Current() == old(GetterStore(g).Current())
    ensures w.Forward? && w.key == k && w.inner == l && fresh(w.cell)
    ensures Chain(w) && CellSet(w) !! GetterStore(g).Cells()
    ensures Tracks(w, ReadPath(GetterStore(g).Current(), GetterPath(g)))
  {
    ghost var root := GetterStore(g).Current();
    ReadPathSnoc(root, GetterPath(g), k);
    CellsAllocated(GetterStore(g).subscriptions);
    CellSetAllocated(l);
    var snapshot := GetValue(ChildGetter(g, k));
    var c := new Cell(snapshot);
    w := Forward(c, k, l);
  }

  /** The wrapper levels of a subscription at `ks` all see a change when `v` becomes `w`. */
  predicate AllChanged(v: Value, w: Value, ks: seq<ChildKey>) {
    forall i :: 1 <= i <= |ks| ==> !StrictEq(ReadPath(w, ks[..i]), ReadPath(v, ks[..i]))
  }

  /**
   * What a registered subscription does when the root changes from `v`, which
   * its snapshots reflect, to `w`: the callback is called once with its
   * projection of `w` exactly when the projection at every level changed,
   * and is not called otherwise.
   */
  lemma {:induction false} EmittedTracked(h: Listener, v: Value, w: Value)
    requires Tracks(h, v)
    ensures Emitted(h, w) ==
      if AllChanged(v, w, ForwardKeys(h)) then [(Innermost(h).id, ReadPath(w, ForwardKeys(h)))] else []
  {
    match h
    case External(_) =>
    case Forward(c, k, inner) =>
      var pk := AsPropertyKey(k);
      EmittedTracked(inner, Get(v, pk), Get(w, pk));
      AllChangedCons(v, w, k, ForwardKeys(inner));
      assert ForwardKeys(h) == [k] + ForwardKeys(inner);
      ReadPathCons(w, k, ForwardKeys(inner));
  }

  /**
   * While a store's snapshots track its value `v` (as `Store.Set`,
   * `Store.Subscribe` and `Store.Unsubscribe` keep them), each registered
   * subscription reacts to the next value `w` as `EmittedTracked` says.
   */
  lemma RegisteredEmits(ls: seq<Listener>, j: nat, v: Value, w: Value)
    requires TracksAll(ls, v) && j < |ls|
    ensures Emitted(ls[j], w) ==
      if AllChanged(v, w, ForwardKeys(ls[j])) then [(Innermost(ls[j]).id, ReadPath(w, ForwardKeys(ls[j])))] else []
  {
    TracksAllAt(ls, v);
    EmittedTracked(ls[j], v, w);
  }

  /** Every level of `[k] + rest` changed when `k` changed and every level of `rest` below it did. */
  lemma AllChangedCons(v: Value, w: Value, k: ChildKey, rest: seq<ChildKey>)
    ensures AllChanged(v, w, [k] + rest) <==>
      !StrictEq(Get(w, AsPropertyKey(k)), Get(v, AsPropertyKey(k))) && AllChanged(Get(v, AsPropertyKey(k)), Get(w, AsPropertyKey(k)), rest)
  {
    var pk := AsPropertyKey(k);
    var ks := [k] + rest;
    forall i | 0 <= i <= |rest|
      ensures ReadPath(w, ks[..i + 1]) == ReadPath(Get(w, pk), rest[..i])
      ensures ReadPath(v, ks[..i + 1]) == ReadPath(Get(v, pk), rest[..i])
    {
      assert ks[..i + 1][1..] == rest[..i];
    }
    assert rest[..0] == [];
    assert ReadPath(w, ks[..1]) == Get(w, pk) && ReadPath(v, ks[..1]) == Get(v, pk);
    if AllChanged(Get(v, pk), Get(w, pk), rest) && !StrictEq(Get(w, pk), Get(v, pk)) {
      forall i | 1 <= i <= |ks|
        ensures !StrictEq(ReadPath(w, ks[..i]), ReadPath(v, ks[..i]))
      {
        assert ReadPath(w, ks[..(i - 1) + 1]) == ReadPath(Get(w, pk), rest[..i - 1]);
      }
    }
    if AllChanged(v, w, ks) {
      forall i | 1 <= i <= |rest|
        ensures !StrictEq(ReadPath(Get(w, pk), rest[..i]), ReadPath(Get(v, pk), rest[..i]))
      {
        assert !StrictEq(ReadPath(w, ks[..i + 1]), ReadPath(v, ks[..i + 1]));
      }
    }
  }

  /** Identities are kept along `[k] + rest` when they are kept at the root and along `rest` below `k`. */
  lemma SameWhenIdenticalCons(v: Value, w: Value, k: ChildKey, rest: seq<ChildKey>)
    ensures SameWhenIdentical(v, w, [k] + rest) <==>
      (StrictEq(w, v) ==> w == v) && SameWhenIdentical(Get(v, AsPropertyKey(k)), Get(w, AsPropertyKey(k)), rest)
  {
    var pk := AsPropertyKey(k);
    var ks := [k] + rest;
    forall i | 0 <= i <= |rest|
      ensures ReadPath(w, ks[..i + 1]) == ReadPath(Get(w, pk), rest[..i])
      ensures ReadPath(v, ks[..i + 1]) == ReadPath(Get(v, pk), rest[..i])
    {
      assert ks[..i + 1][1..] == rest[..i];
    }
    assert ks[..0] == [];
    if (StrictEq(w, v) ==> w == v) && SameWhenIdentical(Get(v, pk), Get(w, pk), rest) {
      forall i | 0 <= i <= |ks|
        ensures StrictEq(ReadPath(w, ks[..i]), ReadPath(v, ks[..i])) ==> ReadPath(w, ks[..i]) == ReadPath(v, ks[..i])
      {
        if i > 0 {
          assert ReadPath(w, ks[..(i - 1) + 1]) == ReadPath(Get(w, pk), rest[..i - 1]);
        }
      }
    }
    if SameWhenIdentical(v, w, ks) {
      forall i | 0 <= i <= |rest|
        ensures StrictEq(ReadPath(Get(w, pk), rest[..i]), ReadPath(Get(v, pk), rest[..i])) ==>
          ReadPath(Get(w, pk), rest[..i]) == ReadPath(Get(v, pk), rest[..i])
      {
        assert StrictEq(ReadPath(w, ks[..i + 1]), ReadPath(v, ks[..i + 1])) ==>
          ReadPath(w, ks[..i + 1]) == ReadPath(v, ks[..i + 1]);
      }
    }
  }

  /**
   * A write of `x` at `ks` with fresh tags keeps the identities along any
   * subscribed path `fk`: the ancestors it renews are new objects, a path
   * that leaves `ks` meets the old values unchanged, and below `ks` it is
   * up to `x` to reuse only what it reuses as is.
   */
  lemma {:induction false} WriteKeepsIdentities(v: Value, ks: seq<ChildKey>, x: Value, next: nat, fk: seq<ChildKey>)
    requires forall j :: 0 <= j < |ks| ==> Normalized(ks[j])
    requires forall j :: 0 <= j < |fk| ==> Normalized(fk[j])
    requires PathTagsBelow(v, ks, next)
    requires |ks| <= |fk| && fk[..|ks|] == ks ==> SameWhenIdentical(ReadPath(v, ks), x, fk[|ks|..])
    ensures SameWhenIdentical(v, WritePath(v, ks, x, next).0, fk)
    decreases |ks|
  {
    var w := WritePath(v, ks, x, next).0;
    if ks == [] {
      assert fk[..0] == ks && fk[0..] == fk;
    } else {
      var k0 := ks[0];
      var pk0 := AsPropertyKey(k0);
      var c := WritePath(Get(v, pk0), ks[1..], x, next).0;
      assert w == CopyWith(v, k0, c, next + |ks| - 1);
      assert !StrictEq(w, v);
      if fk == [] {
        assert fk[..0] == [];
      } else {
        var f0, rest := fk[0], fk[1..];
        assert fk == [f0] + rest;
        SameWhenIdenticalCons(v, w, f0, rest);
        if f0 == k0 {
          var ks' := ks[1..];
          if |ks'| <= |rest| && rest[..|ks'|] == ks' {
            assert fk[..|ks|] == ks;
            assert fk[|ks|..] == rest[|ks'|..];
            assert ReadPath(v, ks) == ReadPath(Get(v, pk0), ks');
          }
          WriteKeepsIdentities(Get(v, pk0), ks', x, next, rest);
        } else {
          if AsPropertyKey(f0) == pk0 {
            AsPropertyKeyInjective(f0, k0);
          }
          assert Get(w, AsPropertyKey(f0)) == Get(v, AsPropertyKey(f0));
        }
      }
    }
  }

  /**
   * A write of `x` at `ks` over `v`, taking tags from `next` on, that keeps
   * the identities every listener of `ls` relies on: the keys are normalised,
   * the objects it replaces have older tags, and below `ks` the value `x`
   * keeps what a listener there sees as `===`.
   */
  predicate IdentityKeepingWrite(v: Value, ks: seq<ChildKey>, x: Value, next: nat, ls: seq<Listener>) {
    && (forall j :: 0 <= j < |ks| ==> Normalized(ks[j]))
    && PathTagsBelow(v, ks, next)
    && forall l <- ls ::
      && (forall j :: 0 <= j < |ForwardKeys(l)| ==> Normalized(ForwardKeys(l)[j]))
      && (|ks| <= |ForwardKeys(l)| && ForwardKeys(l)[..|ks|] == ks ==>
            SameWhenIdentical(ReadPath(v, ks), x, ForwardKeys(l)[|ks|..]))
  }

  /** Such a write keeps the identities along every listener's keys. */
  lemma WriteKeepsAllIdentities(v: Value, ks: seq<ChildKey>, x: Value, next: nat, ls: seq<Listener>)
    requires IdentityKeepingWrite(v, ks, x, next, ls)
    ensures forall l <- ls :: SameWhenIdentical(v, WritePath(v, ks, x, next).0, ForwardKeys(l))
  {
    forall l <- ls
      ensures SameWhenIdentical(v, WritePath(v, ks, x, next).0, ForwardKeys(l))
    {
      WriteKeepsIdentities(v, ks, x, next, ForwardKeys(l));
    }
  }

  /** Below a primitive every read is a primitive (undefined): nothing there can be `===` without being equal. */
  lemma {:induction false} PrimitiveKeepsIdentities(v: Value, x: Value, ks: seq<ChildKey>)
    requires !x.Object?
    ensures SameWhenIdentical(v, x, ks)
  {
    forall i | 0 <= i <= |ks|
      ensures !ReadPath(x, ks[..i]).Object?
    {
      ReadPathPrimitive(x, ks[..i]);
    }
  }

  lemma {:induction false} ReadPathPrimitive(x: Value, ks: seq<ChildKey>)
    requires !x.Object?
    ensures !ReadPath(x, ks).Object?
    decreases |ks|
  {
    if ks != [] {
      ReadPathPrimitive(Get(x, AsPropertyKey(ks[0])), ks[1..]);
    }
  }

  /** Reading `[k] + rest` is reading `rest` below `k`. */
  lemma ReadPathCons(v: Value, k: ChildKey, rest: seq<ChildKey>)
    ensures ReadPath(v, [k] + rest) == ReadPath(Get(v, AsPropertyKey(k)), rest)
  {
    assert ([k] + rest)[1..] == rest;
  }

  /**
   * Writing `x` at exactly the subscribed path, when `x` is not `===` the old
   * value there, calls the callback once with `x`: every ancestor on the path is
   * a new object, so every wrapper level forwards.
   */
  lemma OwnWriteFires(h: Listener, v: Value, x: Value, next: nat)
    requires Tracks(h, v)
    requires forall j :: 0 <= j < |ForwardKeys(h)| ==> Normalized(ForwardKeys(h)[j])
    requires PathTagsBelow(v, ForwardKeys(h), next)
    requires ForwardKeys(h) != [] ==> !StrictEq(x, ReadPath(v, ForwardKeys(h)))
    ensures Emitted(h, WritePath(v, ForwardKeys(h), x, next).0) == [(Innermost(h).id, x)]
  {
    var ks := ForwardKeys(h);
    var w := WritePath(v, ks, x, next).0;
    EmittedTracked(h, v, w);
    WriteThenRead(v, ks, x, next);
    forall i | 1 <= i <= |ks|
      ensures !StrictEq(ReadPath(w, ks[..i]), ReadPath(v, ks[..i]))
    {
      if i < |ks| {
        WriteRenewsAncestors(v, ks, x, next, i);
      } else {
        assert ks[..i] == ks;
      }
    }
  }

  /**
   * A write at or below a sibling of some level of the subscribed path (a
   * different key under the same ancestor, then any keys) does not call the
   * callback: that level's projection is the very same value as before.
   */
  lemma SiblingWriteSilent(h: Listener, v: Value, j: nat, k2: ChildKey, rest: seq<ChildKey>, x: Value, next: nat)
    requires Tracks(h, v)
    requires j < |ForwardKeys(h)|
    requires forall i :: 0 <= i < |ForwardKeys(h)| ==> Normalized(ForwardKeys(h)[i])
    requires Normalized(k2) && k2 != ForwardKeys(h)[j]
    requires forall i :: 0 <= i < |rest| ==> Normalized(rest[i])
    ensures Emitted(h, WritePath(v, ForwardKeys(h)[..j] + [k2] + rest, x, next).0) == []
  {
    var ks := ForwardKeys(h);
    var p := ks[..j] + [k2] + rest;
    var w := WritePath(v, p, x, next).0;
    EmittedTracked(h, v, w);
    assert p[..j] == ks[..j] && p[j] == k2;
    WriteAncestors(v, p, x, next, j);
    ReadPathSnoc(w, ks[..j], ks[j]);
    ReadPathSnoc(v, ks[..j], ks[j]);
    assert ks[..j + 1] == ks[..j] + [ks[j]];
    assert StrictEq(ReadPath(w, ks[..j + 1]), ReadPath(v, ks[..j + 1]));
  }

  /**
   * A lazily initialised state that is written before it is ever read, with
   * the root setter as written: the first read calls the initializer and
   * returns its result, so the written value is lost.
   */
  method SetBeforeFirstReadAsWritten(initial: Value, x: Value) returns (read: Value)
    ensures read == initial
  {
    var st := new Store(Lazy(initial));
    var log := new Log();
    st.SetAsWritten(x, log);
    read := st.Get();
  }

  /** The same sequence with the corrected setter: the read returns the value written, whatever the initializer. */
  method SetBeforeFirstRead(init: Initializer, x: Value) returns (read: Value)
    ensures read == x
  {
    var st := new Store(init);
    var log := new Log();
    st.Set(x, log);
    read := st.Get();
  }
}

=== FILE: statetoken.dfy ===
/**
 * The state feature as tokens see it (src/state/state.ts:62-140): `addState`
 * installs the root closures and the child rule, and `getTokenValue`,
 * `setTokenValue` and `subscribeToTokenValue` call the closures a token
 * carries. A descendant's closures are chains that end at the root store and
 * spell the descendant's keys.
 */
module StateFeature {
  import opened Keys
  import opened JsValues
  import opened State
  import opened Tokens

  /** The fields `addState` gives the token it extends (state.ts:77-98). */
  function RootLayer(st: Store): Layer {
    map[Sym(GetValueSym) := GetterField(RootGetter(st)),
        Sym(SetValueSym) := SetterField(RootSetter(st)),
        Sym(SubscribeSym) := SubscriberField(RootSubscriber(st))]
  }

  /** The token's own closures are the root closures of `st`. */
  predicate StateRoot(layers: seq<Layer>, st: Store) {
    GetterOf(layers) == RootGetter(st) && SetterOf(layers) == RootSetter(st) && SubscriberOf(layers) == RootSubscriber(st)
  }

  /** The state link is the last link of the rule that writes each of the three closures. */
  predicate StateLinked(rule: seq<Step>) {
    && LastWriter(rule, Sym(GetValueSym)) >= 0 && rule[LastWriter(rule, Sym(GetValueSym))] == Derive(StateChild)
    && LastWriter(rule, Sym(SetValueSym)) >= 0 && rule[LastWriter(rule, Sym(SetValueSym))] == Derive(StateChild)
    && LastWriter(rule, Sym(SubscribeSym)) >= 0 && rule[LastWriter(rule, Sym(SubscribeSym))] == Derive(StateChild)
  }

  /** The getter of the descendant reached by `ks` from a token whose getter is `g`. */
  function Getters(g: Getter, ks: seq<ChildKey>): Getter
    decreases |ks|
  {
    if ks == [] then g else ChildGetter(Getters(g, ks[..|ks| - 1]), ks[|ks| - 1])
  }

  function Setters(s: Setter, g: Getter, ks: seq<ChildKey>): Setter
    decreases |ks|
  {
    if ks == [] then s
    else ChildSetter(Setters(s, g, ks[..|ks| - 1]), Getters(g, ks[..|ks| - 1]), ks[|ks| - 1])
  }

  function Subscribers(sub: Subscriber, g: Getter, ks: seq<ChildKey>): Subscriber
    decreases |ks|
  {
    if ks == [] then sub
    else ChildSubscriber(Subscribers(sub, g, ks[..|ks| - 1]), Getters(g, ks[..|ks| - 1]), ks[|ks| - 1])
  }

  /**
   * `addState(initializer)` applied to a builder: a new store, the root
   * closures as a new layer, and the state link appended to the child rule.
   */
  method AddState(b: TokenBuilder, init: Initializer) returns (st: Store)
    requires b.Valid()
    modifies b
    ensures fresh(st) && st.Valid() && st.initializer == init && st.subscriptions == []
    ensures st.initialized == init.Eager? && st.Current() == init.result && st.initializerCalls == 0
    ensures b.Valid() && b.layers == old(b.layers) + [RootLayer(st)] && StateRoot(b.layers, st)
    ensures b.rule == old(b.rule) + [Derive(StateChild)] && StateLinked(b.rule)
    ensures b.disposers == old(b.disposers)
  {
    st := new Store(init);
    b.AddFeature(Feature(RootLayer(st), DeriveWith(StateChild), None));
    LookupShadows(old(b.layers), RootLayer(st), Sym(GetValueSym));
    LookupShadows(old(b.layers), RootLayer(st), Sym(SetValueSym));
    LookupShadows(old(b.layers), RootLayer(st), Sym(SubscribeSym));
  }

  /** A child's closures wrap its parent's: state.ts:99-120 applied by the rule. */
  lemma StateChildFields(rule: seq<Step>, pl: seq<Layer>, k: ChildKey)
    requires StateLinked(rule)
    ensures GetterOf(DeriveLayers(rule, pl, k)) == ChildGetter(GetterOf(pl), k)
    ensures SetterOf(DeriveLayers(rule, pl, k)) == ChildSetter(SetterOf(pl), GetterOf(pl), k)
    ensures SubscriberOf(DeriveLayers(rule, pl, k)) == ChildSubscriber(SubscriberOf(pl), GetterOf(pl), k)
  {
    var ls := DeriveLayers(rule, pl, k);
    LookupDerived(rule, pl, k, Sym(GetValueSym));
    LookupDerived(rule, pl, k, Sym(SetValueSym));
    LookupDerived(rule, pl, k, Sym(SubscribeSym));
    var i := LastWriter(rule, Sym(GetValueSym));
    var j := LastWriter(rule, Sym(SetValueSym));
    var m := LastWriter(rule, Sym(SubscribeSym));
    LinkSeesEarlierLinks(rule, pl, k, i);
    LinkSeesEarlierLinks(rule, pl, k, j);
    LinkSeesEarlierLinks(rule, pl, k, m);
  }

  /** The closures of the descendant reached by `ks` are the chains of `ks` over the token's own. */
  lemma {:induction false} DescendantClosures(layers: seq<Layer>, rule: seq<Step>, ks: seq<ChildKey>)
    requires StateLinked(rule)
    ensures GetterOf(DescendantLayers(layers, rule, ks)) == Getters(GetterOf(layers), ks)
    ensures SetterOf(DescendantLayers(layers, rule, ks)) == Setters(SetterOf(layers), GetterOf(layers), ks)
    ensures SubscriberOf(DescendantLayers(layers, rule, ks)) == Subscribers(SubscriberOf(layers), GetterOf(layers), ks)
    decreases |ks|
  {
    if ks != [] {
      var init := ks[..|ks| - 1];
      var k := ks[|ks| - 1];
      assert ks == init + [k];
      DescendantClosures(layers, rule, init);
      DescendantSnoc(layers, rule, init, k);
      StateChildFields(rule, DescendantLayers(layers, rule, init), k);
    }
  }

  /** Below a root store, the getter chain of `ks` reads that store along exactly `ks`. */
  lemma {:induction false} GettersReachRoot(st: Store, ks: seq<ChildKey>)
    ensures Wired(Getters(RootGetter(st), ks))
    ensures GetterStore(Getters(RootGetter(st), ks)) == st && GetterPath(Getters(RootGetter(st), ks)) == ks
    decreases |ks|
  {
    if ks != [] {
      var init := ks[..|ks| - 1];
      GettersReachRoot(st, init);
      assert ks == init + [ks[|ks| - 1]];
    }
  }

  /** ... the setter chain writes it along exactly `ks`, each link reading its parent at the parent's path ... */
  lemma {:induction false} SettersReachRoot(st: Store, ks: seq<ChildKey>)
    ensures SetterWired(Setters(RootSetter(st), RootGetter(st), ks)) && SetterLinked(Setters(RootSetter(st), RootGetter(st), ks))
    ensures SetterStore(Setters(RootSetter(st), RootGetter(st), ks)) == st
    ensures SetterPath(Setters(RootSetter(st), RootGetter(st), ks)) == ks
    decreases |ks|
  {
    if ks != [] {
      var init := ks[..|ks| - 1];
      SettersReachRoot(st, init);
      GettersReachRoot(st, init);
      assert ks == init + [ks[|ks| - 1]];
    }
  }

  /** ... and the subscriber chain subscribes to it along exactly `ks`. */
  lemma {:induction false} SubscribersReachRoot(st: Store, ks: seq<ChildKey>)
    ensures SubscriberWired(Subscribers(RootSubscriber(st), RootGetter(st), ks))
    ensures SubscriberLinked(Subscribers(RootSubscriber(st), RootGetter(st), ks))
    ensures SubscriberStore(Subscribers(RootSubscriber(st), RootGetter(st), ks)) == st
    ensures SubscriberPath(Subscribers(RootSubscriber(st), RootGetter(st), ks)) == ks
    decreases |ks|
  {
    if ks != [] {
      var init := ks[..|ks| - 1];
      SubscribersReachRoot(st, init);
      GettersReachRoot(st, init);
      assert ks == init + [ks[|ks| - 1]];
    }
  }

  /**
   * Every descendant of a token holding the root closures of `st` reads,
   * writes and subscribes through `st` at the path of its own keys.
   */
  lemma DescendantState(layers: seq<Layer>, rule: seq<Step>, st: Store, ks: seq<ChildKey>)
    requires StateRoot(layers, st) && StateLinked(rule)
    ensures var d := DescendantLayers(layers, rule, ks);
      && Wired(GetterOf(d)) && GetterStore(GetterOf(d)) == st && GetterPath(GetterOf(d)) == ks
      && SetterWired(SetterOf(d)) && SetterLinked(SetterOf(d))
      && SetterStore(SetterOf(d)) == st && SetterPath(SetterOf(d)) == ks
      && SubscriberWired(SubscriberOf(d)) && SubscriberLinked(SubscriberOf(d))
      && SubscriberStore(SubscriberOf(d)) == st && SubscriberPath(SubscriberOf(d)) == ks
  {
    DescendantClosures(layers, rule, ks);
    GettersReachRoot(st, ks);
    SettersReachRoot(st, ks);
    SubscribersReachRoot(st, ks);
  }

  /** `getTokenValue` (state.ts:124-126): the token's projection of its root value. */
  method GetTokenValue(t: Token) returns (v: Value)
    requires Wired(GetterOf(t.layers)) && GetterStore(GetterOf(t.layers)).Valid()
    modifies GetterStore(GetterOf(t.layers))
    ensures v == ReadPath(old(GetterStore(GetterOf(t.layers)).Current()), GetterPath(GetterOf(t.layers)))
    ensures GetterStore(GetterOf(t.layers)).Valid()
    ensures GetterStore(GetterOf(t.layers)).Current() == old(GetterStore(GetterOf(t.layers)).Current())
    ensures GetterStore(GetterOf(t.layers)).subscriptions == old(GetterStore(GetterOf(t.layers)).subscriptions)
  {
    v := GetValue(GetterOf(t.layers));
  }

  /** `setTokenValue` (state.ts:128-133): the write goes through the token's path into a new root value. */
  method SetTokenValue(t: Token, x: Value, ids: Ids, log: Log)
    requires SetterWired(SetterOf(t.layers)) && SetterLinked(SetterOf(t.layers)) && SetterStore(SetterOf(t.layers)).Valid()
    modifies SetterStore(SetterOf(t.layers)), ids, log, SetterStore(SetterOf(t.layers)).Cells()
    ensures SetterStore(SetterOf(t.layers)).Valid()
    ensures SetterStore(SetterOf(t.layers)).Current() ==
      WritePath(old(SetterStore(SetterOf(t.layers)).Current()), SetterPath(SetterOf(t.layers)), x, old(ids.next)).0
    ensures SetterStore(SetterOf(t.layers)).subscriptions == old(SetterStore(SetterOf(t.layers)).subscriptions)
    ensures log.calls == old(log.calls) + old(EmittedAll(SetterStore(SetterOf(t.layers)).subscriptions,
      WritePath(SetterStore(SetterOf(t.layers)).Current(), SetterPath(SetterOf(t.layers)), x, ids.next).0))
    ensures old(TracksAll(SetterStore(SetterOf(t.layers)).subscriptions, SetterStore(SetterOf(t.layers)).Current())) ==>
      old(IdentityKeepingWrite(SetterStore(SetterOf(t.layers)).Current(), SetterPath(SetterOf(t.layers)), x, ids.next,
        SetterStore(SetterOf(t.layers)).subscriptions)) ==>
      TracksAll(SetterStore(SetterOf(t.layers)).subscriptions, SetterStore(SetterOf(t.layers)).Current())
  {
    ghost var st := SetterStore(SetterOf(t.layers));
    ghost var v, ks, next := st.Current(), SetterPath(SetterOf(t.layers)), ids.next;
    if IdentityKeepingWrite(v, ks, x, next, st.subscriptions) {
      WriteKeepsAllIdentities(v, ks, x, next, st.subscriptions);
    }
    SetValue(SetterOf(t.layers), x, ids, log);
  }

  /**
   * `subscribeToTokenValue` (state.ts:135-140) with the callback `id` of code
   * outside the model: `h` is what the root registered; the disposer returned
   * to the caller is `Unsubscribe(h)` on the root store.
   */
  method SubscribeToTokenValue(t: Token, id: nat) returns (h: Listener)
    requires SubscriberWired(SubscriberOf(t.layers)) && SubscriberLinked(SubscriberOf(t.layers))
    requires SubscriberStore(SubscriberOf(t.layers)).Valid()
    modifies SubscriberStore(SubscriberOf(t.layers))
    ensures SubscriberStore(SubscriberOf(t.layers)).Valid()
    ensures SubscriberStore(SubscriberOf(t.layers)).subscriptions == old(SubscriberStore(SubscriberOf(t.layers)).subscriptions) + [h]
    ensures SubscriberStore(SubscriberOf(t.layers)).Current() == old(SubscriberStore(SubscriberOf(t.layers)).Current())
    ensures ForwardKeys(h) == SubscriberPath(SubscriberOf(t.layers)) && Innermost(h) == External(id)
    ensures Tracks(h, SubscriberStore(SubscriberOf(t.layers)).Current())
  {
    h := SubscribeVia(SubscriberOf(t.layers), External(id));
  }

  /**
   * A token's write followed by its read gives back the value written
   * (state.spec.ts:57-63): the path written is the path read.
   */
  method SetThenGet(t: Token, x: Value, ids: Ids, log: Log) returns (v: Value)
    requires SetterWired(SetterOf(t.layers)) && SetterLinked(SetterOf(t.layers)) && SetterStore(SetterOf(t.layers)).Valid()
    requires Wired(GetterOf(t.layers)) && GetterStore(GetterOf(t.layers)) == SetterStore(SetterOf(t.layers))
    requires GetterPath(GetterOf(t.layers)) == SetterPath(SetterOf(t.layers))
    modifies SetterStore(SetterOf(t.layers)), ids, log, SetterStore(SetterOf(t.layers)).Cells()
    ensures v == x
  {
    ghost var before := SetterStore(SetterOf(t.layers)).Current();
    ghost var next := ids.next;
    SetTokenValue(t, x, ids, log);
    v := GetTokenValue(t);
    WriteThenRead(before, SetterPath(SetterOf(t.layers)), x, next);
  }

  /** `getTokenValue` on what a property read returned: a value, or the TypeError of calling a getter that is not there. */
  datatype Outcome = Returned(v: Value) | TypeError

  /** A token extended with `addState`: its own closures are the root closures of `st`, and its cache holds only children its rule made. */
  ghost predicate StateOwner(owner: Token, st: Store)
    reads owner.cache, st
  {
    StateRoot(owner.layers, st) && StateLinked(owner.rule) && owner.CacheCoherent() && st.Valid()
  }

  /**
   * `owner[key]` for a string name the target does not have (token.ts:40-66):
   * an inherited member of `Object.prototype`, or the child at the normalised
   * key, whose closures are the root store's read and written at that key.
   */
  method ChildAccess(owner: Token, st: Store, key: PropertyKey) returns (a: Access)
    requires key.Name? && Lookup(owner.layers, key).None?
    requires StateOwner(owner, st)
    modifies owner.cache
    ensures StateOwner(owner, st)
    ensures a.ChildToken? <==> key.text !in ObjectPrototypeNames
    ensures a.ChildToken? ==> GetterOf(a.child.layers) == ChildGetter(RootGetter(st), Normalize(key))
    ensures a.ChildToken? ==> SetterOf(a.child.layers) == ChildSetter(RootSetter(st), RootGetter(st), Normalize(key))
  {
    a := owner.Get(key);
    if a.ChildToken? {
      StateChildFields(owner.rule, owner.layers, Normalize(key));
    }
  }

  /**
   * `getTokenValue(owner[key])` for a string key: the child's value is the
   * root value's property at the normalised key. A name `Object.prototype`
   * has reaches an inherited member, which has no getter: a TypeError.
   */
  method GetChildValue(owner: Token, st: Store, key: PropertyKey) returns (r: Outcome)
    requires key.Name? && Lookup(owner.layers, key).None?
    requires StateOwner(owner, st)
    modifies owner.cache, st
    ensures StateOwner(owner, st)
    ensures st.Current() == old(st.Current()) && st.subscriptions == old(st.subscriptions)
    ensures key.text in ObjectPrototypeNames ==> r == TypeError
    ensures key.text !in ObjectPrototypeNames ==> r == Returned(Get(old(st.Current()), AsPropertyKey(Normalize(key))))
  {
    var a := ChildAccess(owner, st, key);
    if a.ChildToken? {
      assert GetterStore(GetterOf(a.child.layers)) == st;
      var v := GetTokenValue(a.child);
      r := Returned(v);
    } else {
      r := TypeError;
    }
  }

  /**
   * `setTokenValue(owner[key], x)` for a string key: the root value is
   * replaced by a copy with only the normalised key set to `x`, and the
   * root's listeners are notified; an inherited member has no setter.
   */
  method SetChildValue(owner: Token, st: Store, key: PropertyKey, x: Value, ids: Ids, log: Log) returns (thrown: bool)
    requires key.Name? && Lookup(owner.layers, key).None?
    requires StateOwner(owner, st)
    modifies owner.cache, st, ids, log, st.Cells()
    ensures StateOwner(owner, st) && st.subscriptions == old(st.subscriptions)
    ensures thrown <==> key.text in ObjectPrototypeNames
    ensures thrown ==> st.Current() == old(st.Current())
    ensures !thrown ==> st.Current() == CopyWith(old(st.Current()), Normalize(key), x, old(ids.next))
    ensures !thrown ==> log.calls == old(log.calls) + old(EmittedAll(st.subscriptions, CopyWith(st.Current(), Normalize(key), x, ids.next)))
  {
    CellsAllocated(st.subscriptions);
    var a := ChildAccess(owner, st, key);
    if a.ChildToken? {
      assert SetterStore(SetterOf(a.child.layers)) == st && SetterPath(SetterOf(a.child.layers)) == [Normalize(key)];
      assert [Normalize(key)][1..] == [];
      SetTokenValue(a.child, x, ids, log);
      thrown := false;
    } else {
      thrown := true;
    }
  }
}

=== FILE: tokens.dfy ===
/**
 * The token engine (src/token/token.ts). A token is a stack of field layers
 * (one per feature, newest last), a rule that derives the fields of a child
 * from the child as built so far, the parent and the key, a chain of dispose
 * callbacks, and a cache of the children already made. The proxy's `get`
 * becomes the method `Token.Get`; `TokenBuilder` keeps the partial token a
 * builder is extending.
 */
module Tokens {
  import opened Keys
  import opened JsValues
  import opened State
  import opened Paths

  datatype Option<T> = None | Some(value: T)

  /** The value of a capability field installed by a feature. */
  datatype Field =
    | GetterField(getter: Getter)
    | SetterField(setter: Setter)
    | SubscriberField(subscriber: Subscriber)
    | PathField(path: string)
    /** A token held by reference, such as a validation status token. */
    | TokenField(token: Token)
    /** `owner[key]`: a child of another token, looked up on `owner` when it is used. */
    | LookupField(owner: Token, key: PropertyKey)
    /** The yup schema `addSchema` stores: a schema handed in, or what `reach` gives for a key. */
    | SchemaField(schema: SchemaRef)
    /** A field of code outside the model. */
    | Opaque(id: nat)

  /** A schema as the model sees it: the library that interprets it is outside the model. */
  datatype SchemaRef = GivenSchema(id: nat) | Reached(parent: SchemaRef, path: string) | NoSchema

  /** The fields one feature adds: one object of the prototype chain. */
  type Layer = map<PropertyKey, Field>

  /** The `extendChildren` functions of the features in the core. */
  datatype Derivation =
    /** state.ts:99-120: the child's getter, setter and subscriber go through the parent's. */
    | StateChild
    /** path.ts:28-36: the child's path extends the parent's. */
    | PathChild
    /** error.ts:41-43, error-message.ts:44-46, touched.ts:34-36: `owner[path of the child]` under `sym`. */
    | LookupChild(sym: Symbol, owner: Token)
    /** schema.ts:24-31: the child's schema is the parent's reached at the key, or undefined without one. */
    | SchemaChild

  /** One link of the `_childrenExtension` chain: fixed fields (`extendChildren: true`) or a derivation. */
  datatype Step = Copy(fields: Layer) | Derive(d: Derivation)

  /** The `extendChildren` of a feature description: absent or false, true, or a function. */
  datatype ChildrenMode = NoChildren | SameFields | DeriveWith(d: Derivation)

  /** A feature description: its fields, how children get fields, and its dispose callback. */
  datatype Feature = Feature(extend: Layer, children: ChildrenMode, dispose: Option<nat>)

  /** What the proxy's `get` returns. */
  datatype Access =
    | TargetOf(target: Token)
    | FieldValue(field: Field)
    | InternalSlot(sym: Symbol)
    | PrototypeMember(name: string)
    | ChildToken(child: Token)

  /** The field a property reaches through the layers: the newest layer that has it. */
  function Lookup(layers: seq<Layer>, p: PropertyKey): Option<Field>
    decreases |layers|
  {
    if layers == [] then None
    else if p in layers[|layers| - 1] then Some(layers[|layers| - 1][p])
    else Lookup(layers[..|layers| - 1], p)
  }

  /** The properties every partial token carries besides its layers: `_children`, `_childrenExtension`, `_dispose`, `_proxy`. */
  predicate IsInternal(p: PropertyKey) {
    p == Sym(ChildrenSym) || p == Sym(ChildrenExtensionSym) || p == Sym(DisposeSym) || p == Sym(ProxySym)
  }

  /** The names a plain object inherits from `Object.prototype`. */
  const ObjectPrototypeNames: set<string> :=
    {"constructor", "hasOwnProperty", "isPrototypeOf", "propertyIsEnumerable", "toString",
     "toLocaleString", "valueOf", "__proto__", "__defineGetter__", "__defineSetter__",
     "__lookupGetter__", "__lookupSetter__"}

  /** `Reflect.has(target, property)` (token.ts:46). */
  predicate HasProperty(layers: seq<Layer>, p: PropertyKey) {
    Lookup(layers, p).Some? || IsInternal(p) || (p.Name? && p.text in ObjectPrototypeNames)
  }

  /** `Reflect.get` of a property the target has. */
  function Present(layers: seq<Layer>, p: PropertyKey): (r: Access)
    requires HasProperty(layers, p)
    ensures Lookup(layers, p).Some? ==> r == FieldValue(Lookup(layers, p).value)
    ensures Lookup(layers, p).None? && IsInternal(p) ==> r == InternalSlot(p.sym)
    ensures Lookup(layers, p).None? && !IsInternal(p) ==> r == PrototypeMember(p.text)
  {
    match Lookup(layers, p)
    case Some(f) => FieldValue(f)
    case None => if IsInternal(p) then InternalSlot(p.sym) else PrototypeMember(p.text)
  }

  function GetterOf(layers: seq<Layer>): Getter {
    match Lookup(layers, Sym(GetValueSym))
    case Some(GetterField(g)) => g
    case _ => NoGetter
  }

  function SetterOf(layers: seq<Layer>): Setter {
    match Lookup(layers, Sym(SetValueSym))
    case Some(SetterField(s)) => s
    case _ => NoSetter
  }

  function SubscriberOf(layers: seq<Layer>): Subscriber {
    match Lookup(layers, Sym(SubscribeSym))
    case Some(SubscriberField(s)) => s
    case _ => NoSubscriber
  }

  /** `token[_path]` read on a partial token: absent is undefined. */
  function PathValue(layers: seq<Layer>): Option<string> {
    match Lookup(layers, Sym(PathSym))
    case Some(PathField(s)) => Some(s)
    case _ => None
  }

  /** The property key `String(token[_path])`: an absent path is the key "undefined". */
  function PathKey(layers: seq<Layer>): (p: PropertyKey)
    ensures PathValue(layers).Some? ==> p == Name(PathValue(layers).value)
  {
    match PathValue(layers)
    case Some(s) => Name(s)
    case None => Name("undefined")
  }

  /**
   * The fields a derivation gives the child with key `k`, from the child's
   * layers so far and the parent's layers (the parent is the proxy target,
   * read with plain property access).
   */
  function DeriveFields(d: Derivation, childLayers: seq<Layer>, parentLayers: seq<Layer>, k: ChildKey): (r: Layer)
    ensures d.StateChild? ==> r.Keys == {Sym(GetValueSym), Sym(SetValueSym), Sym(SubscribeSym)}
    ensures d.StateChild? ==> r[Sym(GetValueSym)] == GetterField(ChildGetter(GetterOf(parentLayers), k))
    ensures d.PathChild? ==> r.Keys == {Sym(PathSym)}
    ensures d.PathChild? && PathValue(parentLayers).Some? ==> r[Sym(PathSym)] == PathField(ChildPath(PathValue(parentLayers).value, k))
    ensures d.PathChild? && PathValue(parentLayers).None? ==> r[Sym(PathSym)] == PathField(KeyText(k))
    ensures d.LookupChild? ==> r == map[Sym(d.sym) := LookupField(d.owner, PathKey(childLayers))]
    ensures d.SchemaChild? ==> r.Keys == {Sym(SchemaSym)}
  {
    match d
    case StateChild =>
      var g := GetterOf(parentLayers);
      map[Sym(GetValueSym) := GetterField(ChildGetter(g, k)),
          Sym(SetValueSym) := SetterField(ChildSetter(SetterOf(parentLayers), g, k)),
          Sym(SubscribeSym) := SubscriberField(ChildSubscriber(SubscriberOf(parentLayers), g, k))]
    case PathChild =>
      var pp := PathValue(parentLayers);
      map[Sym(PathSym) := PathField(ChildPath(if pp.Some? then pp.value else "", k))]
    case LookupChild(sym, owner) =>
      map[Sym(sym) := LookupField(owner, PathKey(childLayers))]
    case SchemaChild =>
      map[Sym(SchemaSym) := SchemaField(ChildSchema(Lookup(parentLayers, Sym(SchemaSym)), k))]
  }

  /** `parentSchema ? tryReach(parentSchema, String(property)) : undefined`. */
  function ChildSchema(parent: Option<Field>, k: ChildKey): SchemaRef {
    if parent.Some? && parent.value.SchemaField? && parent.value.schema != NoSchema
    then Reached(parent.value.schema, KeyText(k))
    else NoSchema
  }

  function StepFields(s: Step, childLayers: seq<Layer>, parentLayers: seq<Layer>, k: ChildKey): Layer {
    match s
    case Copy(fs) => fs
    case Derive(d) => DeriveFields(d, childLayers, parentLayers, k)
  }

  /** The rule link a feature installs (token.ts:220-253). */
  function ChildStep(f: Feature): seq<Step> {
    match f.children
    case NoChildren => []
    case SameFields => [Copy(f.extend)]
    case DeriveWith(d) => [Derive(d)]
  }

  function DisposeStep(f: Feature): seq<nat> {
    if f.dispose.Some? then [f.dispose.value] else []
  }

  /** The feature a rule link adds to a child: the fields it computes, passing the same `extendChildren` on. */
  function StepFeature(s: Step, fields: Layer): (f: Feature)
    ensures f.extend == fields && f.dispose.None?
    ensures s.Copy? && fields == s.fields ==> ChildStep(f) == [s]
    ensures s.Derive? ==> ChildStep(f) == [s]
  {
    match s
    case Copy(_) => Feature(fields, SameFields, None)
    case Derive(d) => Feature(fields, DeriveWith(d), None)
  }

  /** The layers a rule gives the child with key `k`: each link sees the layers of the links before it. */
  function DeriveLayers(rule: seq<Step>, parentLayers: seq<Layer>, k: ChildKey): (r: seq<Layer>)
    ensures |r| == |rule|
    decreases |rule|
  {
    if rule == [] then []
    else
      var prev := DeriveLayers(rule[..|rule| - 1], parentLayers, k);
      prev + [StepFields(rule[|rule| - 1], prev, parentLayers, k)]
  }

  /** The layers of the descendant reached by `ks`: every descendant carries the same rule. */
  function DescendantLayers(layers: seq<Layer>, rule: seq<Step>, ks: seq<ChildKey>): seq<Layer>
    decreases |ks|
  {
    if ks == [] then layers else DescendantLayers(DeriveLayers(rule, layers, ks[0]), rule, ks[1..])
  }

  /** Whether a rule link writes the property `key` on every child. */
  predicate LinkWrites(s: Step, key: PropertyKey) {
    match s
    case Copy(fs) => key in fs
    case Derive(StateChild) => key == Sym(GetValueSym) || key == Sym(SetValueSym) || key == Sym(SubscribeSym)
    case Derive(PathChild) => key == Sym(PathSym)
    case Derive(LookupChild(sym, _)) => key == Sym(sym)
    case Derive(SchemaChild) => key == Sym(SchemaSym)
  }

  /** The last link of the rule that writes `key`, or -1. */
  function LastWriter(rule: seq<Step>, key: PropertyKey): (i: int)
    ensures -1 <= i < |rule|
    ensures i >= 0 ==> LinkWrites(rule[i], key)
    ensures forall j :: i < j < |rule| ==> !LinkWrites(rule[j], key)
    decreases |rule|
  {
    if rule == [] then -1
    else if LinkWrites(rule[|rule| - 1], key) then |rule| - 1
    else LastWriter(rule[..|rule| - 1], key)
  }

  /** The `_children` object of a partial token. */
  class Cache {
    var children: map<ChildKey, Token>

    constructor ()
      ensures children == map[]
    {
      children := map[];
    }
  }

  /** A built token: a partial token behind its proxy. Only the child cache changes after building. */
  class Token {
    const layers: seq<Layer>
    const rule: seq<Step>
    const disposers: seq<nat>
    const cache: Cache

    /** Every cached child was derived from this token's own fields and rule. */
    ghost predicate CacheCoherent()
      reads cache
    {
      forall k :: k in cache.children ==>
        cache.children[k].layers == DeriveLayers(rule, layers, k) && cache.children[k].rule == rule
    }

    constructor (layers: seq<Layer>, rule: seq<Step>, disposers: seq<nat>, cache: Cache)
      ensures this.layers == layers && this.rule == rule && this.disposers == disposers && this.cache == cache
    {
      this.layers := layers;
      this.rule := rule;
      this.disposers := disposers;
      this.cache := cache;
    }

    /**
     * The proxy's `get` (token.ts:40-66): the target for `_target`, the
     * property itself when the target has it, and otherwise the child for
     * the normalised key, made with the rule and cached on first use.
     */
    method Get(p: PropertyKey) returns (r: Access)
      modifies cache
      ensures p == Sym(TargetSym) ==> r == TargetOf(this)
      ensures p != Sym(TargetSym) && HasProperty(layers, p) ==> r == Present(layers, p)
      ensures p == Sym(TargetSym) || HasProperty(layers, p) ==> cache.children == old(cache.children)
      ensures p != Sym(TargetSym) && !HasProperty(layers, p) ==>
        && r.ChildToken?
        && cache.children == old(cache.children)[Normalize(p) := r.child]
        && (Normalize(p) in old(cache.children) ==> r.child == old(cache.children)[Normalize(p)])
        && (Normalize(p) !in old(cache.children) ==>
              && fresh(r.child) && fresh(r.child.cache)
              && r.child.layers == DeriveLayers(rule, layers, Normalize(p))
              && r.child.rule == rule && r.child.disposers == []
              && r.child.cache.children == map[])
      ensures old(CacheCoherent()) ==> CacheCoherent()
    {
      if p == Sym(TargetSym) {
        return TargetOf(this);
      }
      if HasProperty(layers, p) {
        return Present(layers, p);
      }
      var k := Normalize(p);
      if k in cache.children {
        return ChildToken(cache.children[k]);
      }
      var b := new TokenBuilder.Root();
      ApplyRule(rule, b, layers, k);
      var child := b.Build();
      cache.children := cache.children[k := child];
      r := ChildToken(child);
    }
  }

  /** The builder of a token: the partial token being extended, and the proxy made for it, if any. */
  class TokenBuilder {
    var layers: seq<Layer>
    var rule: seq<Step>
    var disposers: seq<nat>
    const cache: Cache
    /** The proxy already made for the current partial token (`_proxy`), if any. */
    var built: Token?

    ghost predicate Valid()
      reads this
    {
      built != null ==>
        built.layers == layers && built.rule == rule && built.disposers == disposers && built.cache == cache
    }

    /** `new TokenBuilder()` (token.ts:158-176): no fields, the identity child rule, a new cache and a no-op dispose. */
    constructor Root()
      ensures Valid() && layers == [] && rule == [] && disposers == [] && built == null
      ensures fresh(cache) && cache.children == map[]
    {
      layers := [];
      rule := [];
      disposers := [];
      cache := new Cache();
      built := null;
    }

    /** `new TokenBuilder(base)`: the base's fields and child rule, but a new cache and a no-op dispose. */
    constructor FromBase(base: Token)
      ensures Valid() && layers == base.layers && rule == base.rule && disposers == [] && built == null
      ensures fresh(cache) && cache.children == map[]
    {
      layers := base.layers;
      rule := base.rule;
      disposers := [];
      cache := new Cache();
      built := null;
    }

    /**
     * `addFeature` (token.ts:199-266): a new layer with the feature's fields,
     * the feature's link after the existing child rule, and its dispose
     * callback after the existing ones.
     */
    method AddFeature(f: Feature)
      modifies this
      ensures Valid() && built == null
      ensures layers == old(layers) + [f.extend]
      ensures rule == old(rule) + ChildStep(f)
      ensures disposers == old(disposers) + DisposeStep(f)
    {
      layers := layers + [f.extend];
      rule := rule + ChildStep(f);
      disposers := disposers + DisposeStep(f);
      built := null;
    }

    /** `replaceFeature` (token.ts:178-197): the same as `addFeature` at run time. */
    method ReplaceFeature(f: Feature)
      modifies this
      ensures Valid() && built == null
      ensures layers == old(layers) + [f.extend]
      ensures rule == old(rule) + ChildStep(f)
      ensures disposers == old(disposers) + DisposeStep(f)
    {
      AddFeature(f);
    }

    /** `peek` (token.ts:281-283): the partial token's fields as they stand. */
    method Peek() returns (ls: seq<Layer>)
      ensures ls == layers
    {
      ls := layers;
    }

    /** `build` (token.ts:285-287 with `toProxy`, 75-88): one proxy per partial token, reused while no feature is added. */
    method Build() returns (t: Token)
      requires Valid()
      modifies this
      ensures Valid() && built == t
      ensures old(built) != null ==> t == old(built)
      ensures old(built) == null ==> fresh(t)
      ensures t.layers == layers && t.rule == rule && t.disposers == disposers && t.cache == cache
      ensures layers == old(layers) && rule == old(rule) && disposers == old(disposers)
    {
      if built == null {
        built := new Token(layers, rule, disposers, cache);
      }
      t := built;
    }
  }

  /**
   * The call `target[_childrenExtension](builder, target, key)` on a new
   * builder (token.ts:58-61, 221-251): the earlier links run first, then this
   * link computes its fields from the child as it stands and adds them.
   */
  method ApplyRule(steps: seq<Step>, b: TokenBuilder, parentLayers: seq<Layer>, k: ChildKey)
    requires b.Valid() && b.layers == []
    modifies b
    ensures b.Valid()
    ensures b.layers == DeriveLayers(steps, parentLayers, k)
    ensures b.rule == old(b.rule) + steps
    ensures b.disposers == old(b.disposers)
    decreases |steps|
  {
    if steps != [] {
      var init := steps[..|steps| - 1];
      var last := steps[|steps| - 1];
      ApplyRule(init, b, parentLayers, k);
      var soFar := b.Peek();
      b.AddFeature(StepFeature(last, StepFields(last, soFar, parentLayers, k)));
      assert steps == init + [last];
    }
  }

  /** The calls made to dispose callbacks of code outside the model. */
  class DisposeLog {
    var calls: seq<nat>

    constructor ()
      ensures calls == []
    {
      calls := [];
    }
  }

  /** `disposeToken` (token.ts:114-116): the chained callbacks, the earliest feature's first, on every call. */
  method DisposeToken(t: Token, log: DisposeLog)
    modifies log
    ensures log.calls == old(log.calls) + t.disposers
  {
    RunDisposers(t.disposers, log);
  }

  /** One link of the dispose chain: the previous dispose, then this feature's callback (token.ts:256-261). */
  method RunDisposers(ds: seq<nat>, log: DisposeLog)
    modifies log
    ensures log.calls == old(log.calls) + ds
    decreases |ds|
  {
    if ds != [] {
      RunDisposers(ds[..|ds| - 1], log);
      log.calls := log.calls + [ds[|ds| - 1]];
      assert ds == ds[..|ds| - 1] + [ds[|ds| - 1]];
    }
  }

  /** A new layer shadows the properties it defines and leaves every other property as it was (token.ts:214-218). */
  lemma LookupShadows(layers: seq<Layer>, l: Layer, p: PropertyKey)
    ensures Lookup(layers + [l], p) == if p in l then Some(l[p]) else Lookup(layers, p)
  {
    assert (layers + [l])[..|layers|] == layers;
  }

  /** The layers the first `j` links give a child are the first `j` layers of the whole rule's. */
  lemma {:induction false} DeriveLayersPrefix(rule: seq<Step>, pl: seq<Layer>, k: ChildKey, j: nat)
    requires j <= |rule|
    ensures DeriveLayers(rule, pl, k)[..j] == DeriveLayers(rule[..j], pl, k)
    decreases |rule|
  {
    if j == |rule| {
      assert rule[..j] == rule;
    } else {
      var init := rule[..|rule| - 1];
      DeriveLayersPrefix(init, pl, k, j);
      assert init[..j] == rule[..j];
    }
  }

  /**
   * Link `j` of a rule computes its fields from the child carrying exactly
   * the layers of the links before it: a later feature sees the fields of
   * the earlier ones on the child.
   */
  lemma LinkSeesEarlierLinks(rule: seq<Step>, pl: seq<Layer>, k: ChildKey, j: nat)
    requires j < |rule|
    ensures DeriveLayers(rule, pl, k)[j] == StepFields(rule[j], DeriveLayers(rule, pl, k)[..j], pl, k)
  {
    DeriveLayersPrefix(rule, pl, k, j + 1);
    DeriveLayersPrefix(rule, pl, k, j);
    assert rule[..j + 1][..j] == rule[..j];
    assert rule[..j + 1][j] == rule[j];
    assert DeriveLayers(rule, pl, k)[..j + 1][j] == DeriveLayers(rule, pl, k)[j];
  }

  /** A link installed with `extendChildren: true` gives every child exactly the feature's own fields. */
  lemma CopyLinkInstalled(rule: seq<Step>, pl: seq<Layer>, k: ChildKey, i: nat)
    requires i < |rule| && rule[i].Copy?
    ensures DeriveLayers(rule, pl, k)[i] == rule[i].fields
  {
    LinkSeesEarlierLinks(rule, pl, k, i);
  }

  /** ... and so does every descendant, at every depth (token.spec.ts:25-28). */
  lemma {:induction false} CopyAtEveryDepth(layers: seq<Layer>, rule: seq<Step>, ks: seq<ChildKey>, i: nat)
    requires ks != [] && i < |rule| && rule[i].Copy?
    ensures |DescendantLayers(layers, rule, ks)| == |rule|
    ensures DescendantLayers(layers, rule, ks)[i] == rule[i].fields
    decreases |ks|
  {
    var child := DeriveLayers(rule, layers, ks[0]);
    if ks[1..] == [] {
      CopyLinkInstalled(rule, layers, ks[0], i);
    } else {
      CopyAtEveryDepth(child, rule, ks[1..], i);
    }
  }

  /** Decimal digit strings are neither internal slots nor `Object.prototype` names, so `Reflect.has` only finds them in layers. */
  lemma DigitsNotPrototypeNames(s: string)
    requires AllDigits(s)
    ensures s !in ObjectPrototypeNames
  {
    assert !IsDigit(s[0]) ==> s !in ObjectPrototypeNames;
    assert forall name :: name in ObjectPrototypeNames ==> !IsDigit(name[0]);
  }

  /** Reading the same property twice gives the same result; a child is made at most once (token.ts:55-65). */
  method GetTwice(t: Token, p: PropertyKey) returns (first: Access, second: Access)
    modifies t.cache
    ensures first == second
    ensures p != Sym(TargetSym) && !HasProperty(t.layers, p) ==>
      first.ChildToken? && Normalize(p) in t.cache.children && t.cache.children[Normalize(p)] == first.child
  {
    first := t.Get(p);
    second := t.Get(p);
  }

  /** `t["3"]`, `t[3]` (which reaches the proxy as "3") and `t["03"]` give one and the same child. */
  method SpellingsShareChild(t: Token, n: nat) returns (plain: Access, padded: Access)
    requires Lookup(t.layers, Name(Decimal(n))).None? && Lookup(t.layers, Name("0" + Decimal(n))).None?
    modifies t.cache
    ensures plain.ChildToken? && plain == padded
    ensures Index(n) in t.cache.children && t.cache.children[Index(n)] == plain.child
  {
    LeadingZerosShareChild(n);
    DigitsNotPrototypeNames(Decimal(n));
    LeadingZeroIgnored(Decimal(n));
    DigitsNotPrototypeNames("0" + Decimal(n));
    plain := t.Get(Name(Decimal(n)));
    padded := t.Get(Name("0" + Decimal(n)));
  }

  /** A link's layer has exactly the properties the link writes. */
  lemma StepFieldsKeys(s: Step, cl: seq<Layer>, pl: seq<Layer>, k: ChildKey, key: PropertyKey)
    ensures key in StepFields(s, cl, pl, k) <==> LinkWrites(s, key)
  {
  }

  /**
   * On a derived child, a property is found in the layer of the last link
   * that writes it, and is absent when no link writes it.
   */
  lemma {:induction false} LookupDerived(rule: seq<Step>, pl: seq<Layer>, k: ChildKey, key: PropertyKey)
    ensures var i := LastWriter(rule, key); i >= 0 ==> key in DeriveLayers(rule, pl, k)[i]
    ensures var i := LastWriter(rule, key); var ls := DeriveLayers(rule, pl, k);
      Lookup(ls, key) == if i < 0 then None else Some(ls[i][key])
    decreases |rule|
  {
    var i := LastWriter(rule, key);
    if i >= 0 {
      LinkSeesEarlierLinks(rule, pl, k, i);
      StepFieldsKeys(rule[i], DeriveLayers(rule, pl, k)[..i], pl, k, key);
    }
    if rule != [] {
      var init := rule[..|rule| - 1];
      var prev := DeriveLayers(init, pl, k);
      var last := StepFields(rule[|rule| - 1], prev, pl, k);
      LookupShadows(prev, last, key);
      StepFieldsKeys(rule[|rule| - 1], prev, pl, k, key);
      if !LinkWrites(rule[|rule| - 1], key) {
        LookupDerived(init, pl, k, key);
        var i := LastWriter(init, key);
        if i >= 0 {
          assert (prev + [last])[i] == prev[i];
        }
      }
    }
  }

  /** Going one key further down from a descendant is deriving the child of that descendant. */
  lemma {:induction false} DescendantSnoc(layers: seq<Layer>, rule: seq<Step>, ks: seq<ChildKey>, k: ChildKey)
    ensures DescendantLayers(layers, rule, ks + [k]) == DeriveLayers(rule, DescendantLayers(layers, rule, ks), k)
    decreases |ks|
  {
    if ks == [] {
      assert [k][1..] == [];
    } else {
      assert (ks + [k])[1..] == ks[1..] + [k];
      DescendantSnoc(DeriveLayers(rule, layers, ks[0]), rule, ks[1..], k);
    }
  }

  /** The last writer of a key before position `i` is the rule's last writer when that comes before `i`. */
  lemma LastWriterPrefix(rule: seq<Step>, key: PropertyKey, i: nat)
    requires LastWriter(rule, key) < i <= |rule|
    ensures LastWriter(rule[..i], key) == LastWriter(rule, key)
  {
    var j := LastWriter(rule, key);
    if j >= 0 {
      assert LinkWrites(rule[..i][j], key);
    }
  }

  /** Appending a link: it is the last writer of the keys it writes, and leaves the last writer of the others as it was. */
  lemma LastWriterSnoc(rule: seq<Step>, s: Step, key: PropertyKey)
    ensures LastWriter(rule + [s], key) == if LinkWrites(s, key) then |rule| else LastWriter(rule, key)
  {
    assert (rule + [s])[..|rule|] == rule;
  }

  /**
   * A field the token holds and the last link writing it copies unchanged is
   * the same field on every descendant.
   */
  lemma {:induction false} CopiedFieldEverywhere(layers: seq<Layer>, rule: seq<Step>, key: PropertyKey, f: Field, ks: seq<ChildKey>)
    requires Lookup(layers, key) == Some(f)
    requires LastWriter(rule, key) >= 0 && rule[LastWriter(rule, key)].Copy?
    requires rule[LastWriter(rule, key)].fields[key] == f
    ensures Lookup(DescendantLayers(layers, rule, ks), key) == Some(f)
    decreases |ks|
  {
    if ks != [] {
      var i := LastWriter(rule, key);
      LookupDerived(rule, layers, ks[0], key);
      CopyLinkInstalled(rule, layers, ks[0], i);
      CopiedFieldEverywhere(DeriveLayers(rule, layers, ks[0]), rule, key, f, ks[1..]);
    }
  }
}


=== FILE: touched.dfy ===
/**
 * The touched feature (src/form/touched.ts): every token reads and writes the
 * entry of a flat touched-fields map keyed by its full path.
 */
module Touched {
  import opened Keys
  import opened JsValues
  import opened Paths
  import opened State
  import opened Tokens
  import opened StateFeature
  import opened PathFeature

  /**
   * `addTouched({ touchedFieldsToken })` applied to a builder (touched.ts:24-39):
   * the root entry is keyed by the path of the builder as it stood before
   * this feature (`builder.peek()`), each descendant's by its own path.
   */
  method AddTouched(b: TokenBuilder, touchedFieldsToken: Token)
    requires b.Valid()
    modifies b
    ensures b.Valid() && b.disposers == old(b.disposers)
    ensures b.layers == old(b.layers) + [PathKeyedLayer(TouchedTokenSym, touchedFieldsToken, old(b.layers))]
    ensures b.rule == old(b.rule) + [Derive(LookupChild(TouchedTokenSym, touchedFieldsToken))]
    ensures Lookup(b.layers, Sym(TouchedTokenSym)) == Some(LookupField(touchedFieldsToken, PathKey(old(b.layers))))
    ensures PathLinked(old(b.rule)) && PathValue(old(b.layers)).Some? ==>
      forall ks :: Lookup(DescendantLayers(b.layers, b.rule, ks), Sym(TouchedTokenSym))
        == Some(LookupField(touchedFieldsToken, Name(DescendantPath(PathValue(old(b.layers)).value, ks))))
  {
    ghost var layers, rule := b.layers, b.rule;
    AddPathKeyed(b, TouchedTokenSym, touchedFieldsToken);
    if PathLinked(rule) && PathValue(layers).Some? {
      forall ks
        ensures Lookup(DescendantLayers(b.layers, b.rule, ks), Sym(TouchedTokenSym))
          == Some(LookupField(touchedFieldsToken, Name(DescendantPath(PathValue(layers).value, ks))))
      {
        PathKeyedDescendants(layers, rule, TouchedTokenSym, touchedFieldsToken, PathValue(layers).value, ks);
      }
    }
  }

  /** `getTokenTouched(token)` (touched.ts:41-45): the map's entry at the token's path, undefined when absent. */
  method GetTokenTouched(t: Token, touchedFieldsToken: Token, st: Store, path: string) returns (r: Outcome)
    requires Lookup(t.layers, Sym(TouchedTokenSym)) == Some(LookupField(touchedFieldsToken, Name(path)))
    requires Lookup(touchedFieldsToken.layers, Name(path)).None? && StateOwner(touchedFieldsToken, st)
    modifies t.cache, touchedFieldsToken.cache, st
    ensures StateOwner(touchedFieldsToken, st)
    ensures st.Current() == old(st.Current()) && st.subscriptions == old(st.subscriptions)
    ensures path in ObjectPrototypeNames ==> r == TypeError
    ensures path !in ObjectPrototypeNames ==> r == Returned(Get(old(st.Current()), AsPropertyKey(Normalize(Name(path)))))
    ensures path !in ObjectPrototypeNames && !AllDigits(path) ==> r == Returned(Get(old(st.Current()), Name(path)))
  {
    var f := ReadPathKeyed(t, TouchedTokenSym);
    if !AllDigits(path) {
      NormalizeKeepsOthers(Name(path));
    }
    r := GetChildValue(f.owner, st, f.key);
  }

  /**
   * `setTokenTouched(token, touched)` (touched.ts:47-52): the map is replaced
   * by a copy whose entry at the token's path is `touched` and whose every
   * other entry is unchanged.
   */
  method SetTokenTouched(t: Token, touchedFieldsToken: Token, st: Store, path: string, touched: bool, ids: Ids, log: Log)
    returns (thrown: bool)
    requires Lookup(t.layers, Sym(TouchedTokenSym)) == Some(LookupField(touchedFieldsToken, Name(path)))
    requires Lookup(touchedFieldsToken.layers, Name(path)).None? && StateOwner(touchedFieldsToken, st)
    modifies t.cache, touchedFieldsToken.cache, st, ids, log, st.Cells()
    ensures StateOwner(touchedFieldsToken, st) && st.subscriptions == old(st.subscriptions)
    ensures thrown <==> path in ObjectPrototypeNames
    ensures thrown ==> st.Current() == old(st.Current())
    ensures !thrown ==> st.Current() == CopyWith(old(st.Current()), Normalize(Name(path)), Bool(touched), old(ids.next))
    ensures !thrown && !AllDigits(path) ==> Get(st.Current(), Name(path)) == Bool(touched)
    ensures !thrown ==> forall p :: p != AsPropertyKey(Normalize(Name(path))) ==> Get(st.Current(), p) == Get(old(st.Current()), p)
    ensures !thrown ==> log.calls == old(log.calls) + old(EmittedAll(st.subscriptions,
      CopyWith(st.Current(), Normalize(Name(path)), Bool(touched), ids.next)))
  {
    CellsAllocated(st.subscriptions);
    var f := ReadPathKeyed(t, TouchedTokenSym);
    if !AllDigits(path) {
      NormalizeKeepsOthers(Name(path));
    }
    thrown := SetChildValue(f.owner, st, f.key, Bool(touched), ids, log);
  }

  /** What the hook reports for an entry: `Boolean(entry)`, so an absent entry is `false` (touched.ts:60). */
  function ReportedTouched(entry: Value): (r: bool)
    ensures entry.Undefined? || entry.Null? ==> !r
    ensures entry.Bool? ==> r == entry.b
  {
    Truthy(entry)
  }

  /**
   * The touched test's expectations, for a token whose paths start at "" (it
   * carries `addPath()`, as the `Path` input of `addTouched`'s type asks):
   * from an empty map, marking the token at `name` touched
   * makes its entry `true` and leaves the entries of the root, `children`,
   * `children.0` and `children.0.name` absent, so they report `false`.
   */
  lemma MarkNameTouched(id0: nat, id: nat)
    ensures var m := CopyWith(FlatObject(map[], id0), Normalize(Name(DescendantPath("", [Named("name")]))), Bool(true), id);
      && ReportedTouched(Get(m, Name(DescendantPath("", [Named("name")]))))
      && !ReportedTouched(Get(m, Name(DescendantPath("", []))))
      && !ReportedTouched(Get(m, Name(DescendantPath("", [Named("children")]))))
      && !ReportedTouched(Get(m, Name(DescendantPath("", [Named("children"), Index(0)]))))
      && !ReportedTouched(Get(m, Name(DescendantPath("", [Named("children"), Index(0), Named("name")]))))
  {
    ChildrenZeroName();
    assert DescendantPath("", [Named("name")]) == "name" by {
      assert [Named("name")][..0] == [];
    }
    assert !AllDigits("name") by {
      assert !IsDigit("name"[0]);
    }
  }

  /**
   * The touched test with its token as built there: `useStateToken` adds no
   * path, so the root, `name`, `children`, `children.0` and `children.0.name`
   * all hold `touchedFieldsToken["undefined"]`; after marking `name` touched,
   * that one shared entry is `true` and all five report touched.
   */
  lemma MarkNameTouchedPathless(layers: seq<Layer>, rule: seq<Step>, owner: Token, id0: nat, id: nat, ks: seq<ChildKey>)
    requires PathValue(layers).None? && LastWriter(rule, Sym(PathSym)) < 0
    ensures Lookup(DescendantLayers(layers + [PathKeyedLayer(TouchedTokenSym, owner, layers)],
      rule + [Derive(LookupChild(TouchedTokenSym, owner))], ks), Sym(TouchedTokenSym))
      == Some(LookupField(owner, Name("undefined")))
    ensures var m := CopyWith(FlatObject(map[], id0), Normalize(Name("undefined")), Bool(true), id);
      ReportedTouched(Get(m, Name("undefined")))
  {
    PathlessKeyedDescendants(layers, rule, TouchedTokenSym, owner, ks);
    assert !AllDigits("undefined") by {
      assert !IsDigit("undefined"[0]);
    }
    NormalizeKeepsOthers(Name("undefined"));
  }
}

=== FILE: validation.dfy ===
/**
 * The validation feature (src/form/validation.ts). Its closure holds a
 * version counter and a debounced run; the status and the errors live in two
 * state tokens of their own. Timers and promises are replaced by events: a
 * `Change` of the validated value, the debounce timer `Fire`-ing the one
 * pending run, and a fired run's validator promise `Resolve`-ing.
 */
module Validation {
  import opened Keys
  import opened JsValues
  import opened Paths
  import opened State
  import opened Tokens
  import opened StateFeature
  import opened PathFeature
  import opened ErrorFeature

  /** `debounceMs = 200` (validation.ts:52). */
  const DefaultDebounceMs: nat := 200

  /** The four `ValidationStatus` strings. */
  const PendingStatus: Value := Text("pending")
  const ValidatingStatus: Value := Text("validating")
  const InvalidStatus: Value := Text("invalid")
  const ValidStatus: Value := Text("valid")

  /** The arguments of one call of the debounced function: the value to validate and the version it belongs to. */
  datatype Run = Run(value: Value, version: nat)

  datatype Event =
    /** The validated token's value changed to `v` (the subscription callback, validation.ts:87-91). */
    | Change(v: Value)
    /** The debounce timer ran the pending call (validation.ts:66-68, up to the `await`). */
    | Fire
    /** The validator promise of the fired run at index `run` resolved with `result` (validation.ts:68-80). */
    | Resolve(run: nat, result: Value)

  /** What the closure and the two state tokens hold. `inFlight` lists the fired runs whose validator has not resolved. */
  datatype ValidationState = ValidationState(version: nat, status: Value, errors: Value, pending: Option<Run>, inFlight: seq<Run>)

  /** `Object.keys(errors).length === 0 ? 'valid' : 'invalid'` */
  function Verdict(result: Value): (s: Value)
    ensures s == ValidStatus <==> StringKeys(result) == {}
    ensures s == InvalidStatus <==> StringKeys(result) != {}
  {
    if StringKeys(result) == {} then ValidStatus else InvalidStatus
  }

  /** The effect of one event. */
  function Next(m: ValidationState, e: Event): ValidationState {
    match e
    case Change(v) =>
      m.(status := PendingStatus, version := m.version + 1, pending := Some(Run(v, m.version + 1)))
    case Fire =>
      if m.pending.None? then m
      else m.(status := ValidatingStatus, pending := None, inFlight := m.inFlight + [m.pending.value])
    case Resolve(i, result) =>
      if i >= |m.inFlight| then m
      else
        var rest := m.inFlight[..i] + m.inFlight[i + 1..];
        if m.inFlight[i].version != m.version then m.(inFlight := rest)
        else m.(errors := result, status := Verdict(result), inFlight := rest)
  }

  /** The effect of a sequence of events, in order. */
  function Replay(m: ValidationState, es: seq<Event>): ValidationState
    decreases |es|
  {
    if es == [] then m else Next(Replay(m, es[..|es| - 1]), es[|es| - 1])
  }

  function IsStatus(v: Value): bool {
    v == PendingStatus || v == ValidatingStatus || v == InvalidStatus || v == ValidStatus
  }

  /**
   * The invariant of the closure: the status is one of the four strings, the
   * pending run carries the current version, and no fired run carries a
   * version newer than the current one.
   */
  predicate Consistent(m: ValidationState) {
    && IsStatus(m.status)
    && (m.pending.Some? ==> m.pending.value.version == m.version)
    && (forall j :: 0 <= j < |m.inFlight| ==> m.inFlight[j].version <= m.version)
  }

  /** The number of `Change` events in `es`. */
  function Changes(es: seq<Event>): nat
    decreases |es|
  {
    if es == [] then 0 else Changes(es[..|es| - 1]) + (if es[|es| - 1].Change? then 1 else 0)
  }

  /** The events of a burst of changes to the values `vs`. */
  function Burst(vs: seq<Value>): (es: seq<Event>)
    ensures |es| == |vs| && forall i :: 0 <= i < |vs| ==> es[i] == Change(vs[i])
    decreases |vs|
  {
    if vs == [] then [] else Burst(vs[..|vs| - 1]) + [Change(vs[|vs| - 1])]
  }

  /** Each event keeps the invariant. */
  lemma NextConsistent(m: ValidationState, e: Event)
    requires Consistent(m)
    ensures Consistent(Next(m, e))
  {
    if e.Resolve? && e.run < |m.inFlight| {
      var rest := m.inFlight[..e.run] + m.inFlight[e.run + 1..];
      forall j | 0 <= j < |rest|
        ensures rest[j].version <= m.version
      {
        if j < e.run {
          assert rest[j] == m.inFlight[j];
        } else {
          assert rest[j] == m.inFlight[j + 1];
        }
      }
    }
  }

  /** ... and so does every sequence of events. */
  lemma {:induction false} ReplayConsistent(m: ValidationState, es: seq<Event>)
    requires Consistent(m)
    ensures Consistent(Replay(m, es))
    decreases |es|
  {
    if es != [] {
      ReplayConsistent(m, es[..|es| - 1]);
      NextConsistent(Replay(m, es[..|es| - 1]), es[|es| - 1]);
    }
  }

  /** The version grows by exactly one per change and never otherwise (validation.ts:89). */
  lemma {:induction false} VersionCountsChanges(m: ValidationState, es: seq<Event>)
    ensures Replay(m, es).version == m.version + Changes(es)
    decreases |es|
  {
    if es != [] {
      VersionCountsChanges(m, es[..|es| - 1]);
    }
  }

  /** After a burst of changes the pending slot holds only the last value, with the last version. */
  lemma {:induction false} BurstKeepsLast(m: ValidationState, vs: seq<Value>)
    requires vs != []
    ensures var r := Replay(m, Burst(vs));
      && r.version == m.version + |vs|
      && r.pending == Some(Run(vs[|vs| - 1], m.version + |vs|))
      && r.status == PendingStatus
      && r.errors == m.errors && r.inFlight == m.inFlight
    decreases |vs|
  {
    var init := vs[..|vs| - 1];
    assert Burst(vs)[..|vs| - 1] == Burst(init);
    if init != [] {
      BurstKeepsLast(m, init);
    }
  }

  /**
   * Scheduling replaces the run not yet started (utils/debounce.ts:4-5): after
   * a burst of changes and the timer firing, exactly one run has started, the
   * one with the last value and version.
   */
  lemma OnlyLastRunFires(m: ValidationState, vs: seq<Value>)
    requires vs != []
    ensures var r := Replay(m, Burst(vs) + [Fire]);
      && r.inFlight == m.inFlight + [Run(vs[|vs| - 1], m.version + |vs|)]
      && r.pending.None? && r.status == ValidatingStatus && r.version == m.version + |vs|
  {
    BurstKeepsLast(m, vs);
    assert (Burst(vs) + [Fire])[..|vs|] == Burst(vs);
  }

  /** A run whose version is no longer current changes neither the errors nor the status (validation.ts:70). */
  lemma StaleResultIgnored(m: ValidationState, i: nat, result: Value)
    requires i < |m.inFlight| && m.inFlight[i].version != m.version
    ensures Next(m, Resolve(i, result)).errors == m.errors
    ensures Next(m, Resolve(i, result)).status == m.status
    ensures Next(m, Resolve(i, result)).version == m.version
  {
  }

  /**
   * A run that was in flight when a change came is stale from then on: the
   * version only grows, so no later event sequence makes it current again.
   */
  lemma {:induction false} ChangedRunStaysStale(m: ValidationState, v: Value, es: seq<Event>, j: nat)
    requires Consistent(m) && j < |m.inFlight|
    ensures m.inFlight[j].version < Replay(m, [Change(v)] + es).version
  {
    VersionCountsChanges(m, [Change(v)] + es);
    ChangesPrefix([Change(v)], es);
    assert Changes([Change(v)]) == 1 by {
      assert [Change(v)][..0] == [];
    }
  }

  lemma {:induction false} ChangesPrefix(a: seq<Event>, b: seq<Event>)
    ensures Changes(a + b) == Changes(a) + Changes(b)
    decreases |b|
  {
    if b == [] {
      assert a + b == a;
    } else {
      var init := b[..|b| - 1];
      assert (a + b)[..|a + b| - 1] == a + init;
      ChangesPrefix(a, init);
    }
  }

  /** A current result replaces the errors; the status is `valid` exactly when it has no keys (validation.ts:76-80). */
  lemma CurrentResultCommits(m: ValidationState, i: nat, result: Value)
    requires i < |m.inFlight| && m.inFlight[i].version == m.version
    ensures Next(m, Resolve(i, result)).errors == result
    ensures Next(m, Resolve(i, result)).status == ValidStatus <==> StringKeys(result) == {}
    ensures Next(m, Resolve(i, result)).status == InvalidStatus <==> StringKeys(result) != {}
  {
  }

  /**
   * The scenario of the validation tests: attached with errors `{}` and a
   * run pending, the timer fires, and the validator resolves with
   * `{ name: 'Name is required' }` or with `{}`.
   */
  lemma AttachFireResolve(value: Value, empty: nat, id: nat)
    ensures var m := ValidationState(0, PendingStatus, FlatObject(map[], empty), Some(Run(value, 0)), []);
      var bad := FlatObject(map["name" := Text("Name is required")], id);
      && Replay(m, [Fire, Resolve(0, bad)]).status == InvalidStatus
      && Get(Replay(m, [Fire, Resolve(0, bad)]).errors, Name("name")) == Text("Name is required")
      && Replay(m, [Fire, Resolve(0, FlatObject(map[], id))]).status == ValidStatus
  {
    var m := ValidationState(0, PendingStatus, FlatObject(map[], empty), Some(Run(value, 0)), []);
    var bad := FlatObject(map["name" := Text("Name is required")], id);
    FlatObjectKeys(map["name" := Text("Name is required")], id);
    FlatObjectKeys(map[], id);
    assert "name" in StringKeys(bad);
    var fired := Next(m, Fire);
    assert fired.inFlight == [Run(value, 0)] && fired.version == 0;
    ReplayPair(m, Fire, Resolve(0, bad));
    ReplayPair(m, Fire, Resolve(0, FlatObject(map[], id)));
  }

  /** Replaying two events is taking one step, then the other. */
  lemma ReplayPair(m: ValidationState, e1: Event, e2: Event)
    ensures Replay(m, [e1, e2]) == Next(Next(m, e1), e2)
  {
    assert [e1, e2][..1] == [e1];
    assert [e1][..0] == [];
    assert Replay(m, [e1]) == Next(Replay(m, []), e1);
  }

  /**
   * The commit of a current result (validation.ts:76) with the root setter as
   * written (state.ts:85-90): nothing reads the lazy errors token before the
   * commit, so it stays uninitialised, and the next read, `getTokenError`'s,
   * runs the initializer and sees `{}` instead of the result.
   */
  method ErrorsLostAsWritten(empty: nat, result: Value) returns (read: Value)
    ensures read == FlatObject(map[], empty)
  {
    var errors := new Store(Lazy(FlatObject(map[], empty)));
    var log := new Log();
    errors.SetAsWritten(result, log);
    read := errors.Get();
  }

  /** The closure of one `addValidation` call and its two state tokens' stores. */
  class Validator {
    const errors: Store
    const status: Store
    /** The debounce delay; the timer itself is the `Fire` event. */
    const debounceMs: nat
    /** `lastValidationVersion` */
    var version: nat
    /** The call the debounced function holds back, if any. */
    var pending: Option<Run>
    var inFlight: seq<Run>

    ghost predicate Valid()
      reads this, errors, status
    {
      errors != status && errors.Valid() && status.Valid() && errors.Cells() !! status.Cells()
    }

    function Observed(): ValidationState
      reads this, errors, status
    {
      ValidationState(version, status.Current(), errors.Current(), pending, inFlight)
    }

    constructor (errors: Store, status: Store, debounceMs: nat)
      requires errors != status && errors.Valid() && status.Valid() && errors.Cells() !! status.Cells()
      ensures Valid() && this.errors == errors && this.status == status && this.debounceMs == debounceMs
      ensures version == 0 && pending.None? && inFlight == []
    {
      this.errors := errors;
      this.status := status;
      this.debounceMs := debounceMs;
      version := 0;
      pending := None;
      inFlight := [];
    }

    /** A call of the debounced function: it replaces the call waiting for the timer (utils/debounce.ts:3-6). */
    method Schedule(r: Run)
      modifies this
      ensures pending == Some(r)
      ensures version == old(version) && inFlight == old(inFlight)
    {
      pending := Some(r);
    }

    /** The subscription callback (validation.ts:87-91): status `pending`, a new version, and a run scheduled for it. */
    method OnChange(v: Value, log: Log)
      requires Valid()
      modifies this, status, log, status.Cells()
      ensures Valid() && Observed() == Next(old(Observed()), Change(v))
      ensures status.subscriptions == old(status.subscriptions)
      ensures log.calls == old(log.calls) + old(EmittedAll(status.subscriptions, PendingStatus))
      ensures old(TracksAll(status.subscriptions, status.Current())) ==> TracksAll(status.subscriptions, status.Current())
    {
      StatusKeepsIdentities(status.Current(), PendingStatus, status.subscriptions);
      status.Set(PendingStatus, log);
      CellsAllocated(status.subscriptions);
      version := version + 1;
      Schedule(Run(v, version));
    }

    /** The timer runs the pending call (validation.ts:66-68): status `validating`, and the validator is called. */
    method OnFire(log: Log)
      requires Valid()
      modifies this, status, log, status.Cells()
      ensures Valid() && Observed() == Next(old(Observed()), Fire)
      ensures status.subscriptions == old(status.subscriptions)
      ensures old(pending).Some? ==> log.calls == old(log.calls) + old(EmittedAll(status.subscriptions, ValidatingStatus))
      ensures old(pending).None? ==> log.calls == old(log.calls)
      ensures old(TracksAll(status.subscriptions, status.Current())) ==> TracksAll(status.subscriptions, status.Current())
    {
      if pending.Some? {
        var r := pending.value;
        pending := None;
        StatusKeepsIdentities(status.Current(), ValidatingStatus, status.subscriptions);
        status.Set(ValidatingStatus, log);
        inFlight := inFlight + [r];
      }
    }

    /**
     * The validator promise of fired run `i` resolved (validation.ts:68-80): a
     * stale run returns; a current one sets the errors, then the status.
     */
    method OnResolve(i: nat, result: Value, log: Log)
      requires Valid() && i < |inFlight|
      modifies this, errors, status, log, errors.Cells(), status.Cells()
      ensures Valid() && Observed() == Next(old(Observed()), Resolve(i, result))
      ensures errors.subscriptions == old(errors.subscriptions) && status.subscriptions == old(status.subscriptions)
      ensures old(inFlight[i].version != version) ==> log.calls == old(log.calls)
      ensures old(inFlight[i].version == version) ==>
        log.calls == old(log.calls) + old(EmittedAll(errors.subscriptions, result)) + old(EmittedAll(status.subscriptions, Verdict(result)))
      ensures old(TracksAll(status.subscriptions, status.Current())) ==> TracksAll(status.subscriptions, status.Current())
      ensures old(TracksAll(errors.subscriptions, errors.Current())) ==>
        (forall l <- errors.subscriptions :: SameWhenIdentical(old(errors.Current()), result, ForwardKeys(l))) ==>
        TracksAll(errors.subscriptions, errors.Current())
    {
      var r := inFlight[i];
      inFlight := inFlight[..i] + inFlight[i + 1..];
      if version != r.version {
        return;
      }
      Commit(result, log);
    }

    /**
     * A current run's result is committed (validation.ts:75-79): the errors are
     * set, then the status to the verdict, each store notifying its listeners.
     */
    method Commit(result: Value, log: Log)
      requires Valid()
      modifies errors, status, log, errors.Cells(), status.Cells()
      ensures Valid() && errors.Current() == result && status.Current() == Verdict(result)
      ensures errors.subscriptions == old(errors.subscriptions) && status.subscriptions == old(status.subscriptions)
      ensures log.calls == old(log.calls) + old(EmittedAll(errors.subscriptions, result)) + old(EmittedAll(status.subscriptions, Verdict(result)))
      ensures old(TracksAll(status.subscriptions, status.Current())) ==> TracksAll(status.subscriptions, status.Current())
      ensures old(TracksAll(errors.subscriptions, errors.Current())) ==>
        (forall l <- errors.subscriptions :: SameWhenIdentical(old(errors.Current()), result, ForwardKeys(l))) ==>
        TracksAll(errors.subscriptions, errors.Current())
    {
      CellsAllocated(status.subscriptions);
      ghost var toStatus := EmittedAll(status.subscriptions, Verdict(result));
      StatusKeepsIdentities(status.Current(), Verdict(result), status.subscriptions);
      errors.Set(result, log);
      assert EmittedAll(status.subscriptions, Verdict(result)) == toStatus;
      CellsAllocated(errors.subscriptions);
      ghost var errorsTracked := TracksAll(errors.subscriptions, errors.Current());
      status.Set(Verdict(result), log);
      assert errorsTracked ==> TracksAll(errors.subscriptions, errors.Current());
    }
  }

  /** A status is a string: writing it keeps the identities along every listener's keys. */
  lemma StatusKeepsIdentities(prev: Value, s: Value, ls: seq<Listener>)
    requires s.Text?
    ensures forall l <- ls :: SameWhenIdentical(prev, s, ForwardKeys(l))
  {
    forall l <- ls
      ensures SameWhenIdentical(prev, s, ForwardKeys(l))
    {
      PrimitiveKeepsIdentities(prev, s, ForwardKeys(l));
    }
  }

  /** The status layer: `{ [_validationStatusToken]: validationStatusToken }` (validation.ts:101-106). */
  function StatusLayer(statusToken: Token): Layer {
    map[Sym(ValidationStatusTokenSym) := TokenField(statusToken)]
  }

  /** `createToken(addState(initializer))`: a root builder, the state feature, and its token. */
  method CreateStateToken(init: Initializer) returns (t: Token, st: Store)
    ensures fresh(t) && fresh(t.cache) && fresh(st)
    ensures st.Valid() && st.initializer == init && st.initialized == init.Eager?
    ensures st.subscriptions == [] && st.Current() == init.result
    ensures t.layers == [RootLayer(st)] && t.rule == [Derive(StateChild)] && t.disposers == []
    ensures t.cache.children == map[] && StateOwner(t, st)
  {
    var b := new TokenBuilder.Root();
    st := AddState(b, init);
    t := b.Build();
    assert t.cache.children == map[];
    assert t.CacheCoherent();
  }

  /**
   * The three extensions at the end of `addValidation` (validation.ts:93-106):
   * the path feature from "", the error feature over the errors token, and
   * the status token copied onto every descendant (`extendChildren: true`).
   */
  method ExtendValidated(b: TokenBuilder, errorsToken: Token, statusToken: Token)
    requires b.Valid()
    modifies b
    ensures b.Valid() && b.disposers == old(b.disposers)
    ensures b.layers == old(b.layers) + [map[Sym(PathSym) := PathField("")],
      PathKeyedLayer(ErrorTokenSym, errorsToken, old(b.layers) + [map[Sym(PathSym) := PathField("")]]),
      StatusLayer(statusToken)]
    ensures b.rule == old(b.rule) + [Derive(PathChild), Derive(LookupChild(ErrorTokenSym, errorsToken)), Copy(StatusLayer(statusToken))]
    ensures forall ks :: Lookup(DescendantLayers(b.layers, b.rule, ks), Sym(ValidationStatusTokenSym)) == Some(TokenField(statusToken))
    ensures forall ks ::
      Lookup(DescendantLayers(b.layers, b.rule, ks), Sym(ErrorTokenSym)) == Some(LookupField(errorsToken, Name(DescendantPath("", ks))))
  {
    AddPath(b, "");
    AddError(b, errorsToken);
    ghost var l2, r2 := b.layers, b.rule;
    b.AddFeature(Feature(StatusLayer(statusToken), SameFields, None));
    LookupShadows(l2, StatusLayer(statusToken), Sym(ValidationStatusTokenSym));
    LastWriterSnoc(r2, Copy(StatusLayer(statusToken)), Sym(ValidationStatusTokenSym));
    forall ks
      ensures Lookup(DescendantLayers(b.layers, b.rule, ks), Sym(ValidationStatusTokenSym)) == Some(TokenField(statusToken))
    {
      CopiedFieldEverywhere(b.layers, b.rule, Sym(ValidationStatusTokenSym), TokenField(statusToken), ks);
    }
    LookupShadows(l2, StatusLayer(statusToken), Sym(ErrorTokenSym));
    LookupShadows(l2, StatusLayer(statusToken), Sym(PathSym));
    LastWriterSnoc(r2, Copy(StatusLayer(statusToken)), Sym(ErrorTokenSym));
    LastWriterSnoc(r2, Copy(StatusLayer(statusToken)), Sym(PathSym));
    forall ks
      ensures Lookup(DescendantLayers(b.layers, b.rule, ks), Sym(ErrorTokenSym))
        == Some(LookupField(errorsToken, Name(DescendantPath("", ks))))
    {
      if ks != [] {
        DescendantLookup(b.layers, b.rule, "", ks, ErrorTokenSym, errorsToken);
      }
    }
  }

  /**
   * The closure `addValidation` sets up before subscribing (validation.ts:55-63):
   * an errors token holding `{}`, a status token holding 'pending', both
   * initialised on first read, and version 0.
   */
  method NewValidator(debounceMs: nat, ids: Ids) returns (v: Validator, errorsToken: Token, statusToken: Token)
    modifies ids
    ensures fresh(v) && fresh(v.errors) && fresh(v.status) && fresh(errorsToken.cache)
    ensures v.Valid() && v.debounceMs == debounceMs
    ensures v.version == 0 && v.pending.None? && v.inFlight == []
    ensures v.errors.Current() == FlatObject(map[], old(ids.next)) && StringKeys(v.errors.Current()) == {}
    ensures v.status.Current() == PendingStatus
    ensures v.errors.initializer == Lazy(FlatObject(map[], old(ids.next))) && !v.errors.initialized
    ensures v.status.initializer == Lazy(PendingStatus) && !v.status.initialized
    ensures v.errors.subscriptions == [] && v.status.subscriptions == []
    ensures ids.next == old(ids.next) + 1
    ensures StateOwner(errorsToken, v.errors) && StateRoot(statusToken.layers, v.status) && StateLinked(statusToken.rule)
  {
    var est, sst;
    errorsToken, est := CreateStateToken(Lazy(FlatObject(map[], ids.next)));
    FlatObjectKeys(map[], ids.next);
    ids.next := ids.next + 1;
    statusToken, sst := CreateStateToken(Lazy(PendingStatus));
    v := new Validator(est, sst, debounceMs);
  }

  /**
   * The start of validation (validation.ts:85-91): a run is scheduled with the
   * token's current value, read through `g`, and the callback `hook` is
   * subscribed through `sub`; both reach the store `src`.
   */
  method StartValidation(v: Validator, g: Getter, sub: Subscriber, ghost src: Store, hook: nat) returns (h: Listener)
    requires v.Valid() && src != v.errors && src != v.status && src.Valid()
    requires Wired(g) && GetterStore(g) == src
    requires SubscriberWired(sub) && SubscriberLinked(sub) && SubscriberStore(sub) == src
    modifies v, src
    ensures v.Valid()
    ensures v.Observed() == old(v.Observed()).(pending := Some(Run(ReadPath(old(src.Current()), GetterPath(g)), old(v.version))))
    ensures src.Valid() && src.Current() == old(src.Current())
    ensures src.subscriptions == old(src.subscriptions) + [h]
    ensures Innermost(h) == External(hook) && ForwardKeys(h) == SubscriberPath(sub)
  {
    var current := GetValue(g);
    v.Schedule(Run(current, v.version));
    h := SubscribeVia(sub, External(hook));
  }

  /**
   * `addValidation({ validator, debounceMs })` applied to a builder whose
   * token reads and subscribes through the store `src` (validation.ts:49-110):
   * errors `{}` and status `pending` in tokens of their own, version 0, a run
   * scheduled with the current value, the validation callback `hook`
   * subscribed, then the path, the error feature and the status token on the
   * token and every descendant.
   */
  method AddValidation(b: TokenBuilder, ghost src: Store, debounceMs: nat, hook: nat, ids: Ids)
    returns (v: Validator, errorsToken: Token, statusToken: Token, h: Listener)
    requires b.Valid() && src.Valid()
    requires Wired(GetterOf(b.layers)) && GetterStore(GetterOf(b.layers)) == src
    requires SubscriberWired(SubscriberOf(b.layers)) && SubscriberLinked(SubscriberOf(b.layers))
    requires SubscriberStore(SubscriberOf(b.layers)) == src
    modifies b, src, ids
    ensures fresh(v) && v.Valid() && v.debounceMs == debounceMs
    ensures v.Observed() == ValidationState(0, PendingStatus, v.errors.Current(),
      Some(Run(ReadPath(old(src.Current()), GetterPath(old(GetterOf(b.layers)))), 0)), [])
    ensures Consistent(v.Observed())
    ensures v.errors.Current().Object? && StringKeys(v.errors.Current()) == {}
    ensures StateOwner(errorsToken, v.errors) && StateRoot(statusToken.layers, v.status) && StateLinked(statusToken.rule)
    ensures src.Valid() && src.Current() == old(src.Current())
    ensures src.subscriptions == old(src.subscriptions) + [h]
    ensures Innermost(h) == External(hook) && ForwardKeys(h) == old(SubscriberPath(SubscriberOf(b.layers)))
    ensures b.Valid() && b.disposers == old(b.disposers)
    ensures b.layers == old(b.layers) + [map[Sym(PathSym) := PathField("")],
      PathKeyedLayer(ErrorTokenSym, errorsToken, old(b.layers) + [map[Sym(PathSym) := PathField("")]]),
      StatusLayer(statusToken)]
    ensures b.rule == old(b.rule) + [Derive(PathChild), Derive(LookupChild(ErrorTokenSym, errorsToken)), Copy(StatusLayer(statusToken))]
    ensures forall ks :: Lookup(DescendantLayers(b.layers, b.rule, ks), Sym(ValidationStatusTokenSym)) == Some(TokenField(statusToken))
    ensures forall ks ::
      Lookup(DescendantLayers(b.layers, b.rule, ks), Sym(ErrorTokenSym)) == Some(LookupField(errorsToken, Name(DescendantPath("", ks))))
  {
    v, errorsToken, statusToken := NewValidator(debounceMs, ids);
    h := StartValidation(v, GetterOf(b.layers), SubscriberOf(b.layers), src, hook);
    ExtendValidated(b, errorsToken, statusToken);
  }

  /** `getTokenValidationStatus(token)` (validation.ts:112-116): the status token's value now. */
  method GetTokenValidationStatus(t: Token, statusToken: Token, st: Store) returns (r: Value)
    requires Lookup(t.layers, Sym(ValidationStatusTokenSym)) == Some(TokenField(statusToken))
    requires StateRoot(statusToken.layers, st) && st.Valid()
    modifies t.cache, st
    ensures r == old(st.Current())
    ensures st.Valid() && st.Current() == old(st.Current()) && st.subscriptions == old(st.subscriptions)
  {
    var a := t.Get(Sym(ValidationStatusTokenSym));
    r := GetTokenValue(a.field.token);
  }
}

=== FILE: values.dfy ===
/**
 * JSON-like JavaScript values as the state feature sees them. Objects and
 * arrays carry an identity tag: a copy made by `Object.assign` gets a fresh
 * tag, so `!==` on objects is a comparison of tags and `!==` on primitives a
 * comparison of values.
 */
module JsValues {
  import opened Keys

  datatype Value =
    | Undefined
    | Null
    | Bool(b: bool)
    | Number(n: int)
    | Text(s: string)
    | Object(id: nat, isArray: bool, props: map<PropertyKey, Value>)

  /** `value?.[key]`: a property read that yields undefined on null or undefined. */
  function Get(v: Value, p: PropertyKey): Value {
    match v
    case Object(_, _, props) => if p in props then props[p] else Undefined
    case _ => Undefined
  }

  /** The own enumerable properties `Object.assign` copies from a source. */
  function OwnProps(v: Value): map<PropertyKey, Value> {
    if v.Object? then v.props else map[]
  }

  /**
   * `Object.assign(base, parent, { [key]: x })` with `base` a new array when
   * the key is a number and a new plain object otherwise; `id` is the new
   * object's identity tag.
   */
  function CopyWith(parent: Value, k: ChildKey, x: Value, id: nat): (r: Value)
    ensures r.Object? && r.id == id && r.isArray == k.Index?
    ensures Get(r, AsPropertyKey(k)) == x
    ensures forall p :: p != AsPropertyKey(k) ==> Get(r, p) == Get(parent, p)
  {
    Object(id, k.Index?, OwnProps(parent)[AsPropertyKey(k) := x])
  }

  /** JavaScript `===` on values: identity on objects and arrays, equality on primitives. */
  predicate StrictEq(a: Value, b: Value) {
    if a.Object? && b.Object? then a.id == b.id else a == b
  }

  /** The value a token at path `ks` below the root projects out of the root value. */
  function ReadPath(v: Value, ks: seq<ChildKey>): Value
    decreases |ks|
  {
    if ks == [] then v else ReadPath(Get(v, AsPropertyKey(ks[0])), ks[1..])
  }

  /**
   * Writing `x` through the path `ks`: every ancestor on the path is copied
   * with one key replaced, the deepest copy first, and the copies take the
   * identity tags `next`, `next + 1`, ... Returns the new root value and the
   * next unused tag.
   */
  function WritePath(v: Value, ks: seq<ChildKey>, x: Value, next: nat): (r: (Value, nat))
    ensures r.1 == next + |ks|
    decreases |ks|
  {
    if ks == [] then (x, next)
    else
      var (c, n1) := WritePath(Get(v, AsPropertyKey(ks[0])), ks[1..], x, next);
      (CopyWith(v, ks[0], c, n1), n1 + 1)
  }

  /** Every object met along the path `ks` (the root included) has a tag below `bound`. */
  predicate PathTagsBelow(v: Value, ks: seq<ChildKey>, bound: nat)
    decreases |ks|
  {
    && (v.Object? ==> v.id < bound)
    && (ks != [] ==> PathTagsBelow(Get(v, AsPropertyKey(ks[0])), ks[1..], bound))
  }

  /** Reading back a path just written yields exactly the written value. */
  lemma {:induction false} WriteThenRead(v: Value, ks: seq<ChildKey>, x: Value, next: nat)
    ensures ReadPath(WritePath(v, ks, x, next).0, ks) == x
    decreases |ks|
  {
    if ks != [] {
      WriteThenRead(Get(v, AsPropertyKey(ks[0])), ks[1..], x, next);
    }
  }

  lemma ReadPathStep(v: Value, ks: seq<ChildKey>, i: nat)
    requires i < |ks|
    ensures ReadPath(v, ks[..i + 1]) == Get(ReadPath(v, ks[..i]), AsPropertyKey(ks[i]))
    decreases i
  {
    if i > 0 {
      assert ks[..i + 1][1..] == ks[1..][..i];
      assert ks[..i][1..] == ks[1..][..i - 1];
      ReadPathStep(Get(v, AsPropertyKey(ks[0])), ks[1..], i - 1);
    }
  }

  /** Reading one key further down: the path `ks + [k]` reads `k` of the value at `ks`. */
  lemma {:induction false} ReadPathSnoc(v: Value, ks: seq<ChildKey>, k: ChildKey)
    ensures ReadPath(v, ks + [k]) == Get(ReadPath(v, ks), AsPropertyKey(k))
    decreases |ks|
  {
    if ks == [] {
      assert [k][1..] == [];
    } else {
      assert (ks + [k])[1..] == ks[1..] + [k];
      ReadPathSnoc(Get(v, AsPropertyKey(ks[0])), ks[1..], k);
    }
  }

  /**
   * Writing one key further down is writing, through `ks`, a copy of the
   * value at `ks` with `k` replaced: the copy is the first object created and
   * takes the tag `next`. This is how a child setter hands its copy to its
   * parent's setter.
   */
  lemma {:induction false} WritePathSnoc(v: Value, ks: seq<ChildKey>, k: ChildKey, x: Value, next: nat)
    ensures WritePath(v, ks + [k], x, next) == WritePath(v, ks, CopyWith(ReadPath(v, ks), k, x, next), next + 1)
    decreases |ks|
  {
    if ks == [] {
      assert [k][1..] == [];
    } else {
      assert (ks + [k])[1..] == ks[1..] + [k];
      WritePathSnoc(Get(v, AsPropertyKey(ks[0])), ks[1..], k, x, next);
    }
  }

  /** A write below `ks + [k2]` leaves the value at the sibling path `ks + [k]` as it was. */
  lemma {:induction false} WriteKeepsSibling(v: Value, ks: seq<ChildKey>, k2: ChildKey, k: ChildKey, x: Value, next: nat)
    requires forall j :: 0 <= j < |ks| ==> Normalized(ks[j])
    requires Normalized(k) && Normalized(k2) && k != k2
    ensures ReadPath(WritePath(v, ks + [k2], x, next).0, ks + [k]) == ReadPath(v, ks + [k])
  {
    var p := ks + [k2];
    WriteAncestors(v, p, x, next, |ks|);
    assert p[..|ks|] == ks;
    ReadPathSnoc(WritePath(v, p, x, next).0, ks, k);
    ReadPathSnoc(v, ks, k);
  }

  /**
   * After a write through `ks`, the ancestor at depth `i` is a new array or
   * object (an array exactly when the next key is a number) whose tag is one of
   * the tags handed out, and every other key of it still holds the old value.
   */
  lemma {:induction false} WriteAncestors(v: Value, ks: seq<ChildKey>, x: Value, next: nat, i: nat)
    requires i < |ks|
    requires forall j :: 0 <= j < |ks| ==> Normalized(ks[j])
    ensures var a := ReadPath(WritePath(v, ks, x, next).0, ks[..i]);
      && a.Object? && a.isArray == ks[i].Index?
      && next <= a.id < next + |ks|
      && forall k :: Normalized(k) && k != ks[i] ==>
           Get(a, AsPropertyKey(k)) == Get(ReadPath(v, ks[..i]), AsPropertyKey(k))
    decreases i
  {
    var r := WritePath(v, ks, x, next).0;
    var (c, n1) := WritePath(Get(v, AsPropertyKey(ks[0])), ks[1..], x, next);
    assert r == CopyWith(v, ks[0], c, n1);
    if i == 0 {
      assert ks[..0] == [];
      forall k | Normalized(k) && k != ks[0]
        ensures Get(r, AsPropertyKey(k)) == Get(v, AsPropertyKey(k))
      {
        if AsPropertyKey(k) == AsPropertyKey(ks[0]) {
          AsPropertyKeyInjective(k, ks[0]);
        }
      }
    } else {
      var tail := ks[1..];
      assert ks[..i][0] == ks[0] && ks[..i][1..] == tail[..i - 1];
      assert ReadPath(r, ks[..i]) == ReadPath(c, tail[..i - 1]);
      assert ReadPath(v, ks[..i]) == ReadPath(Get(v, AsPropertyKey(ks[0])), tail[..i - 1]);
      WriteAncestors(Get(v, AsPropertyKey(ks[0])), tail, x, next, i - 1);
    }
  }

  /**
   * With every object on the old path tagged below `next`, no ancestor of the
   * written value is `===` to the value it replaces: each is a new object.
   */
  lemma {:induction false} WriteRenewsAncestors(v: Value, ks: seq<ChildKey>, x: Value, next: nat, i: nat)
    requires i < |ks|
    requires forall j :: 0 <= j < |ks| ==> Normalized(ks[j])
    requires PathTagsBelow(v, ks, next)
    ensures !StrictEq(ReadPath(WritePath(v, ks, x, next).0, ks[..i]), ReadPath(v, ks[..i]))
  {
    WriteAncestors(v, ks, x, next, i);
    OldPathTagsBelow(v, ks, next, i);
  }

  lemma {:induction false} OldPathTagsBelow(v: Value, ks: seq<ChildKey>, bound: nat, i: nat)
    requires i <= |ks|
    requires PathTagsBelow(v, ks, bound)
    ensures var a := ReadPath(v, ks[..i]); a.Object? ==> a.id < bound
    decreases i
  {
    if i > 0 {
      assert ks[..i][1..] == ks[1..][..i - 1];
      OldPathTagsBelow(Get(v, AsPropertyKey(ks[0])), ks[1..], bound, i - 1);
    }
  }

  /** A flat object whose string keys are the map's keys: the shape of an errors or touched-fields map. */
  function FlatObject(entries: map<string, Value>, id: nat): (r: Value)
    ensures r.Object? && !r.isArray && r.id == id
    ensures forall s :: Get(r, Name(s)) == if s in entries then entries[s] else Undefined
  {
    Object(id, false, map s | s in entries :: Name(s) := entries[s])
  }

  /** The string-keyed entries of an object: what `Object.keys` enumerates. */
  function StringKeys(v: Value): set<string> {
    if v.Object? then set p | p in v.props && p.Name? :: p.text else {}
  }

  lemma FlatObjectKeys(entries: map<string, Value>, id: nat)
    ensures StringKeys(FlatObject(entries, id)) == entries.Keys
  {
    var r := FlatObject(entries, id);
    forall s | s in entries ensures s in StringKeys(r) {
      assert Name(s) in r.props;
    }
  }

  /** JavaScript truthiness (`Boolean(v)`, `if (v)`): integers stand for numbers, so NaN does not arise. */
  predicate Truthy(v: Value) {
    match v
    case Undefined => false
    case Null => false
    case Bool(b) => b
    case Number(n) => n != 0
    case Text(s) => s != ""
    case Object(_, _, _) => true
  }
}

